=== FILE: README.md ===
# Music affinity core, modelled in Dafny

This project models the I/O-free core of a web service that compares the
music taste of two Spotify users.

- **Affinity engine** (`affinity.dfy`, with `artists.dfy`, `diversity.dfy` and `rounding.dfy`). It takes two lists of artist records and produces a report. The report combines four sub-scores with fixed weights:
  - the overlap of artist ids;
  - the Jaccard index of the genre sets;
  - the closeness of the mean popularities;
  - the closeness of the normalised genre-entropy diversities.

  The report also holds a rounded percentage score, an analysis sentence chosen by score tier, the common artists, the sorted common genres, and the per-metric percentages.
- **In-memory cache manager** (`cache.dfy`, `memo.dfy`). The cache is a dictionary from string keys to JSON-like values, with `get`, `set`, `delete`, `clear` and `exists`. Around it sit:
  - the `cached` memoisation wrapper and its key derivation;
  - substring-based invalidation of a user's entries;
  - the set/get/delete health probe.

  Each operation is a transition from one cache state to the next. The wrapper reports how many times it invoked the wrapped function.
- **Route helpers** (`stats.dfy`): the unique genres of an artist list, the genre-count variety label, and the statistics record built from a fetched top-artists list.
- **Catalogue-client helpers** (`spotify.dfy`, `playlists.dfy`):
  - reading a user id out of a profile URL;
  - the five-minute token-expiry check;
  - the playlist scan, which collects artists from at most five playlists under a track budget, requests each new artist id until one request for it succeeds, sorts them by popularity with a stable descending sort, and keeps the top twenty.

Shared building blocks live in their own modules:
- `wrappers.dfy`: `Option`;
- `strings.dfy`: substring search, Python's `split`, `strip`, and decimal rendering;
- `ordering.dfy`: code-point string order and a strictly sorting insertion sort;
- `seqs.dfy`: first-occurrence de-duplication, filtering, and sums.

Several things outside the model are function parameters of the operations that use them:
- the normalised entropy of a genre distribution (`h`, constrained to [0, 1]);
- the serialise-and-MD5 digest of the cache-key data (`digest`);
- the wrapped function of the memoiser (`f`);
- the wall clock (`now`);
- the two catalogue requests of the playlist scan (`tracks`, `fetch`).

Two behaviours of the code that a reader might not expect:
- Memoisation. One might expect two identical calls to run the wrapped function once. The code stores whatever the function returns, but reads back "not cached" for a stored `None`, so a function returning `None` runs on every call (`Memo.RepeatedCall`, `Memo.NoneIsNeverCached`). Results that are falsy but not `None` are stored and are hits.
- `find_common_genres`. Its docstring says "sorted by frequency". The code sorts the genre names alphabetically, and so does the model.

## Model

| member | source | states |
|---|---|---|
| Affinity.WeightsSumToOne | src/services/affinity_service.py:13-18 | The four weights 0.4, 0.3, 0.2 and 0.1 sum to exactly 1. |
| Affinity.UpsertIds | src/services/affinity_service.py:108 | Building the id-keyed dictionary: a new id is appended to the key order, and a repeated id keeps its first position. |
| Affinity.UpsertMembers | src/services/affinity_service.py:108 | After storing a record, every entry is either that record or an earlier entry with a different id; the later record replaces the earlier one for its id. |
| Affinity.IndexByIdIds | src/services/affinity_service.py:108 | The keys of the dictionary `{a["id"]: a for a in artists1}` are the ids of the list, each once, in order of first occurrence. |
| Affinity.IndexByIdLast | src/services/affinity_service.py:108 | Each value of that dictionary is the last record of the list with its id. |
| Affinity.IndexById | src/services/affinity_service.py:108 | The dictionary has no more entries than the list has records, and the last record of the list is always one of them. |
| Affinity.IdsOfFilter | src/services/affinity_service.py:111-114 | Keeping the records whose ids lie in a set, then taking ids, equals filtering the ids directly. |
| Affinity.FindCommonArtists | src/services/affinity_service.py:108-116 | The result ids are the distinct ids of list 1 that occur in list 2, in first-occurrence order. Each record is the last one with its id in list 1. There are at most as many as list 1 has records. |
| Affinity.CommonArtistIds | src/services/affinity_service.py:108-116 | An id is in the result iff it occurs in both lists, and the result has no repeated id. |
| Affinity.CommonArtistsWithSelf | tests/test_affinity_service.py:310-318 | For a list with distinct ids, the common artists with itself are the list itself. |
| Affinity.OnlyRecordOfId | src/services/affinity_service.py:108 | In a list with distinct ids, the last record with a given id is the one at that id's position. |
| Affinity.ArtistOverlap | src/services/affinity_service.py:37-40 | The common count divided by the longer list's length lies in [0, 1]. |
| Affinity.RatioBounds | src/services/affinity_service.py:37-40 | For c ≤ n, the ratio c/n is in [0, 1], equals 1 iff c = n, and equals 0 iff c = 0. |
| Affinity.SubsetCard | src/services/affinity_service.py:137-141 | A subset is never larger than its superset, so the intersection is no larger than the union. |
| Affinity.GenreSimilarity | src/services/affinity_service.py:131-141 | The Jaccard index lies in [0, 1], and is 0 when either genre set is empty. |
| Affinity.GenreSimilaritySymmetric | src/services/affinity_service.py:131-141 | Swapping the two lists does not change genre similarity. |
| Affinity.GenreSimilarityExtremes | src/services/affinity_service.py:131-141 | Similarity is 1 iff both genre sets are equal and non-empty. It is 0 iff either set is empty or the two are disjoint. |
| Affinity.FindCommonGenres | src/services/affinity_service.py:207-211 | The result is strictly increasing, and a genre is in it iff both lists carry it. |
| Affinity.CommonGenresUnique | src/services/affinity_service.py:207-211 | Any strictly increasing list holding exactly the shared genres is the result, so the result is determined by the two genre sets. |
| Affinity.Popularities | src/services/affinity_service.py:156-157 | Each artist contributes its popularity, with a missing popularity read as 50. |
| Affinity.PopularitySimilarity | src/services/affinity_service.py:156-170 | The similarity lies in [0, 1], and is 0 when either list is empty. |
| Affinity.PopularitySimilaritySymmetric | src/services/affinity_service.py:156-170 | Swapping the two lists does not change popularity similarity. |
| Affinity.PopularitySimilarityOne | src/services/affinity_service.py:156-170 | Popularity similarity is 1 iff the two mean popularities are equal. |
| Affinity.PopularityFloorInactive | src/services/affinity_service.py:165-170 | With popularities in [0, 100], the similarity is exactly 1 − abs(mean1 − mean2)/100, so the floor at 0 never applies. |
| Affinity.MeanBounds | src/services/affinity_service.py:162-163 | The mean of popularities in [0, 100] is in [0, 100]. |
| Affinity.MeanBetween | src/services/affinity_service.py:162-163 | A total in [0, 100·n] over n items gives an average in [0, 100]. |
| Affinity.DiversityCompatibility | src/services/affinity_service.py:185-192 | 1 − abs(d1 − d2) lies in [0, 1]. |
| Affinity.DiversityCompatibilitySymmetric | src/services/affinity_service.py:185-192 | Swapping the two lists does not change diversity compatibility. |
| Affinity.DiversityOfNarrowLists | src/services/affinity_service.py:185-192 | Two lists with at most one distinct genre each are fully compatible in diversity. |
| Affinity.TierBands | src/services/affinity_service.py:232-250 | Each tier is chosen exactly for its band of scores: ≥85, 70-84, 55-69, 40-54, 25-39, below 25. |
| Affinity.TierMonotone | src/services/affinity_service.py:232-250 | A higher score never gives a lower tier. |
| Affinity.TierWordInPhrase | src/services/affinity_service.py:232-250 | Each tier's compatibility phrase names the tier's word. |
| Affinity.GenerateAnalysis | src/services/affinity_service.py:232-258 | The sentence opens with "You have ", the tier's phrase, "! " and the tier's description, and names the tier word of its score. With no common artists it ends with the description. With n > 0 it ends with " You share n common artist." ("artists" when n ≠ 1). |
| Affinity.AnalysisCountClause | src/services/affinity_service.py:252-256 | With n > 0 common artists, the sentence contains "n common artist", pluralised when n ≠ 1. |
| Affinity.AnalysisHighScore | tests/test_affinity_service.py:183-206 | A score of 85 or more produces a sentence containing "exceptional". |
| Affinity.AnalysisLowScore | tests/test_affinity_service.py:183-206 | A score below 25 produces a sentence containing "different". |
| Affinity.AnalysisFiveShared | tests/test_affinity_service.py:183-206 | Five common artists produce the phrase "5 common artists". |
| Affinity.AnalysisOneShared | tests/test_affinity_service.py:183-206 | With one common artist the sentence ends with, and so contains, "You share 1 common artist." |
| Affinity.SingularClause | src/services/affinity_service.py:254-256 | The count clause for one artist is " You share 1 common artist.", with the singular noun. |
| Affinity.CountPhrase | src/services/affinity_service.py:252-258 | The count phrase for n > 0 occurs in the sentence. |
| Affinity.PhraseFor | src/services/affinity_service.py:254-256 | The count phrase is assembled from the rendered count and the noun. |
| Affinity.Summaries | src/services/affinity_service.py:76-79 | Entry k is the name of the k-th common artist and its popularity, with a missing popularity shown as 0. |
| Affinity.OverallScore | src/services/affinity_service.py:55-60 | The weighted sum of four sub-scores in [0, 1] is in [0, 1], and all-ones gives 1. |
| Affinity.EmptyReport | src/services/affinity_service.py:292-311 | The empty report has score 0, mentions "insufficient data", and has no common artists or genres. Every metric reads "0%" and every detailed score is 0. |
| Affinity.CalculateAffinity | src/services/affinity_service.py:20-93 | An empty input gives the empty report, and two non-empty lists give the scored report. In the second case the score and each detailed score are in [0, 100], and the metrics render them with "%". The overall match equals the score, and the analysis is the tier sentence for that score and the common count. There are no more common artists than list 1 has records. The common genres are sorted and are exactly the shared ones. |
| Affinity.ScoredReport | src/services/affinity_service.py:36-93 | For two non-empty lists the common artists are the summaries of the common-artist records, and the common genres are the sorted shared genres. The score is the rounded weighted sum of the four sub-scores. Each detailed score is the rounded percentage of its sub-score. All of them are in [0, 100], and the metric strings agree with the figures. The analysis is the one for the score and the common count. |
| Affinity.Score | src/services/affinity_service.py:54-63 | Rounding the weighted sum of four sub-scores in [0, 1] to a percentage gives a whole number in [0, 100]. |
| Affinity.SelfSubScores | tests/test_affinity_service.py:310-318 | A non-empty list with distinct ids, compared with itself, has overlap 1, popularity 1 and diversity 1. Its genre similarity is 1, or 0 when it has no genres. |
| Affinity.SelfAffinity | tests/test_affinity_service.py:310-318 | A list with distinct ids compared with itself shares all its artists and scores 100, or 70 without genres. |
| Artists.Ids | src/services/affinity_service.py:108-109 | The ids of a list, position by position. |
| Artists.GenreTagsMembers | src/services/affinity_service.py:260-266 | A tag occurs in the flattened tag list iff some artist carries it. |
| Artists.GenreSet | src/services/affinity_service.py:260-266 | `_extract_genres`: a genre is in the set iff some artist's present genre list holds it. |
| Artists.NoGenresNoTags | src/services/affinity_service.py:270-276 | The genre set is empty exactly when no artist contributes a tag. |
| Diversity.TableKeys | src/services/affinity_service.py:279 | The keys of a tally table, position by position. |
| Diversity.Bump | src/services/affinity_service.py:279 | Counting one more tag adds at most one new entry. |
| Diversity.BumpKeys | src/services/affinity_service.py:279 | A tag seen before keeps the key order, and a new tag is appended. |
| Diversity.BumpSum | src/services/affinity_service.py:279-280 | Counting one tag raises the total count by one. |
| Diversity.BumpCountsAt | src/services/affinity_service.py:279 | Only the counted tag's entry grows, by one; a new tag enters with count 1. |
| Diversity.BumpCounts | src/services/affinity_service.py:279 | After counting one more tag, every entry holds that tag's multiplicity in the extended list. |
| Diversity.Tally | src/services/affinity_service.py:279-280 | `Counter(genres)`: the keys are the distinct tags in first-occurrence order, each count is the tag's multiplicity, and the counts sum to the tag count. |
| Diversity.TallyPositive | src/services/affinity_service.py:279-285 | Every count is between 1 and the number of tags. |
| Diversity.MultisetCountBound | src/services/affinity_service.py:279-285 | No multiplicity exceeds the size of the multiset. |
| Diversity.Shares | src/services/affinity_service.py:284-285 | Each proportion is its count divided by the total. |
| Diversity.SharesSum | src/services/affinity_service.py:284-286 | The proportions sum to the count total over the number of tags. |
| Diversity.DivAdd | src/services/affinity_service.py:284-286 | Fractions with the same positive denominator add numerator-wise. |
| Diversity.Proportions | src/services/affinity_service.py:279-286 | The proportions form a probability distribution with one entry per distinct tag. |
| Diversity.ShareBounds | src/services/affinity_service.py:285 | A share c/n with 1 ≤ c ≤ n is in (0, 1], and is 1 when c = n. |
| Diversity.DistinctCard | src/services/affinity_service.py:289 | A duplicate-free list has as many distinct elements as entries. |
| Diversity.DistinctTagCount | src/services/affinity_service.py:289 | The distinct tags of the flattened list are exactly as many as the genre set. |
| Diversity.GenreDiversity | src/services/affinity_service.py:268-290 | The normalised diversity is in [0, 1], and is 0 with at most one distinct genre. |
| Rounding.RoundHalfEven | src/services/affinity_service.py:63 | `round`: the result is within 0.5 of the input, and exact halves go to the even neighbour. |
| Rounding.RoundHalfEvenUnique | src/services/affinity_service.py:63 | Any integer within 0.5 of x, and even on a tie, is the rounding of x. |
| Rounding.RoundWhole | src/services/affinity_service.py:63 | A whole number rounds to itself. |
| Rounding.RoundBetween | src/services/affinity_service.py:63 | A value between two integers rounds to something between them. |
| Rounding.RoundMonotone | src/services/affinity_service.py:63 | Rounding never reverses order. |
| Rounding.Percent | src/services/affinity_service.py:63 | `round(x * 100)` of a value in [0, 1] is in [0, 100], with 1 giving 100 and 0 giving 0. |
| Cache.Set | src/utils/cache.py:71-83 | `set` stores the value under the key, reports True, and leaves every other key as it was. |
| Cache.Get | src/utils/cache.py:58-69 | A stored key reads back exactly its stored value (even a None one); an absent key reads as None. |
| Cache.Exists | src/utils/cache.py:108-117 | A key exists iff it is stored, whatever its value; a key that does not exist reads as None. |
| Cache.Delete | src/utils/cache.py:85-94 | `delete` leaves the key absent and other keys unchanged. It reports True iff the key was stored with a truthy value. |
| Cache.Clear | src/utils/cache.py:96-106 | `clear` leaves no key stored and reports True. |
| Cache.SetThenGet | src/utils/cache.py:58-80 | Reading back a stored value gives it, and the expiry makes no difference in memory mode. |
| Cache.StoredNoneExists | src/utils/cache.py:58-117 | A stored None reads back as None but still exists. |
| Cache.GetImpliesExists | src/utils/cache.py:58-117 | A non-None `get` means the key exists. |
| Cache.DeleteFalsyReportsFalse | src/utils/cache.py:85-94 | Deleting a stored falsy value removes it but reports False. |
| Cache.SetDeleteRestores | src/utils/cache.py:71-94 | Storing and then deleting a previously absent key restores the cache exactly. |
| Cache.InvalidateUserCache | src/utils/cache.py:237-246 | Exactly the keys containing the user id as a substring are removed. Other entries keep their values. The logged count is the number of matching keys. |
| Cache.EmptyUserIdMatchesAll | src/utils/cache.py:237-242 | Invalidating the empty id matches, and so removes, every key. |
| Cache.Classify | src/utils/cache.py:299-307 | A falsy read-back is degraded. The result is unhealthy iff the read-back is truthy and not a dict, which raises on `.get`. A dict is healthy iff its "test" entry is True. |
| Cache.HealthCheck | src/utils/cache.py:266-309 | Memory mode reports "memory", healthy, no error; "health_check_test" is absent afterwards and all other keys are unchanged. |
| Memo.CanonicalKwargs | src/utils/cache.py:50 | No keyword arguments give `{}`. Otherwise the pairs are sorted by name, and with distinct names the sort keeps exactly the pairs given. |
| Memo.CanonicalKwargsOrderFree | src/utils/cache.py:50 | Two keyword-argument lists with the same pairs, in any order, canonicalise identically. |
| Memo.GenerateCacheKey | src/utils/cache.py:47-56 | The key is the prefix, a colon, and the first 16 characters of the digest of the arguments and the sorted keyword arguments. A shorter digest is kept whole. |
| Memo.SamePrefixKeys | src/utils/cache.py:47-56 | For digests of at least 16 characters, two calls with the same prefix get the same key iff their digests agree on the first 16 characters. |
| Memo.CacheKeyOrderFree | src/utils/cache.py:47-56 | Reordering keyword arguments does not change the key. |
| Memo.WrapperKey | src/utils/cache.py:172-176 | The wrapper's key starts with the prefix and a colon, followed by the first 16 characters of the digest of the function name, the arguments and the sorted keyword arguments. |
| Memo.CachedCall | src/utils/cache.py:172-191 | On a hit the stored value is returned, the cache is untouched and the function is not run. On a miss the function runs once, its result is returned and stored, and a raise leaves the cache untouched. Other keys never change. |
| Memo.RepeatedCall | src/utils/cache.py:172-191 | The second of two identical calls returns what the first did. Together they run the function at most once iff the key was cached or the function returns a non-None value. |
| Memo.NoneIsNeverCached | src/utils/cache.py:179-189 | A function returning None runs on every call, and its key still reads as None. |
| Memo.CallAfterInvalidation | src/utils/cache.py:237-246 | After invalidating a user id that occurs in a call's key, the next call runs the function again. |
| Stats.UniqueGenres | src/routes/api.py:155-161 | The result has no repeats and holds exactly the genres of the artists that have a genre list. |
| Stats.MusicVariety | src/routes/api.py:164-181 | "Unknown" exactly for an empty list; a non-empty list with no genres is "Very Low". |
| Stats.VarietyBands | src/routes/api.py:169-181 | For a non-empty list each label covers exactly its band of unique-genre counts: ≥10, 7-9, 4-6, 2-3, below 2. |
| Stats.VarietyMonotone | src/routes/api.py:169-181 | More unique genres never give a lower label. |
| Stats.UserStatsOf | src/routes/api.py:57-64 | The counts are the list length and its unique-genre count, and the variety is the label of the list's variety level, which is "Unknown" iff the list is empty. |
| Spotify.UserIdSegment | src/services/spotify_service.py:264-265 | The piece after the first "/user/", cut at the first "?", holds no "?" and no "/user/". |
| Spotify.QueryCutFacts | src/services/spotify_service.py:265 | Cutting at the first "?" leaves no "?" and creates no "/user/". |
| Spotify.NoCharIfNotContained | src/services/spotify_service.py:265 | A string without the one-character substring "?" has no "?" character. |
| Spotify.MarkerHasUserSegment | src/services/spotify_service.py:261-264 | The profile marker contains "/user/". |
| Spotify.ExtractUserIdFromUrl | src/services/spotify_service.py:241-270 | None or "" gives None, and a non-"http" input gives it stripped. An "http" input without the profile marker gives None; with it, the result is an id with no "?" and no "/user/". |
| Spotify.StripKeepsAbsence | src/services/spotify_service.py:266 | Stripping never creates an occurrence of a substring. |
| Spotify.IndexErrorUnreachable | src/services/spotify_service.py:261-268 | A URL containing the profile marker always splits into at least two pieces around "/user/", so the `IndexError` handler is never reached. |
| Spotify.JoinPeel | src/services/spotify_service.py:264-265 | Joining split pieces is the first piece followed by nothing, or by the separator and the rest. |
| Spotify.CutAtUserSegment | src/services/spotify_service.py:264-265 | A URL is the text before the first "/user/", then "/user/", the segment, and a rest that is empty or starts with "?" or "/user/". The first occurrence of "/user/" is exactly where the text before ends. |
| Spotify.QueryCut | src/services/spotify_service.py:265 | A piece is its part before the first "?" followed by a rest that is empty or starts with "?" or "/user/". |
| Spotify.SegmentLeftmost | src/services/spotify_service.py:264-265 | In the text after the first "/user/", no further "/user/" starts inside the segment. |
| Spotify.ProfileUrlSegment | src/services/spotify_service.py:261-266 | A profile URL decomposes around the first "/user/", whose position is exactly where the text before ends. The segment is the piece taken by the split: it holds no "?", no further "/user/" starts inside it, and the rest is empty or starts at the next "?" or "/user/". The extracted id is the stripped segment. |
| Spotify.IsTokenValid | src/services/spotify_service.py:139-147 | A token is valid iff it is present, has an expiry, and now is more than 300 seconds before that expiry. |
| Spotify.TokenValidityMonotone | src/services/spotify_service.py:139-147 | Once invalid, a token stays invalid as time advances. |
| Spotify.TokenInvalidWithinBuffer | src/services/spotify_service.py:147 | In the last five minutes before expiry a token is already invalid. |
| Playlists.Stored | src/services/spotify_service.py:380-385 | The stored record keeps the fetched id and name, and always has a popularity (default 0) and a genre list (default empty). |
| Playlists.Keys | src/services/spotify_service.py:349 | The dictionary's keys, in insertion order. |
| Playlists.Values | src/services/spotify_service.py:393 | The dictionary's values, in insertion order. |
| Playlists.VisitArtist | src/services/spotify_service.py:370-385 | Existing entries are kept. A stored id is neither requested nor changed, so the first successful fetch wins. A new id is requested once and becomes a key iff the request succeeds. Keys stay distinct. |
| Playlists.VisitArtists | src/services/spotify_service.py:369-385 | After a track's artists, the keys are the old keys plus the track's ids whose requests succeed. Each id costs at most one request, and earlier entries are untouched. |
| Playlists.VisitItems | src/services/spotify_service.py:364-390 | Exactly min(number of items, limit − count) items are counted, never past the limit, and earlier entries are untouched. The keys afterwards are the old keys plus the artist ids of the items reached before the limit whose artist request succeeds. |
| Playlists.ItemStep | src/services/spotify_service.py:365-390 | The keys after the first item and then the rest are the old keys plus the successful ids of the items reached. |
| Playlists.ItemIdsMembers | src/services/spotify_service.py:365-372 | An id is among the items' artist ids iff some item lists it. |
| Playlists.Reached | src/services/spotify_service.py:365-367 | With room r left, the loop reaches the first min(n, max(r, 0)) of the n items. |
| Playlists.ReachedCons | src/services/spotify_service.py:365-390 | With room left, the ids reached are the first item's ids, then those the rest reaches with one track less. |
| Playlists.RequestBounds | src/services/spotify_service.py:352-360 | A request made at a counter below the limit asks for between 1 and min(20, limit) tracks. |
| Playlists.VisitPlaylist | src/services/spotify_service.py:352-390 | Below the limit, a playlist adds exactly one tracks request, made at the current counter for min(20, limit − counter) tracks. The counter afterwards is the request's counter plus the number of items of its answer reached before the limit, and a failed request changes neither the dictionary nor the counter. The keys afterwards are the old keys plus the ids this request answered (within the limit) whose artist request succeeds. |
| Playlists.VisitPlaylistConsistent | src/services/spotify_service.py:352-390 | Visiting a playlist below the limit keeps the loop's invariant: the keys are exactly the ids answered by all requests so far whose artist request succeeds, each request asked for min(20, limit − c) tracks at its counter c, and no counter decreases or passes the current one. |
| Playlists.ContributedAppend | src/services/spotify_service.py:352-390 | An id was answered by the requests plus one more iff it was answered by them or by the new one. |
| Playlists.FoundExactlyStep | src/services/spotify_service.py:352-390 | A step that records one request and adds exactly that request's successful ids keeps the keys equal to the answered ids of all requests. |
| Playlists.VisitAnswer | src/services/spotify_service.py:363-390 | A failed tracks request changes nothing. A successful one raises the counter by exactly the number of its items reached before the limit, adds the successful ids of those items, and leaves the requests alone. |
| Playlists.VisitPlaylists | src/services/spotify_service.py:352-390 | The loop keeps the dictionary valid and the counter within the limit, only appends to the entries and to the requests, never lowers the counter, and changes nothing once the counter has reached the limit. |
| Playlists.VisitPlaylistsConsistent | src/services/spotify_service.py:352-390 | The whole loop keeps that invariant, so its keys are exactly the ids answered by its requests whose artist request succeeds. |
| Playlists.ChainedAppend | src/services/spotify_service.py:352-390 | A request made at the counter the earlier requests left extends the chain, and the counter it leaves is its own counter plus the items its answer reached. |
| Playlists.VisitPlaylistsBudget | src/services/spotify_service.py:349-390 | One track budget is spent across all playlists: the first request is made at counter 0, each later one at the counter the previous one left (its counter plus the items its answer reached before the limit), and the final counter is the one the last request left. |
| Playlists.VisitPlaylistsTrace | src/services/spotify_service.py:352-390 | The requests the loop appends and the counter it ends at are those of an independent trace computed from the tracks answers alone, without the artist requests. |
| Playlists.TraceFacts | src/services/spotify_service.py:352-360 | In that trace request k is for playlist k, at a counter no lower than the start, and it is shorter than the playlist list only when the counter it leaves has reached the limit. |
| Playlists.VisitPlaylistsRequests | src/services/spotify_service.py:352-360 | The loop makes at most one request per playlist, request k for playlist k, and visits fewer playlists than it is given only once the counter has reached the limit. |
| Playlists.VisitPlaylistsFirst | src/services/spotify_service.py:352-360 | Below the limit, the first new request is for the first playlist, at the current counter, for min(20, limit − counter) tracks. |
| Playlists.FirstOfScan | src/services/spotify_service.py:349-360 | From an empty dictionary and a zero counter with a positive limit, the first request is for the first playlist at counter 0 for min(20, limit) tracks. |
| Playlists.RequestsForPrefix | src/services/spotify_service.py:352 | Requests matching the first playlists in order also match the whole list in order. |
| Playlists.RequestsForCons | src/services/spotify_service.py:352-360 | A request for the first playlist followed by requests matching the rest matches the whole list. |
| Playlists.InsertPos | src/services/spotify_service.py:394 | The insertion point lies after every strictly more popular artist and before the rest. |
| Playlists.InsertDesc | src/services/spotify_service.py:394 | Inserting into a descending list keeps it descending and adds exactly one element. |
| Playlists.SortDesc | src/services/spotify_service.py:394 | The popularity sort gives a descending permutation of its input. |
| Playlists.InsertStable | src/services/spotify_service.py:394 | Among artists of one popularity, the inserted artist comes before those already in the list. |
| Playlists.SpliceFilter | src/services/spotify_service.py:394 | Splicing in front of a less popular tail keeps each popularity class in order. |
| Playlists.SortStable | src/services/spotify_service.py:394 | The sort is stable: the artists of each popularity keep their original relative order. |
| Playlists.Top | src/services/spotify_service.py:392-396 | `[:20]` of the sorted list: min(20, n) artists, descending, drawn from the input. Any input artist more popular than the last kept one is kept. |
| Playlists.TopStable | src/services/spotify_service.py:392-396 | The cut keeps the stable order: the kept artists of any one popularity are the first artists of that popularity in the input order. |
| Playlists.PrefixFacts | src/services/spotify_service.py:396 | A prefix of a descending arrangement is descending, drawn from the input, and keeps anything more popular than its last element. |
| Playlists.PrefixKeepsMorePopular | src/services/spotify_service.py:396 | In a descending list, an artist more popular than the m-th is among the first m. |
| Playlists.PlaylistArtists | src/services/spotify_service.py:328-396 | A missing or empty playlist answer gives nothing. Otherwise the collected artists are exactly the stored records of the artist ids that some tracks request answered within the limit and whose artist request succeeds. Of the n collected artists, min(20, n) are returned, most popular first, and any collected artist more popular than the last returned one is returned. Request k is for playlist k, at most 5 are made, and fewer only once the counter has reached the limit. Each asks for min(20, limit − c) tracks at a counter c in [0, limit), with c non-decreasing. The first asks for min(20, limit) at counter 0, each later one is made at the counter the previous one left (its counter plus the items its answer reached), and the final counter is the one the last request left. |
| Playlists.ScanPlaylists | src/services/spotify_service.py:350-396 | For a non-empty playlist list: the collected artists are exactly the stored records of the successful ids answered by the tracks requests. The returned artists are the top min(20, n) of them, and the requests go to the playlists in order, sized by their counters, each made at the counter the previous one left, and the final counter is the one the last request left. |
| Playlists.ScanFirstPlaylists | src/services/spotify_service.py:349-390 | Visiting the first five playlists from an empty dictionary and a zero counter leaves exactly the answered, successful ids as keys. It makes at most 5 tracks requests, request k for playlist k, and fewer only once the limit is reached. Each asks for min(20, limit − c) tracks at a counter c in [0, limit), with c non-decreasing. With a positive limit the first request asks for min(20, limit) at counter 0. Each later request is made at the counter the previous one left, and the final counter is the one the last request left. The requests are exactly the trace of the first five playlists from counter 0. |
| Playlists.FirstPlaylists | src/services/spotify_service.py:352 | `items[:5]`: the first min(5, n) playlists, in order. |
| Playlists.Finish | src/services/spotify_service.py:392-396 | The returned artists are min(20, n) of the n dictionary values, most popular first, and keep every value more popular than the last kept one. Each is the stored record of a successful artist request. |
| Playlists.CollectedExactly | src/services/spotify_service.py:381-393 | When the keys are exactly the answered, successful ids, the dictionary's values are exactly their stored records. |
| Playlists.Nothing | src/services/spotify_service.py:344-345 | No playlists gives no artists, no collected artists and no requests. |
| Playlists.PlaylistArtistsStable | src/services/spotify_service.py:392-396 | Among artists of one popularity, the returned ones are the first of that popularity in the dictionary's insertion order. |
| Playlists.PlaylistRequestSizes | src/services/spotify_service.py:360 | Every tracks request of the scan asks for between 1 and min(20, limit) tracks. |
| Playlists.PlaylistArtistsTrace | src/services/spotify_service.py:343-390 | The scan's tracks requests are the trace of the first five playlists from counter 0, or none without playlists, so they are fixed by the playlists, the limit and the tracks answers. |
| Playlists.PlaylistArtistsFromCatalogue | src/services/spotify_service.py:364-396 | Every returned artist is the stored record of an artist id that some tracks request answered within the limit and whose artist request succeeds. |
| Playlists.KeptFromCatalogue | src/services/spotify_service.py:392-396 | Artists taken from such a collection (a sub-multiset of it) are such records too. |
| Playlists.TopFromCatalogue | src/services/spotify_service.py:380-396 | Every returned artist is the stored form of some successful artist request. |
| Playlists.PlaylistArtistsEchoing | src/services/spotify_service.py:370-396 | When the catalogue answers each id with that id's record, the returned ids are distinct and each artist is its own id's stored record. |
| Playlists.EchoedValuesDistinct | src/services/spotify_service.py:370-393 | Under such a catalogue each value's id is its key, so the values are distinct. |
| Playlists.OwnRecords | src/services/spotify_service.py:380-396 | Under such a catalogue, distinct returned artists have distinct ids. |
| Playlists.NoBudgetNoRequests | src/services/spotify_service.py:353-354 | A limit of zero or less makes no request and returns nothing. |
| Playlists.FailedArtistRequestedAgain | src/services/spotify_service.py:370-385 | An id whose artist request failed is requested again when it turns up again, and is still not stored. |
| Strings.Split | src/services/spotify_service.py:264-265 | `str.split(sep)` gives at least one piece. The pieces joined by the separator give back the input, and no piece contains the separator. There are two or more pieces iff the separator occurs. Then the first piece ends where the separator first occurs, and the other pieces are the split of the text after it. |
| Strings.Strip | src/services/spotify_service.py:256 | `str.strip()`: a contiguous slice of the input with no leading or trailing whitespace. |
| Strings.EndsWithContains | src/services/affinity_service.py:252-258 | A string that ends with x contains x. |
| Strings.ContainsInContains | src/services/spotify_service.py:261-264 | A string containing the marker contains every substring of the marker. |
| Strings.NatToString | src/services/affinity_service.py:254-256 | Decimal rendering of a count used in the analysis sentence. |
| Strings.NatToStringInjective | src/services/affinity_service.py:254-256 | Different counts render differently. |
| Ordering.SortByKey | src/services/affinity_service.py:211 | `sorted(...)`: a strictly increasing list with the same key set, drawn from the input. |
| Ordering.SortedUnique | src/services/affinity_service.py:211 | Two strictly sorted lists with the same elements are equal. |
| Ordering.SortKeepsAll | src/utils/cache.py:50 | With distinct keys, sorting keeps every element. |
| Seqs.Dedupe | src/services/affinity_service.py:108 | Dictionary key order: each element once, in first-occurrence order. |
| Seqs.DedupeOrder | src/services/affinity_service.py:108 | De-duplication keeps first-occurrence order: of two kept elements, the first occurs in the input before any occurrence of the second. |
| Seqs.Filter | src/services/affinity_service.py:111-114 | The list comprehension keeps exactly the elements satisfying the test. |
| Seqs.FilterConcat | src/services/spotify_service.py:394 | Filtering distributes over concatenation. |
| Seqs.FilterTake | src/services/spotify_service.py:396 | Filtering a prefix gives a prefix of the filtered list, so cutting a list keeps each class of a filter in order. |
| Seqs.SpliceFirst | src/services/spotify_service.py:394 | Splicing a passing element in after elements that all fail puts it first among the survivors. |
| Seqs.SpliceSkipped | src/services/spotify_service.py:394 | Splicing in a failing element does not change the filtered list. |
| Seqs.FilterSingle | src/services/spotify_service.py:394 | A one-element list filters to itself or to nothing. |
| Seqs.DistinctSubMultiset | src/services/spotify_service.py:396 | Taking some elements of a duplicate-free list gives a duplicate-free list. |

## Left out

- The Redis backend and its branches in `CacheManager`, `invalidate_user_cache` and `cache_health_check`, including JSON (de)serialisation, `setex` TTLs, `flushdb` and `KEYS` patterns. Only the memory backend is modelled.
- The JSON rendering and MD5 hash of the cache-key data. These are the `digest` parameter, and no collision-freedom is claimed.
- `invalidate_user_cache`'s caller passes an 8-character hash of the user id, while memo keys are `prefix:<hash of args>`. The model proves the substring semantics only, not that real invalidation ever hits a memoised entry.
- `math.log2` and IEEE-754 floating point:
  - the normalised entropy is the parameter `h`, constrained to [0, 1];
  - the zero cases (no tags, one distinct tag) follow the code's explicit branches;
  - all sub-scores are exact reals, and the float weights are taken as exact decimals.
- Rounding.RoundHalfEven: models Python's `round` on exact reals (half to even). A float product that lands just beside .5 may round differently in the source.
- Affinity.Compatibility: the compatibility phrases are built from a tier word, giving the same text as the source's literal strings.
- Logging, and the wall-clock latency field of the health report.
- The wording of an exception caught by the health check. It is the `ExceptionMessage` tag.
- Cache.Set: the memory backend never fails, so the `except` path that returns False is not modelled; likewise for `delete`, `clear` and `exists`.
- ISO-string parsing of `expires_at`. Time is whole seconds, and `expires_at` is an integer.
- Every HTTP call of the catalogue client: token exchange and refresh, profile, top artists and playlists. The playlist scan receives the playlist answer and two request functions. A request answers deterministically for the same arguments, so the model does not show a catalogue whose answers change between two identical requests.
- Playlists.PlaylistArtists: the `except Exception` path is not modelled. A malformed record would raise a `KeyError` there (a playlist without "id", an artist without "id" or "name") and give `[]`. So would a `None` popularity that breaks the sort. Item shapes are reduced to lists of artist ids.
- Stats.UniqueGenres: the source returns `list(set)`, whose order Python leaves unspecified. The model returns the genres in an arbitrary order and states only membership, length and absence of repeats.
- `get_cache_info`, `warm_cache` (a no-op), `get_user_id_from_token`, `get_auth_url`, `validate_token`, the auth routes, the Flask handlers, and the mock-user dataset.
- Concurrency: the source has none, and the model is sequential.
- The `Artist` record: a JSON `null` popularity or genre list is not told apart from a missing key; both are `None`. In the source a `null` behaves differently. A `null` popularity makes `sum` raise a `TypeError` (src/services/affinity_service.py:156,162). A `null` genre list makes `set.update(None)` raise (src/routes/api.py:159-160). The model reads both as absent and uses the defaults.

=== FILE: affinity.dfy ===
/** The affinity engine (`AffinityService`): four sub-scores over two artist
    lists, their weighted sum as a rounded percentage, and the report built
    from them. All arithmetic is on exact reals. */
module Affinity {
  import opened Wrappers
  import opened Strings
  import opened Ordering
  import opened Seqs
  import opened Artists
  import opened Diversity
  import opened Rounding

  const ArtistWeight: real := 0.4
  const GenreWeight: real := 0.3
  const PopularityWeight: real := 0.2
  const DiversityWeight: real := 0.1

  lemma WeightsSumToOne()
    ensures ArtistWeight + GenreWeight + PopularityWeight + DiversityWeight == 1.0
  {
  }

  /*************************** common artists ***************************/

  /** Python's `d[a["id"]] = a` on an insertion-ordered dict held as the
      sequence of its values: an existing entry is replaced in place, a new
      one goes to the end. */
  function Upsert(d: seq<Artist>, a: Artist): (r: seq<Artist>)
    ensures a in r
    ensures |d| <= |r| <= |d| + 1
  {
    if |d| == 0 then [a]
    else if d[0].id == a.id then [a] + d[1..]
    else [d[0]] + Upsert(d[1..], a)
  }

  /** Re-assigning a key keeps the key order; a new key goes last. */
  lemma {:induction false} UpsertIds(d: seq<Artist>, a: Artist)
    ensures Ids(Upsert(d, a)) == if a.id in Ids(d) then Ids(d) else Ids(d) + [a.id]
  {
    if |d| > 0 {
      var h, rest := d[0], d[1..];
      ConsSplit(d);
      IdsConcat([h], rest);
      IdsSingle(h);
      if h.id == a.id {
        IdsConcat([a], rest);
        IdsSingle(a);
      } else {
        UpsertIds(rest, a);
        IdsConcat([h], Upsert(rest, a));
        assert a.id in Ids(d) <==> a.id in Ids(rest);
      }
    }
  }

  /** After the assignment the dict holds `a` and otherwise only records of
      other ids that it held before. */
  lemma {:induction false} UpsertMembers(d: seq<Artist>, a: Artist)
    requires Distinct(Ids(d))
    ensures forall y :: y in Upsert(d, a) ==> y == a || (y in d && y.id != a.id)
  {
    if |d| > 0 {
      var ids := Ids(d);
      if d[0].id == a.id {
        forall y | y in d[1..] ensures y.id != a.id {
          var k :| 0 <= k < |d| - 1 && d[1..][k] == y;
          assert d[k + 1] == y;
          assert ids[0] != ids[k + 1];
        }
        assert Upsert(d, a) == [a] + d[1..];
      } else {
        var tail := Ids(d[1..]);
        forall i, j | 0 <= i < j < |tail| ensures tail[i] != tail[j] {
          assert tail[i] == ids[i + 1] && tail[j] == ids[j + 1];
        }
        UpsertMembers(d[1..], a);
        assert Upsert(d, a) == [d[0]] + Upsert(d[1..], a);
      }
    }
  }

  /** `{artist["id"]: artist for artist in xs}`, as the sequence of its
      values in key order. */
  function IndexById(xs: seq<Artist>): (r: seq<Artist>)
    ensures |r| <= |xs|
    ensures |xs| > 0 ==> xs[|xs| - 1] in r
  {
    if |xs| == 0 then [] else Upsert(IndexById(xs[..|xs| - 1]), xs[|xs| - 1])
  }

  /** `a` occurs in `xs` and no later record of `xs` has its id: it is the
      record a Python dict keyed by id keeps for that id. */
  ghost predicate IsLastRecord(xs: seq<Artist>, a: Artist)
  {
    exists k :: 0 <= k < |xs| && xs[k] == a && forall j :: k < j < |xs| ==> xs[j].id != a.id
  }

  /** The dict's keys are the ids of the list in order of first occurrence. */
  lemma {:induction false} IndexByIdIds(xs: seq<Artist>)
    ensures Ids(IndexById(xs)) == Dedupe(Ids(xs))
  {
    if |xs| > 0 {
      var init, last := xs[..|xs| - 1], xs[|xs| - 1];
      IndexByIdIds(init);
      var ids := Ids(xs);
      assert ids[..|xs| - 1] == Ids(init);
      assert ids[|xs| - 1] == last.id;
      UpsertIds(IndexById(init), last);
    }
  }

  /** Each value of the dict is the last record of the list with its id. */
  lemma {:induction false} IndexByIdLast(xs: seq<Artist>)
    ensures forall y :: y in IndexById(xs) ==> IsLastRecord(xs, y)
  {
    if |xs| > 0 {
      var init, last := xs[..|xs| - 1], xs[|xs| - 1];
      IndexByIdLast(init);
      IndexByIdIds(init);
      UpsertMembers(IndexById(init), last);
      forall y | y in IndexById(xs) ensures IsLastRecord(xs, y) {
        if y == last {
          assert xs[|xs| - 1] == y;
        } else {
          LastRecordExtends(xs, y);
        }
      }
    }
  }

  /** A last record of a prefix stays last when a record of another id is
      appended. */
  lemma LastRecordExtends(xs: seq<Artist>, y: Artist)
    requires |xs| > 0 && y.id != xs[|xs| - 1].id
    requires IsLastRecord(xs[..|xs| - 1], y)
    ensures IsLastRecord(xs, y)
  {
    var init := xs[..|xs| - 1];
    var k :| 0 <= k < |init| && init[k] == y && forall j :: k < j < |init| ==> init[j].id != y.id;
    assert xs[k] == y;
    forall j | k < j < |xs| ensures xs[j].id != y.id {
      if j < |init| { assert xs[j] == init[j]; }
    }
  }

  /** The predicate "occurs in `ids`", for filtering. */
  function MemberOf(ids: seq<string>): string -> bool
  {
    x => x in ids
  }

  /** The predicate "has an id occurring in `ids`", for filtering. */
  function IdIn(ids: seq<string>): Artist -> bool
  {
    (a: Artist) => a.id in ids
  }

  lemma {:induction false} IdsOfFilter(d: seq<Artist>, ids: seq<string>)
    ensures Ids(Filter(d, IdIn(ids))) == Filter(Ids(d), MemberOf(ids))
  {
    if |d| > 0 {
      var init, last := d[..|d| - 1], d[|d| - 1];
      IdsOfFilter(init, ids);
      IdsInit(d);
      if last.id in ids {
        IdsConcat(Filter(init, IdIn(ids)), [last]);
        IdsSingle(last);
      }
    }
  }

  /** The source's `find_common_artists`: for each distinct id of `a1`, in
      order of first occurrence, that also occurs in `a2`, the last record of
      `a1` with that id. */
  function FindCommonArtists(a1: seq<Artist>, a2: seq<Artist>): (r: seq<Artist>)
    ensures Ids(r) == Filter(Dedupe(Ids(a1)), MemberOf(Ids(a2)))
    ensures forall y :: y in r ==> IsLastRecord(a1, y)
    ensures |r| <= |a1|
  {
    var d := IndexById(a1);
    IndexByIdIds(a1);
    IndexByIdLast(a1);
    IdsOfFilter(d, Ids(a2));
    Filter(d, IdIn(Ids(a2)))
  }

  /** The common artists are exactly the ids both lists share, each once. */
  lemma CommonArtistIds(a1: seq<Artist>, a2: seq<Artist>)
    ensures forall id :: id in Ids(FindCommonArtists(a1, a2)) <==> id in Ids(a1) && id in Ids(a2)
    ensures Distinct(Ids(FindCommonArtists(a1, a2)))
  {
    FilterDistinct(Dedupe(Ids(a1)), MemberOf(Ids(a2)));
  }

  /** A list with distinct ids compared with itself: every artist is common,
      in the original order. */
  lemma CommonArtistsWithSelf(a: seq<Artist>)
    requires Distinct(Ids(a))
    ensures FindCommonArtists(a, a) == a
  {
    var r := FindCommonArtists(a, a);
    var ids := Ids(a);
    DedupeOfDistinct(ids);
    assert forall y :: y in ids ==> MemberOf(ids)(y);
    FilterAll(ids, MemberOf(ids));
    SameIdsLastRecords(a, r);
  }

  /** Records with the same ids as a list with distinct ids, each the last
      record of the list with its id, are that list. */
  lemma SameIdsLastRecords(a: seq<Artist>, r: seq<Artist>)
    requires Distinct(Ids(a)) && Ids(r) == Ids(a)
    requires forall y :: y in r ==> IsLastRecord(a, y)
    ensures r == a
  {
    forall k | 0 <= k < |a| ensures r[k] == a[k] {
      assert r[k] in r;
      assert Ids(r)[k] == Ids(a)[k];
      OnlyRecordOfId(a, r[k], k);
    }
  }

  /** With distinct ids, the record a dict keeps for an id is the list's only
      record with that id. */
  lemma OnlyRecordOfId(a: seq<Artist>, y: Artist, k: int)
    requires Distinct(Ids(a)) && IsLastRecord(a, y)
    requires 0 <= k < |a| && a[k].id == y.id
    ensures y == a[k]
  {
    var i :| 0 <= i < |a| && a[i] == y && forall j :: i < j < |a| ==> a[j].id != y.id;
    assert Ids(a)[i] == Ids(a)[k];
  }

  /** Share of artists in common: `len(common) / max(len(a1), len(a2))`. */
  function ArtistOverlap(a1: seq<Artist>, a2: seq<Artist>): (r: real)
    requires |a1| > 0 && |a2| > 0
    ensures 0.0 <= r <= 1.0
  {
    var n := if |a1| >= |a2| then |a1| else |a2|;
    var c := |FindCommonArtists(a1, a2)|;
    RatioBounds(c, n);
    c as real / n as real
  }

  lemma RatioBounds(c: nat, n: nat)
    requires 0 < n && c <= n
    ensures 0.0 <= c as real / n as real <= 1.0
    ensures c as real / n as real == 1.0 <==> c == n
    ensures c as real / n as real == 0.0 <==> c == 0
  {
  }

  lemma SubsetCard(a: set<string>, b: set<string>)
    requires a <= b
    ensures |a| <= |b|
  {
    assert b == a + (b - a);
  }

  /*************************** genres ***************************/

  /** Jaccard index of the two genre sets; 0 when either is empty. */
  function GenreSimilarity(a1: seq<Artist>, a2: seq<Artist>): (r: real)
    ensures 0.0 <= r <= 1.0
    ensures |GenreSet(a1)| == 0 || |GenreSet(a2)| == 0 ==> r == 0.0
  {
    var g1 := GenreSet(a1);
    var g2 := GenreSet(a2);
    if |g1| == 0 || |g2| == 0 then 0.0
    else
      var union := |g1 + g2|;
      SubsetCard(g1 * g2, g1 + g2);
      if union > 0 then RatioBounds(|g1 * g2|, union); |g1 * g2| as real / union as real else 0.0
  }

  lemma GenreSimilaritySymmetric(a1: seq<Artist>, a2: seq<Artist>)
    ensures GenreSimilarity(a1, a2) == GenreSimilarity(a2, a1)
  {
    assert GenreSet(a1) + GenreSet(a2) == GenreSet(a2) + GenreSet(a1);
    assert GenreSet(a1) * GenreSet(a2) == GenreSet(a2) * GenreSet(a1);
  }

  /** Similarity is 1 exactly for equal non-empty genre sets and 0 exactly
      when a set is empty or the sets share nothing. */
  lemma GenreSimilarityExtremes(a1: seq<Artist>, a2: seq<Artist>)
    ensures GenreSimilarity(a1, a2) == 1.0 <==> |GenreSet(a1)| > 0 && GenreSet(a1) == GenreSet(a2)
    ensures GenreSimilarity(a1, a2) == 0.0 <==> |GenreSet(a1)| == 0 || |GenreSet(a2)| == 0 || GenreSet(a1) * GenreSet(a2) == {}
  {
    var g1 := GenreSet(a1);
    var g2 := GenreSet(a2);
    if |g1| > 0 && |g2| > 0 {
      JaccardExtremes(g1, g2);
      RatioBounds(|g1 * g2|, |g1 + g2|);
    }
  }

  /** For two non-empty sets the union is non-empty and at least as large as
      the intersection, the two have the same size exactly when the sets are
      equal, and the intersection is empty exactly when it has no elements. */
  lemma JaccardExtremes(g1: set<string>, g2: set<string>)
    requires |g1| > 0 && |g2| > 0
    ensures |g1 + g2| > 0
    ensures |g1 * g2| <= |g1 + g2|
    ensures |g1 * g2| == |g1 + g2| <==> g1 == g2
    ensures |g1 * g2| == 0 <==> g1 * g2 == {}
  {
    var i := g1 * g2;
    var u := g1 + g2;
    SubsetCard(i, u);
    assert |u| > 0 by {
      var x :| x in g1;
      assert x in u;
    }
    if |i| == |u| {
      assert |g1 - g2| + |i| == |g1|;
      assert |g2 - g1| + |i| == |g2|;
      assert |u| + |i| == |g1| + |g2|;
      assert g1 - g2 == {};
      assert g2 - g1 == {};
      assert g1 == g2;
    }
    if g1 == g2 {
      assert i == u;
    }
  }

  /** The identity on genre names, the sort key of `sorted(genres)`. */
  function Identity(g: string): string
  {
    g
  }

  /** The predicate "belongs to `s`", for filtering. */
  function InSet(s: set<string>): string -> bool
  {
    x => x in s
  }

  /** The source's `find_common_genres`: the shared genres, sorted. */
  function FindCommonGenres(a1: seq<Artist>, a2: seq<Artist>): (r: seq<string>)
    ensures StrictlySorted(r, Identity)
    ensures forall g :: g in r <==> g in GenreSet(a1) && g in GenreSet(a2)
  {
    var shared := Filter(GenreTags(a1), InSet(GenreSet(a2)));
    var r := SortByKey(shared, Identity);
    assert forall g :: g in r <==> g in KeySet(r, Identity);
    assert forall g :: g in shared <==> g in KeySet(shared, Identity);
    r
  }

  /** The result is the one and only sorted listing of the shared genres. */
  lemma CommonGenresUnique(a1: seq<Artist>, a2: seq<Artist>, s: seq<string>)
    requires StrictlySorted(s, Identity)
    requires forall g :: g in s <==> g in GenreSet(a1) && g in GenreSet(a2)
    ensures s == FindCommonGenres(a1, a2)
  {
    SortedUnique(s, FindCommonGenres(a1, a2), Identity);
  }

  /*************************** popularity ***************************/

  /** `artist.get("popularity", 50)`. */
  function PopularityOf(a: Artist): int
  {
    a.popularity.GetOr(50)
  }

  function Popularities(xs: seq<Artist>): (ps: seq<int>)
    ensures |ps| == |xs|
    ensures forall k :: 0 <= k < |xs| ==> ps[k] == PopularityOf(xs[k])
  {
    if |xs| == 0 then [] else Popularities(xs[..|xs| - 1]) + [PopularityOf(xs[|xs| - 1])]
  }

  function Mean(ps: seq<int>): real
    requires |ps| > 0
  {
    Sum(ps) as real / |ps| as real
  }

  /** `max(0, 1 - |mean1 - mean2| / 100)`; 0 when either list is empty. */
  function PopularitySimilarity(a1: seq<Artist>, a2: seq<Artist>): (r: real)
    ensures 0.0 <= r <= 1.0
    ensures |a1| == 0 || |a2| == 0 ==> r == 0.0
  {
    var p1 := Popularities(a1);
    var p2 := Popularities(a2);
    if |p1| == 0 || |p2| == 0 then 0.0
    else
      var similarity := 1.0 - Abs(Mean(p1) - Mean(p2)) / 100.0;
      if 0.0 >= similarity then 0.0 else similarity
  }

  lemma PopularitySimilaritySymmetric(a1: seq<Artist>, a2: seq<Artist>)
    ensures PopularitySimilarity(a1, a2) == PopularitySimilarity(a2, a1)
  {
  }

  /** For non-empty lists the similarity is 1 exactly when the mean
      popularities agree. */
  lemma PopularitySimilarityOne(a1: seq<Artist>, a2: seq<Artist>)
    requires |a1| > 0 && |a2| > 0
    ensures PopularitySimilarity(a1, a2) == 1.0 <==> Mean(Popularities(a1)) == Mean(Popularities(a2))
  {
  }

  /** With every popularity in [0, 100] (the catalogue's range) the floor at 0
      never applies. */
  lemma PopularityFloorInactive(a1: seq<Artist>, a2: seq<Artist>)
    requires |a1| > 0 && |a2| > 0
    requires forall k :: 0 <= k < |a1| ==> 0 <= PopularityOf(a1[k]) <= 100
    requires forall k :: 0 <= k < |a2| ==> 0 <= PopularityOf(a2[k]) <= 100
    ensures PopularitySimilarity(a1, a2) == 1.0 - Abs(Mean(Popularities(a1)) - Mean(Popularities(a2))) / 100.0
  {
    MeanBounds(Popularities(a1));
    MeanBounds(Popularities(a2));
  }

  lemma MeanBounds(ps: seq<int>)
    requires |ps| > 0
    requires forall k :: 0 <= k < |ps| ==> 0 <= ps[k] <= 100
    ensures 0.0 <= Mean(ps) <= 100.0
  {
    SumBounds(ps, 0, 100);
    MeanBetween(Sum(ps), |ps|);
  }

  lemma MeanBetween(s: int, n: nat)
    requires n > 0 && 0 <= s <= 100 * n
    ensures 0.0 <= s as real / n as real <= 100.0
  {
  }

  /*************************** diversity ***************************/

  /** `1 - |d1 - d2| / 1.0` for the two normalised genre diversities. */
  function DiversityCompatibility(a1: seq<Artist>, a2: seq<Artist>, h: EntropyFn): (r: real)
    requires EntropyInRange(h)
    ensures 0.0 <= r <= 1.0
  {
    var d1 := GenreDiversity(a1, h);
    var d2 := GenreDiversity(a2, h);
    1.0 - Abs(d1 - d2) / 1.0
  }

  lemma DiversityCompatibilitySymmetric(a1: seq<Artist>, a2: seq<Artist>, h: EntropyFn)
    requires EntropyInRange(h)
    ensures DiversityCompatibility(a1, a2, h) == DiversityCompatibility(a2, a1, h)
  {
  }

  /** Two lists with at most one distinct genre each have diversity 0 and are
      fully compatible. */
  lemma DiversityOfNarrowLists(a1: seq<Artist>, a2: seq<Artist>, h: EntropyFn)
    requires EntropyInRange(h)
    requires |GenreSet(a1)| <= 1 && |GenreSet(a2)| <= 1
    ensures DiversityCompatibility(a1, a2, h) == 1.0
  {
  }

  /*************************** analysis text ***************************/

  datatype Tier = VeryDifferent | Limited | Moderate | Good | Great | Exceptional

  /** Position of a tier from lowest (0) to highest (5). */
  function Rank(t: Tier): nat
  {
    match t
    case VeryDifferent => 0
    case Limited => 1
    case Moderate => 2
    case Good => 3
    case Great => 4
    case Exceptional => 5
  }

  /** The tier chosen by the chain of thresholds 85, 70, 55, 40, 25. */
  function TierOf(score: int): Tier
  {
    if score >= 85 then Exceptional
    else if score >= 70 then Great
    else if score >= 55 then Good
    else if score >= 40 then Moderate
    else if score >= 25 then Limited
    else VeryDifferent
  }

  /** Each tier covers exactly one score band. */
  lemma TierBands(score: int)
    ensures TierOf(score) == Exceptional <==> score >= 85
    ensures TierOf(score) == Great <==> 70 <= score < 85
    ensures TierOf(score) == Good <==> 55 <= score < 70
    ensures TierOf(score) == Moderate <==> 40 <= score < 55
    ensures TierOf(score) == Limited <==> 25 <= score < 40
    ensures TierOf(score) == VeryDifferent <==> score < 25
  {
  }

  /** A higher score never gets a lower tier. */
  lemma TierMonotone(s1: int, s2: int)
    requires s1 <= s2
    ensures Rank(TierOf(s1)) <= Rank(TierOf(s2))
  {
  }

  /** The key word of each tier's phrase. */
  function TierWord(t: Tier): string
  {
    match t
    case Exceptional => "exceptional"
    case Great => "great"
    case Good => "good"
    case Moderate => "moderate"
    case Limited => "limited"
    case VeryDifferent => "different"
  }

  /** "<word> musical compatibility" for every tier but the lowest, which
      reads "very different musical preferences". */
  function Compatibility(t: Tier): string
  {
    if t == VeryDifferent then "very " + TierWord(t) + " musical preferences"
    else TierWord(t) + " musical compatibility"
  }

  function Description(t: Tier): string
  {
    match t
    case Exceptional => "You're practically musical soulmates!"
    case Great => "You have a lot in common musically."
    case Good => "You share some interesting musical preferences."
    case Moderate => "You have some overlapping tastes, but also unique preferences."
    case Limited => "Your musical tastes are quite different, but that's not bad!"
    case VeryDifferent => "You each have unique musical styles - variety is the spice of life!"
  }

  /** "artist" for one, "artists" otherwise. */
  function Noun(n: nat): string
  {
    if n == 1 then "artist" else "artists"
  }

  /** The trailing sentence about shared artists: none for 0, otherwise
      " You share N common artist." with the noun agreeing with N. */
  function CommonClause(n: nat): string
  {
    if n == 0 then "" else " You share " + NatToString(n) + " common " + Noun(n) + "."
  }

  /** The source's `generate_analysis`: the sentence opens with the tier's
      phrase and description, names the tier word of its score, and ends with the tier's description when nothing is shared
      or with the count clause, whose noun agrees with the count, otherwise. */
  function GenerateAnalysis(score: int, commonCount: nat): (s: string)
    ensures Contains(s, TierWord(TierOf(score)))
    ensures commonCount == 0 ==> EndsWith(s, Description(TierOf(score)))
    ensures commonCount > 0 ==>
      EndsWith(s, " You share " + NatToString(commonCount) + " common " + Noun(commonCount) + ".")
    ensures StartsWith(s, "You have " + Compatibility(TierOf(score)) + "! " + Description(TierOf(score)))
  {
    var t := TierOf(score);
    var opening := "You have " + Compatibility(t) + "! ";
    var clause := CommonClause(commonCount);
    assert opening + Description(t) <= opening + Description(t) + clause;
    TierWordInOpening(t);
    ContainsAppend(opening, Description(t), TierWord(t));
    ContainsAppend(opening + Description(t), clause, TierWord(t));
    EndsWithLast(opening + Description(t), clause);
    if commonCount == 0 then
      assert opening + Description(t) + clause == opening + Description(t);
      EndsWithLast(opening, Description(t));
      opening + Description(t) + clause
    else
      opening + Description(t) + clause
  }

  lemma TierWordInPhrase(t: Tier)
    ensures Contains(Compatibility(t), TierWord(t))
  {
    var w := TierWord(t);
    ContainsSelf(w);
    if t == VeryDifferent {
      ContainsWithin("very ", w, " musical preferences", w);
    } else {
      ContainsAppend(w, " musical compatibility", w);
    }
  }

  /** The opening "You have <phrase>! " names the tier word. */
  lemma TierWordInOpening(t: Tier)
    ensures Contains("You have " + Compatibility(t) + "! ", TierWord(t))
  {
    var c := Compatibility(t);
    TierWordInPhrase(t);
    ContainsPrepend("You have ", c, TierWord(t));
    ContainsAppend("You have " + c, "! ", TierWord(t));
  }

  /** With shared artists the analysis states their number with a noun
      that agrees with it. */
  lemma AnalysisCountClause(score: int, n: nat)
    requires n > 0
    ensures Contains(GenerateAnalysis(score, n), NatToString(n) + " common " + Noun(n))
  {
    var s := GenerateAnalysis(score, n);
    var clause := " You share " + NatToString(n) + " common " + Noun(n) + ".";
    EndsWithContains(s, clause);
    ContainsMiddle(" You share ", NatToString(n), " common ", Noun(n), ".");
    ContainsInContains(s, clause, NatToString(n) + " common " + Noun(n));
  }

  /** The cases the test suite checks, for every score in the band: a top
      score reads "exceptional", a score under 25 reads "different", and the
      count clause reads "5 common artists" or "1 common artist". */
  lemma AnalysisHighScore(score: int, n: nat)
    requires score >= 85
    ensures Contains(GenerateAnalysis(score, n), "exceptional")
  {
  }

  lemma AnalysisLowScore(score: int, n: nat)
    requires score < 25
    ensures Contains(GenerateAnalysis(score, n), "different")
  {
  }

  lemma AnalysisFiveShared(score: int)
    ensures Contains(GenerateAnalysis(score, 5), "5 common artists")
  {
    PhraseFor(5, "5", "artists");
    CountPhrase(score, 5, "5 common artists");
  }

  /** One shared artist: the sentence ends with the singular clause. */
  lemma AnalysisOneShared(score: int)
    ensures EndsWith(GenerateAnalysis(score, 1), "You share 1 common artist.")
    ensures Contains(GenerateAnalysis(score, 1), "You share 1 common artist.")
  {
    var s := GenerateAnalysis(score, 1);
    var singular := "You share 1 common artist.";
    SingularClause();
    EndsWithTail(s, " ", singular);
    EndsWithContains(s, singular);
  }

  /** The count clause for one artist, spelled out. */
  lemma SingularClause()
    ensures " You share " + NatToString(1) + " common " + Noun(1) + "." == " " + "You share 1 common artist."
  {
    assert NatToString(1) == "1";
    assert Noun(1) == "artist";
    assert " You share " + "1" + " common " + "artist" + "." == " " + "You share 1 common artist.";
  }

  lemma CountPhrase(score: int, n: nat, phrase: string)
    requires n > 0 && phrase == NatToString(n) + " common " + Noun(n)
    ensures Contains(GenerateAnalysis(score, n), phrase)
  {
    AnalysisCountClause(score, n);
  }

  lemma PhraseFor(n: nat, count: string, noun: string)
    requires NatToString(n) == count && Noun(n) == noun
    ensures NatToString(n) + " common " + Noun(n) == count + " common " + noun
  {
  }

  /*************************** the report ***************************/

  /** A common artist as reported: name and `artist.get("popularity", 0)`. */
  datatype ArtistSummary = ArtistSummary(name: string, popularity: int)

  /** The four "N%" strings of the report. */
  datatype Metrics = Metrics(artistSimilarity: string, genreSimilarity: string, popularitySimilarity: string, overallMatch: string)

  /** The four whole-percentage sub-scores of the report. */
  datatype DetailedScores = DetailedScores(commonArtists: int, genreSimilarity: int, popularitySimilarity: int, diversityCompatibility: int)

  datatype Report = Report(
    affinityScore: int,
    analysis: string,
    commonArtists: seq<ArtistSummary>,
    commonGenres: seq<string>,
    metrics: Metrics,
    detailedScores: DetailedScores)

  function Summary(a: Artist): ArtistSummary
  {
    ArtistSummary(a.name, a.popularity.GetOr(0))
  }

  function Summaries(xs: seq<Artist>): (r: seq<ArtistSummary>)
    ensures |r| == |xs|
    ensures forall k :: 0 <= k < |xs| ==> r[k] == ArtistSummary(xs[k].name, xs[k].popularity.GetOr(0))
  {
    if |xs| == 0 then []
    else
      var init := xs[..|xs| - 1];
      var r := Summaries(init) + [Summary(xs[|xs| - 1])];
      assert forall k :: 0 <= k < |init| ==> r[k] == Summaries(init)[k] && init[k] == xs[k];
      r
  }

  /** `f"{n}%"`. */
  function PercentText(n: int): string
  {
    IntToString(n) + "%"
  }

  const InsufficientData: string := "insufficient data"

  /** The source's `_create_empty_result`. */
  function EmptyReport(): (r: Report)
    ensures r.affinityScore == 0 && r.detailedScores == DetailedScores(0, 0, 0, 0)
    ensures r.commonArtists == [] && r.commonGenres == []
    ensures Contains(r.analysis, InsufficientData)
    ensures MetricsAgree(r)
  {
    InsufficientDataText();
    ZeroText();
    Report(0, "Unable to calculate affinity - " + InsufficientData + ".", [], [],
           Metrics("0%", "0%", "0%", "0%"),
           DetailedScores(0, 0, 0, 0))
  }

  predicate ScoresInRange(d: DetailedScores)
  {
    && 0 <= d.commonArtists <= 100
    && 0 <= d.genreSimilarity <= 100
    && 0 <= d.popularitySimilarity <= 100
    && 0 <= d.diversityCompatibility <= 100
  }

  /** Every metric string is the matching whole percentage followed by "%",
      and the overall match is the affinity score. */
  predicate MetricsAgree(r: Report)
  {
    && r.metrics.artistSimilarity == PercentText(r.detailedScores.commonArtists)
    && r.metrics.genreSimilarity == PercentText(r.detailedScores.genreSimilarity)
    && r.metrics.popularitySimilarity == PercentText(r.detailedScores.popularitySimilarity)
    && r.metrics.overallMatch == PercentText(r.affinityScore)
  }

  /** The weighted sum of the four sub-scores, in [0, 1]. */
  function OverallScore(overlap: real, genre: real, popularity: real, diversity: real): (s: real)
    requires 0.0 <= overlap <= 1.0 && 0.0 <= genre <= 1.0
    requires 0.0 <= popularity <= 1.0 && 0.0 <= diversity <= 1.0
    ensures 0.0 <= s <= 1.0
    ensures overlap == 1.0 && genre == 1.0 && popularity == 1.0 && diversity == 1.0 ==> s == 1.0
  {
    overlap * ArtistWeight + genre * GenreWeight + popularity * PopularityWeight + diversity * DiversityWeight
  }

  /** The fallback analysis mentions insufficient data. */
  lemma InsufficientDataText()
    ensures Contains("Unable to calculate affinity - " + InsufficientData + ".", InsufficientData)
  {
    ContainsSelf(InsufficientData);
    ContainsWithin("Unable to calculate affinity - ", InsufficientData, ".", InsufficientData);
  }

  /** Zero percent prints as "0%". */
  lemma ZeroText()
    ensures PercentText(0) == "0%"
  {
    assert IntToString(0) == "0";
  }

  /** The source's `calculate_affinity`. */
  function CalculateAffinity(a1: seq<Artist>, a2: seq<Artist>, h: EntropyFn): (r: Report)
    requires EntropyInRange(h)
    ensures |a1| == 0 || |a2| == 0 ==> r == EmptyReport()
    ensures |a1| > 0 && |a2| > 0 ==> r == ScoredReport(a1, a2, h)
    ensures |a1| > 0 && |a2| > 0 ==>
      && 0 <= r.affinityScore <= 100
      && ScoresInRange(r.detailedScores)
      && r.analysis == GenerateAnalysis(r.affinityScore, |r.commonArtists|)
      && MetricsAgree(r)
    ensures |r.commonArtists| <= |a1|
    ensures StrictlySorted(r.commonGenres, Identity)
    ensures forall g :: g in r.commonGenres <==> g in GenreSet(a1) && g in GenreSet(a2)
  {
    if |a1| == 0 || |a2| == 0 then
      EmptyReport()
    else
      ScoredReport(a1, a2, h)
  }

  /** The report of two non-empty lists: the four sub-scores, their weighted
      sum, and the common artists and genres. */
  function ScoredReport(a1: seq<Artist>, a2: seq<Artist>, h: EntropyFn): (r: Report)
    requires EntropyInRange(h)
    requires |a1| > 0 && |a2| > 0
    ensures r.commonArtists == Summaries(FindCommonArtists(a1, a2))
    ensures r.commonGenres == FindCommonGenres(a1, a2)
    ensures r.affinityScore == Score(ArtistOverlap(a1, a2), GenreSimilarity(a1, a2), PopularitySimilarity(a1, a2), DiversityCompatibility(a1, a2, h))
    ensures r.detailedScores == DetailedScores(
      Percent(ArtistOverlap(a1, a2)), Percent(GenreSimilarity(a1, a2)),
      Percent(PopularitySimilarity(a1, a2)), Percent(DiversityCompatibility(a1, a2, h)))
    ensures 0 <= r.affinityScore <= 100
    ensures ScoresInRange(r.detailedScores)
    ensures r.analysis == GenerateAnalysis(r.affinityScore, |r.commonArtists|)
    ensures MetricsAgree(r)
    ensures |r.commonArtists| <= |a1|
    ensures StrictlySorted(r.commonGenres, Identity)
    ensures forall g :: g in r.commonGenres <==> g in GenreSet(a1) && g in GenreSet(a2)
  {
    var common := FindCommonArtists(a1, a2);
    var overlap := ArtistOverlap(a1, a2);
    var genre := GenreSimilarity(a1, a2);
    var popularity := PopularitySimilarity(a1, a2);
    var diversity := DiversityCompatibility(a1, a2, h);
    var score := Score(overlap, genre, popularity, diversity);
    var detailed := DetailedScores(Percent(overlap), Percent(genre), Percent(popularity), Percent(diversity));
    Assemble(score, Summaries(common), FindCommonGenres(a1, a2), detailed)
  }

  /** The weighted sum of the four sub-scores as a whole percentage. */
  function Score(overlap: real, genre: real, popularity: real, diversity: real): (p: int)
    requires 0.0 <= overlap <= 1.0 && 0.0 <= genre <= 1.0
    requires 0.0 <= popularity <= 1.0 && 0.0 <= diversity <= 1.0
    ensures 0 <= p <= 100
  {
    var overall := OverallScore(overlap, genre, popularity, diversity);
    Percent(overall)
  }

  /** The report record with its analysis and metric strings derived from
      the figures. */
  function Assemble(score: int, common: seq<ArtistSummary>, genres: seq<string>, detailed: DetailedScores): (r: Report)
    ensures r.affinityScore == score && r.commonArtists == common
    ensures r.commonGenres == genres && r.detailedScores == detailed
    ensures r.analysis == GenerateAnalysis(score, |common|)
    ensures MetricsAgree(r)
  {
    Report(
      score,
      GenerateAnalysis(score, |common|),
      common,
      genres,
      Metrics(PercentText(detailed.commonArtists), PercentText(detailed.genreSimilarity),
              PercentText(detailed.popularitySimilarity), PercentText(score)),
      detailed)
  }

  /** The four sub-scores of a list with distinct ids against itself. */
  lemma SelfSubScores(a: seq<Artist>, h: EntropyFn)
    requires EntropyInRange(h)
    requires |a| > 0 && Distinct(Ids(a))
    ensures ArtistOverlap(a, a) == 1.0
    ensures GenreSimilarity(a, a) == if |GenreSet(a)| > 0 then 1.0 else 0.0
    ensures PopularitySimilarity(a, a) == 1.0
    ensures DiversityCompatibility(a, a, h) == 1.0
  {
    CommonArtistsWithSelf(a);
    RatioBounds(|a|, |a|);
    GenreSimilarityExtremes(a, a);
    PopularitySimilarityOne(a, a);
  }

  /** A non-empty list with distinct ids compared with itself: every artist is
      common and every sub-score is perfect except genre similarity, which is
      perfect when the list carries a genre and 0 otherwise, so the score is
      100 or 70. */
  lemma SelfAffinity(a: seq<Artist>, h: EntropyFn)
    requires EntropyInRange(h)
    requires |a| > 0 && Distinct(Ids(a))
    ensures |CalculateAffinity(a, a, h).commonArtists| == |a|
    ensures CalculateAffinity(a, a, h).affinityScore == if |GenreSet(a)| > 0 then 100 else 70
    ensures CalculateAffinity(a, a, h).detailedScores ==
      DetailedScores(100, if |GenreSet(a)| > 0 then 100 else 0, 100, 100)
  {
    CommonArtistsWithSelf(a);
    SelfSubScores(a, h);
    var genre := GenreSimilarity(a, a);
    if |GenreSet(a)| == 0 {
      assert OverallScore(1.0, genre, 1.0, 1.0) == 70.0 / 100.0;
      assert 70.0 / 100.0 * 100.0 == 70 as real;
      RoundWhole(70);
    }
  }
}

=== FILE: artists.dfy ===
/** The artist record the catalogue returns and the genre views of an artist
    list that both the affinity engine and the route helpers use. */
module Artists {
  import opened Wrappers

  /** One artist: `popularity` and `genres` may be missing from the record
      (None); a present `genres` list may be empty. */
  datatype Artist = Artist(id: string, name: string, popularity: Option<int>, genres: Option<seq<string>>)

  /** The genre tags an artist contributes; a missing list contributes none. */
  function GenresOf(a: Artist): seq<string>
  {
    a.genres.GetOr([])
  }

  /** The ids of `xs`, in order. */
  function Ids(xs: seq<Artist>): (r: seq<string>)
    ensures |r| == |xs|
    ensures forall k :: 0 <= k < |xs| ==> r[k] == xs[k].id
  {
    seq(|xs|, k requires 0 <= k < |xs| => xs[k].id)
  }

  /** The ids of a concatenation are the concatenated ids. */
  lemma IdsConcat(a: seq<Artist>, b: seq<Artist>)
    ensures Ids(a + b) == Ids(a) + Ids(b)
  {
    var l, r := Ids(a + b), Ids(a) + Ids(b);
    forall k | 0 <= k < |l| ensures l[k] == r[k] {
      if k < |a| { assert (a + b)[k] == a[k]; } else { assert (a + b)[k] == b[k - |a|]; }
    }
  }

  /** Dropping the last record drops the last id. */
  lemma IdsInit(d: seq<Artist>)
    requires |d| > 0
    ensures Ids(d)[..|d| - 1] == Ids(d[..|d| - 1])
    ensures Ids(d)[|d| - 1] == d[|d| - 1].id
  {
  }

  /** The ids of a one-element list. */
  lemma IdsSingle(x: Artist)
    ensures Ids([x]) == [x.id]
  {
  }

  /** All genre tags of `xs`, repeats kept, in list order (the list that
      `genres.extend(artist["genres"])` builds). */
  function GenreTags(xs: seq<Artist>): seq<string>
  {
    if |xs| == 0 then [] else GenreTags(xs[..|xs| - 1]) + GenresOf(xs[|xs| - 1])
  }

  /** Some artist of `xs` carries genre `g`. */
  predicate HasGenre(xs: seq<Artist>, g: string)
  {
    exists k :: 0 <= k < |xs| && g in GenresOf(xs[k])
  }

  /** The flattened genre tags are exactly the genres some artist carries. */
  lemma {:induction false} GenreTagsMembers(xs: seq<Artist>)
    ensures forall g :: g in GenreTags(xs) <==> HasGenre(xs, g)
  {
    if |xs| > 0 {
      var init := xs[..|xs| - 1];
      GenreTagsMembers(init);
      forall g ensures HasGenre(xs, g) <==> HasGenre(init, g) || g in GenresOf(xs[|xs| - 1]) {
        if HasGenre(xs, g) {
          var k :| 0 <= k < |xs| && g in GenresOf(xs[k]);
          if k < |xs| - 1 {
            assert xs[k] == init[k];
          }
        }
        if HasGenre(init, g) {
          var k :| 0 <= k < |init| && g in GenresOf(init[k]);
          assert xs[k] == init[k];
        }
      }
    }
  }

  /** The set of genres over `xs` (the source's `_extract_genres`, and the set
      behind `get_unique_genres`). */
  function GenreSet(xs: seq<Artist>): (r: set<string>)
    ensures forall g :: g in r <==> HasGenre(xs, g)
  {
    GenreTagsMembers(xs);
    set g | g in GenreTags(xs)
  }

  /** An artist list has no genre at all exactly when its flattened tag list
      is empty. */
  lemma NoGenresNoTags(xs: seq<Artist>)
    ensures |GenreSet(xs)| == 0 <==> |GenreTags(xs)| == 0
  {
    var tags := GenreTags(xs);
    if |tags| > 0 {
      assert tags[0] in GenreSet(xs);
    }
  }
}

=== FILE: cache.dfy ===
/** The in-memory backend of `CacheManager`: a dictionary from string keys to
    JSON-like values, with its five operations, user invalidation and the
    health probe. Every operation is a transition from one cache state to the
    next. */
module Cache {
  import opened Strings

  /** A Python value as the cache holds it. */
  datatype Value =
    | Null
    | Bool(b: bool)
    | Num(x: real)
    | Str(s: string)
    | List(items: seq<Value>)
    | Dict(entries: map<string, Value>)

  /** Python truthiness: None, False, 0, and empty strings, lists and dicts
      are false; everything else is true. */
  predicate Truthy(v: Value)
  {
    match v
    case Null => false
    case Bool(b) => b
    case Num(x) => x != 0.0
    case Str(s) => |s| > 0
    case List(items) => |items| > 0
    case Dict(entries) => |entries| > 0
  }

  /** The memory-mode cache manager: only its dictionary matters. */
  datatype CacheManager = CacheManager(memory: map<string, Value>)

  /** An empty cache, as `_initialize_cache` leaves it when Redis is absent. */
  function Empty(): CacheManager
  {
    CacheManager(map[])
  }

  /** `exists(key)`: the key is stored, whatever its value, so a key whose
      value reads back as None may still exist. */
  function Exists(c: CacheManager, key: string): (b: bool)
    ensures b <==> key in c.memory.Keys
    ensures !b ==> Get(c, key) == Null
  {
    key in c.memory
  }

  /** `get(key)`: `memory_cache.get(key)`. A non-None answer is the stored
      value; an absent key answers None. */
  function Get(c: CacheManager, key: string): (v: Value)
    ensures v != Null ==> key in c.memory && c.memory[key] == v
    ensures key !in c.memory ==> v == Null
    ensures key in c.memory ==> v == c.memory[key]
  {
    if key in c.memory then c.memory[key] else Null
  }

  /** `set(key, value, expire)`: stores the value, ignores the expiry (the
      memory backend never expires anything) and reports success. */
  function Set(c: CacheManager, key: string, value: Value, expire: int): (r: (CacheManager, bool))
    ensures r.1
    ensures Exists(r.0, key) && Get(r.0, key) == value
    ensures forall k :: k != key ==> Exists(r.0, k) == Exists(c, k) && Get(r.0, k) == Get(c, k)
  {
    (CacheManager(c.memory[key := value]), true)
  }

  /** `delete(key)`: `bool(memory_cache.pop(key, None))`. The key is gone
      afterwards; the result is the truthiness of the removed value, so an
      absent key and a stored falsy value both report False. */
  function Delete(c: CacheManager, key: string): (r: (CacheManager, bool))
    ensures !Exists(r.0, key) && Get(r.0, key) == Null
    ensures forall k :: k != key ==> Exists(r.0, k) == Exists(c, k) && Get(r.0, k) == Get(c, k)
    ensures r.1 <==> Exists(c, key) && Truthy(Get(c, key))
  {
    var removed := if key in c.memory then c.memory[key] else Null;
    (CacheManager(c.memory - {key}), Truthy(removed))
  }

  /** `clear()`: nothing is left and the call reports success. */
  function Clear(c: CacheManager): (r: (CacheManager, bool))
    ensures r.1
    ensures forall k :: !Exists(r.0, k) && Get(r.0, k) == Null
  {
    (Empty(), true)
  }

  /** Reading back a stored value gives that value, whatever the expiry. */
  lemma SetThenGet(c: CacheManager, key: string, value: Value, e1: int, e2: int)
    ensures Get(Set(c, key, value, e1).0, key) == value
    ensures Set(c, key, value, e1).0 == Set(c, key, value, e2).0
  {
  }

  /** A stored None is indistinguishable from a missing key for `get` but not
      for `exists`. */
  lemma StoredNoneExists(c: CacheManager, key: string)
    ensures var s := Set(c, key, Null, 3600).0; Exists(s, key) && Get(s, key) == Null
  {
  }

  /** A non-None result of `get` means the key is stored. */
  lemma GetImpliesExists(c: CacheManager, key: string)
    requires Get(c, key) != Null
    ensures Exists(c, key)
  {
  }

  /** Deleting a key that holds a falsy value removes it but reports False. */
  lemma DeleteFalsyReportsFalse(c: CacheManager, key: string, v: Value)
    requires !Truthy(v)
    ensures var d := Delete(Set(c, key, v, 3600).0, key); !d.1 && !Exists(d.0, key)
  {
  }

  /** Storing and then deleting a key that was absent restores the cache. */
  lemma SetDeleteRestores(c: CacheManager, key: string, v: Value)
    requires !Exists(c, key)
    ensures Delete(Set(c, key, v, 3600).0, key).0 == c
  {
    assert Delete(Set(c, key, v, 3600).0, key).0.memory == c.memory;
  }

  /** The keys whose names contain `userId`. */
  function MatchingKeys(c: CacheManager, userId: string): set<string>
  {
    set k | k in c.memory && Contains(k, userId)
  }

  /** `invalidate_user_cache(user_id)` in memory mode: collects the keys that
      contain `userId` as a substring and pops each of them. `removed` is the
      number of entries the source logs as invalidated. */
  method InvalidateUserCache(c: CacheManager, userId: string) returns (r: CacheManager, removed: nat)
    ensures forall k :: Exists(r, k) <==> Exists(c, k) && !Contains(k, userId)
    ensures forall k :: Exists(r, k) ==> Get(r, k) == Get(c, k)
    ensures removed == |MatchingKeys(c, userId)|
  {
    var keysToRemove := MatchingKeys(c, userId);
    removed := |keysToRemove|;
    var pending := keysToRemove;
    r := c;
    while pending != {}
      invariant pending <= keysToRemove
      invariant forall k :: Exists(r, k) <==> Exists(c, k) && (k !in keysToRemove || k in pending)
      invariant forall k :: Exists(r, k) ==> Get(r, k) == Get(c, k)
      decreases |pending|
    {
      var k :| k in pending;
      r := Delete(r, k).0;
      pending := pending - {k};
    }
  }

  /** Every string contains the empty string, so invalidating the empty user
      id removes every entry. */
  lemma EmptyUserIdMatchesAll(c: CacheManager)
    ensures MatchingKeys(c, "") == c.memory.Keys
  {
    forall k | k in c.memory ensures Contains(k, "") {
      assert OccursAt(k, "", 0);
    }
  }

  const HealthCheckKey: string := "health_check_test"

  datatype Status = Healthy | Degraded | Unhealthy

  /** The `error` field: none, the read/write failure message, or the text of
      an exception (whose wording is not modelled). */
  datatype HealthError = NoError | ReadWriteFailed | ExceptionMessage

  /** The health report without its latency field, which is wall-clock
      timing. */
  datatype Health = Health(cacheType: string, status: Status, error: HealthError)

  /** `{"timestamp": now, "test": True}`. */
  function ProbeValue(now: real): Value
  {
    Dict(map["timestamp" := Num(now), "test" := Bool(true)])
  }

  /** The verdict on the value read back: a falsy value is degraded; a truthy
      value without `.get` (anything but a dict) raises and is unhealthy; a
      dict is healthy exactly when its "test" entry is the boolean True. */
  function Classify(retrieved: Value): (s: Status)
    ensures s == Healthy ==> retrieved.Dict? && "test" in retrieved.entries && retrieved.entries["test"] == Bool(true)
    ensures s == Unhealthy <==> Truthy(retrieved) && !retrieved.Dict?
    ensures !Truthy(retrieved) ==> s == Degraded
    ensures retrieved.Dict? && "test" in retrieved.entries && retrieved.entries["test"] == Bool(true) ==> s == Healthy
  {
    if !Truthy(retrieved) then Degraded
    else if !retrieved.Dict? then Unhealthy
    else if "test" in retrieved.entries && retrieved.entries["test"] == Bool(true) then Healthy
    else Degraded
  }

  /** `cache_health_check()` in memory mode at clock reading `now`: set, get
      and delete the probe key, then judge the value read back. The probe
      always reads back intact, so memory mode is always healthy; the probe key
      is gone afterwards (even if it was stored before) and nothing else
      changes. */
  function HealthCheck(c: CacheManager, now: real): (r: (CacheManager, Health))
    ensures r.1 == Health("memory", Healthy, NoError)
    ensures !Exists(r.0, HealthCheckKey)
    ensures forall k :: k != HealthCheckKey ==> Exists(r.0, k) == Exists(c, k) && Get(r.0, k) == Get(c, k)
  {
    var written := Set(c, HealthCheckKey, ProbeValue(now), 60).0;
    var retrieved := Get(written, HealthCheckKey);
    var deleted := Delete(written, HealthCheckKey).0;
    assert |ProbeValue(now).entries| > 0 by {
      assert "test" in ProbeValue(now).entries;
    }
    var status := Classify(retrieved);
    var error := match status
      case Healthy => NoError
      case Degraded => ReadWriteFailed
      case Unhealthy => ExceptionMessage;
    (deleted, Health("memory", status, error))
  }
}

=== FILE: diversity.dfy ===
/** Genre diversity of one artist list: the genre-tag frequency table
    (Python's `Counter`), its relative frequencies, and the normalised Shannon
    entropy of those frequencies. `log2` is not modelled: the normalised
    entropy of a frequency vector is supplied as a function `h`, of which only
    the range is assumed. */
module Diversity {
  import opened Seqs
  import opened Artists

  /** A frequency table: (tag, count) pairs. */
  type Table = seq<(string, nat)>

  function TableKeys(t: Table): (r: seq<string>)
    ensures |r| == |t|
    ensures forall i :: 0 <= i < |t| ==> r[i] == t[i].0
  {
    if |t| == 0 then [] else [t[0].0] + TableKeys(t[1..])
  }

  function SumCounts(t: Table): nat
  {
    if |t| == 0 then 0 else t[0].1 + SumCounts(t[1..])
  }

  /** Counts one more occurrence of `g`: its entry is incremented in place, or
      appended with count 1 when `g` is new. */
  function Bump(t: Table, g: string): (r: Table)
    ensures |t| <= |r| <= |t| + 1
  {
    if |t| == 0 then [(g, 1)]
    else if t[0].0 == g then [(g, t[0].1 + 1)] + t[1..]
    else [t[0]] + Bump(t[1..], g)
  }

  lemma {:induction false} BumpKeys(t: Table, g: string)
    ensures g in TableKeys(t) ==> TableKeys(Bump(t, g)) == TableKeys(t)
    ensures g !in TableKeys(t) ==> TableKeys(Bump(t, g)) == TableKeys(t) + [g]
    ensures |Bump(t, g)| == |TableKeys(Bump(t, g))|
  {
    if |t| > 0 && t[0].0 != g {
      BumpKeys(t[1..], g);
      assert TableKeys(t) == [t[0].0] + TableKeys(t[1..]);
    }
  }

  lemma {:induction false} BumpSum(t: Table, g: string)
    ensures SumCounts(Bump(t, g)) == SumCounts(t) + 1
  {
    if |t| > 0 && t[0].0 != g {
      BumpSum(t[1..], g);
      assert Bump(t, g)[1..] == Bump(t[1..], g);
    } else if |t| > 0 {
      assert Bump(t, g)[1..] == t[1..];
    }
  }

  lemma {:induction false} BumpCountsAt(t: Table, g: string)
    requires Distinct(TableKeys(t))
    ensures forall i :: 0 <= i < |t| ==> Bump(t, g)[i].1 == t[i].1 + (if t[i].0 == g then 1 else 0)
    ensures g !in TableKeys(t) ==> |Bump(t, g)| == |t| + 1 && Bump(t, g)[|t|].1 == 1
  {
    if |t| > 0 {
      var keys := TableKeys(t);
      assert keys == [t[0].0] + TableKeys(t[1..]);
      if t[0].0 == g {
        forall i | 0 < i < |t| ensures t[i].0 != g {
          assert keys[0] != keys[i];
        }
      } else {
        assert TableKeys(t[1..]) == keys[1..];
        BumpCountsAt(t[1..], g);
        forall i | 0 < i < |t| ensures Bump(t, g)[i] == Bump(t[1..], g)[i - 1] && t[i] == t[1..][i - 1] {
        }
      }
    }
  }

  /** Counting the last tag of `tags` on top of the table of the others gives
      the counts of `tags`. */
  lemma BumpCounts(init: seq<string>, g: string, prev: Table, t: Table)
    requires TableKeys(prev) == Dedupe(init)
    requires forall i :: 0 <= i < |prev| ==> prev[i].1 == multiset(init)[prev[i].0]
    requires t == Bump(prev, g)
    ensures forall i :: 0 <= i < |t| ==> t[i].1 == multiset(init + [g])[t[i].0]
  {
    BumpKeys(prev, g);
    BumpCountsAt(prev, g);
    var m := multiset(init + [g]);
    assert m == multiset(init) + multiset{g};
    var kt := TableKeys(t);
    var kp := TableKeys(prev);
    forall i | 0 <= i < |t| ensures t[i].1 == m[t[i].0] {
      if i < |prev| {
        assert kt[i] == kp[i];
        assert t[i].0 == prev[i].0;
      } else {
        assert g !in kp;
        assert kt == kp + [g];
        assert kt[i] == g;
        assert g !in init;
        assert multiset(init)[g] == 0;
        assert m[g] == 1;
        assert i == |prev| && t[i].1 == 1;
      }
    }
  }

  /** Python's `Counter(tags)`: each distinct tag with its number of
      occurrences, in order of first occurrence. */
  function Tally(tags: seq<string>): (t: Table)
    ensures TableKeys(t) == Dedupe(tags)
    ensures forall i :: 0 <= i < |t| ==> t[i].1 == multiset(tags)[t[i].0]
    ensures SumCounts(t) == |tags|
  {
    if |tags| == 0 then []
    else
      var init := tags[..|tags| - 1];
      var g := tags[|tags| - 1];
      assert tags == init + [g];
      var prev := Tally(init);
      var t := Bump(prev, g);
      BumpKeys(prev, g);
      BumpSum(prev, g);
      BumpCounts(init, g, prev, t);
      t
  }

  /** Every tag of the table occurs at least once, so no count is zero. */
  lemma TallyPositive(tags: seq<string>)
    ensures forall i :: 0 <= i < |Tally(tags)| ==> 1 <= Tally(tags)[i].1 <= |tags|
  {
    var t := Tally(tags);
    forall i | 0 <= i < |t| ensures 1 <= t[i].1 <= |tags| {
      assert t[i].0 in TableKeys(t);
      assert t[i].0 in tags;
      assert t[i].1 == multiset(tags)[t[i].0];
      assert |multiset(tags)| == |tags|;
      MultisetCountBound(multiset(tags), t[i].0);
    }
  }

  lemma MultisetCountBound(m: multiset<string>, x: string)
    ensures m[x] <= |m|
  {
    var rest := m - multiset{x};
    if m[x] > 0 {
      assert m == rest + multiset{x};
      MultisetCountBound(rest, x);
    }
  }

  /** Relative frequencies `count / n`, in table order. */
  function Shares(t: Table, n: nat): (r: seq<real>)
    requires n > 0
    ensures |r| == |t|
    ensures forall i :: 0 <= i < |t| ==> r[i] == t[i].1 as real / n as real
  {
    if |t| == 0 then [] else [t[0].1 as real / n as real] + Shares(t[1..], n)
  }

  function SumReals(ps: seq<real>): real
  {
    if |ps| == 0 then 0.0 else ps[0] + SumReals(ps[1..])
  }

  lemma {:induction false} SharesSum(t: Table, n: nat)
    requires n > 0
    ensures SumReals(Shares(t, n)) == SumCounts(t) as real / n as real
  {
    if |t| > 0 {
      SharesSum(t[1..], n);
      assert Shares(t, n)[1..] == Shares(t[1..], n);
      DivAdd(t[0].1 as real, SumCounts(t[1..]) as real, n as real);
    }
  }

  lemma DivAdd(a: real, b: real, n: real)
    requires n > 0.0
    ensures a / n + b / n == (a + b) / n
  {
  }

  /** A probability vector with no zero entry. */
  ghost predicate IsDistribution(ps: seq<real>)
  {
    && (forall i :: 0 <= i < |ps| ==> 0.0 < ps[i] <= 1.0)
    && SumReals(ps) == 1.0
  }

  /** The proportions `count / total_genres` of lines 279-285 of the source. */
  function Proportions(tags: seq<string>): (ps: seq<real>)
    requires |tags| > 0
    ensures |ps| == |Dedupe(tags)|
    ensures IsDistribution(ps)
  {
    var n := |tags|;
    var t := Tally(tags);
    var ps := Shares(t, n);
    SharesSum(t, n);
    ShareBounds(SumCounts(t), n);
    TallyPositive(tags);
    forall i | 0 <= i < |ps| ensures 0.0 < ps[i] <= 1.0 {
      assert ps[i] == t[i].1 as real / n as real;
      ShareBounds(t[i].1, n);
    }
    assert |ps| == |TableKeys(t)|;
    ps
  }

  lemma ShareBounds(c: nat, n: nat)
    requires 1 <= c <= n
    ensures 0.0 < c as real / n as real <= 1.0
    ensures c == n ==> c as real / n as real == 1.0
  {
  }

  /** A candidate for "Shannon entropy in bits divided by log2 of the number
      of categories" of a probability vector. */
  type EntropyFn = seq<real> -> real

  /** What the model assumes of `log2`: the normalised entropy of a
      distribution over two or more categories lies in [0, 1]. */
  ghost predicate EntropyInRange(h: EntropyFn)
  {
    forall ps :: IsDistribution(ps) && |ps| >= 2 ==> 0.0 <= h(ps) <= 1.0
  }

  lemma DistinctCard(s: seq<string>)
    requires Distinct(s)
    ensures |set x | x in s| == |s|
  {
    if |s| > 0 {
      var init := s[..|s| - 1];
      DistinctCard(init);
      assert s == init + [s[|s| - 1]];
      assert (set x | x in s) == (set x | x in init) + {s[|s| - 1]};
    }
  }

  /** The number of distinct genre tags of `xs` is the size of its genre set. */
  lemma DistinctTagCount(xs: seq<Artist>)
    ensures |Dedupe(GenreTags(xs))| == |GenreSet(xs)|
  {
    var d := Dedupe(GenreTags(xs));
    DistinctCard(d);
    assert (set x | x in d) == GenreSet(xs);
  }

  /** The source's `_calculate_genre_diversity`: normalised Shannon entropy of
      the genre-tag frequencies. No tags, or a single distinct tag (whose
      entropy `-1 * log2(1)` is exactly 0), give 0. */
  function GenreDiversity(xs: seq<Artist>, h: EntropyFn): (r: real)
    requires EntropyInRange(h)
    ensures 0.0 <= r <= 1.0
    ensures |GenreSet(xs)| <= 1 ==> r == 0.0
  {
    var tags := GenreTags(xs);
    DistinctTagCount(xs);
    if |tags| == 0 then 0.0
    else if |Tally(tags)| <= 1 then 0.0
    else h(Proportions(tags))
  }
}

=== FILE: memo.dfy ===
/** The `cached` decorator: cache-key derivation from a call's arguments and
    the wrapper that answers from the cache or calls through and stores. The
    JSON rendering and MD5 digest of the key data are one function parameter;
    the wrapped function is another, so that the number of times it is
    invoked is part of each call's result. */
module Memo {
  import opened Strings
  import opened Ordering
  import opened Cache

  /** Keyword arguments in call order: (name, value) pairs. */
  type Kwargs = seq<(string, Value)>

  function Name(p: (string, Value)): string
  {
    p.0
  }

  /** The `kwargs` entry of the key data: `{}` when there are none, else the
      pairs sorted by name. */
  datatype KwargsForm = NoKwargs | SortedPairs(pairs: Kwargs)

  /** `{"args": args, "kwargs": ...}` before serialisation. */
  datatype KeyData = KeyData(args: seq<Value>, kwargs: KwargsForm)

  /** `sorted(kwargs.items()) if kwargs else {}`. Python keyword names are
      distinct, so the sort keeps every pair. */
  function CanonicalKwargs(kwargs: Kwargs): (r: KwargsForm)
    ensures r.NoKwargs? <==> |kwargs| == 0
    ensures r.SortedPairs? ==> StrictlySorted(r.pairs, Name)
    ensures r.SortedPairs? && KeysDistinct(kwargs, Name) ==> forall p :: p in r.pairs <==> p in kwargs
  {
    if |kwargs| == 0 then NoKwargs
    else
      var sorted := SortByKey(kwargs, Name);
      if KeysDistinct(kwargs, Name) then
        SortKeepsAll(kwargs, Name);
        SortedPairs(sorted)
      else SortedPairs(sorted)
  }

  /** The order in which keyword arguments are passed does not matter. */
  lemma CanonicalKwargsOrderFree(k1: Kwargs, k2: Kwargs)
    requires KeysDistinct(k1, Name) && KeysDistinct(k2, Name)
    requires forall p :: p in k1 <==> p in k2
    ensures CanonicalKwargs(k1) == CanonicalKwargs(k2)
  {
    SameElementsSameEmptiness(k1, k2);
    if |k1| > 0 {
      var s1 := CanonicalKwargs(k1).pairs;
      var s2 := CanonicalKwargs(k2).pairs;
      SortedUnique(s1, s2, Name);
    }
  }

  /** The hex digest of the serialised key data. */
  type Digest = KeyData -> string

  /** `_generate_cache_key(prefix, *args, **kwargs)`: the prefix, a colon, and
      the first 16 characters of the digest. */
  function GenerateCacheKey(digest: Digest, prefix: string, args: seq<Value>, kwargs: Kwargs): (key: string)
    ensures StartsWith(key, prefix + ":")
    ensures |key| <= |prefix| + 17
    ensures |digest(KeyData(args, CanonicalKwargs(kwargs)))| >= 16 ==> |key| == |prefix| + 17
    ensures var h := digest(KeyData(args, CanonicalKwargs(kwargs)));
      key == prefix + ":" + (if |h| >= 16 then h[..16] else h)
  {
    var h := digest(KeyData(args, CanonicalKwargs(kwargs)));
    var head := prefix + ":";
    var tail := if |h| <= 16 then h else h[..16];
    assert (head + tail)[..|head|] == head;
    head + tail
  }

  /** Two calls whose keyword arguments differ only in order share a key. */
  lemma CacheKeyOrderFree(digest: Digest, prefix: string, args: seq<Value>, k1: Kwargs, k2: Kwargs)
    requires KeysDistinct(k1, Name) && KeysDistinct(k2, Name)
    requires forall p :: p in k1 <==> p in k2
    ensures GenerateCacheKey(digest, prefix, args, k1) == GenerateCacheKey(digest, prefix, args, k2)
  {
    CanonicalKwargsOrderFree(k1, k2);
  }

  /** Under one prefix, two calls share a key exactly when the first 16
      characters of their digests agree. */
  lemma {:induction false} SamePrefixKeys(digest: Digest, prefix: string, a1: seq<Value>, k1: Kwargs, a2: seq<Value>, k2: Kwargs)
    requires |digest(KeyData(a1, CanonicalKwargs(k1)))| >= 16
    requires |digest(KeyData(a2, CanonicalKwargs(k2)))| >= 16
    ensures GenerateCacheKey(digest, prefix, a1, k1) == GenerateCacheKey(digest, prefix, a2, k2) <==>
      digest(KeyData(a1, CanonicalKwargs(k1)))[..16] == digest(KeyData(a2, CanonicalKwargs(k2)))[..16]
  {
    var head := prefix + ":";
    var key1, key2 := GenerateCacheKey(digest, prefix, a1, k1), GenerateCacheKey(digest, prefix, a2, k2);
    var t1, t2 := digest(KeyData(a1, CanonicalKwargs(k1)))[..16], digest(KeyData(a2, CanonicalKwargs(k2)))[..16];
    assert key1[|head|..] == t1;
    assert key2[|head|..] == t2;
  }

  /** What one call of the wrapped function does: return a value or raise. */
  datatype Outcome = Returned(value: Value) | Raised

  /** The wrapped function. */
  type Producer = (seq<Value>, Kwargs) -> Outcome

  /** One call through the wrapper: the cache afterwards, what the caller
      sees, and how many times the wrapped function ran. */
  datatype Call = Call(cache: CacheManager, outcome: Outcome, invocations: nat)

  /** The wrapper's key: the function's name is the first positional
      argument of the key data, so it is part of what is digested. */
  function WrapperKey(digest: Digest, prefix: string, funcName: string, args: seq<Value>, kwargs: Kwargs): (key: string)
    ensures StartsWith(key, prefix + ":")
    ensures var h := digest(KeyData([Str(funcName)] + args, CanonicalKwargs(kwargs)));
      |h| >= 16 ==> key == prefix + ":" + h[..16]
  {
    GenerateCacheKey(digest, prefix, [Str(funcName)] + args, kwargs)
  }

  /** `cached(expire, key_prefix)(func)(*args, **kwargs)`. */
  function CachedCall(c: CacheManager, digest: Digest, prefix: string, expire: int,
                      funcName: string, f: Producer, args: seq<Value>, kwargs: Kwargs): (r: Call)
    ensures var key := WrapperKey(digest, prefix, funcName, args, kwargs);
      && r.invocations <= 1
      && (Get(c, key) != Null ==> r == Call(c, Returned(Get(c, key)), 0))
      && (Get(c, key) == Null ==> r.invocations == 1 && r.outcome == f(args, kwargs))
      && (r.outcome.Raised? ==> r.cache == c)
      && (r.invocations == 1 && r.outcome.Returned? ==> Get(r.cache, key) == r.outcome.value)
      && (forall k :: k != key ==> Exists(r.cache, k) == Exists(c, k) && Get(r.cache, k) == Get(c, k))
  {
    var key := WrapperKey(digest, prefix, funcName, args, kwargs);
    var hit := Get(c, key);
    if hit != Null then Call(c, Returned(hit), 0)
    else
      match f(args, kwargs)
      case Raised => Call(c, Raised, 1)
      case Returned(v) => Call(Set(c, key, v, expire).0, Returned(v), 1)
  }

  /** Two identical calls in a row: the second sees what the first saw, and
      the wrapped function runs at most once between them exactly when the
      key was already cached or the function returns something other than
      None. */
  lemma RepeatedCall(c: CacheManager, digest: Digest, prefix: string, expire: int,
                     funcName: string, f: Producer, args: seq<Value>, kwargs: Kwargs)
    ensures var first := CachedCall(c, digest, prefix, expire, funcName, f, args, kwargs);
      var second := CachedCall(first.cache, digest, prefix, expire, funcName, f, args, kwargs);
      var key := WrapperKey(digest, prefix, funcName, args, kwargs);
      && second.outcome == first.outcome
      && (first.invocations + second.invocations <= 1 <==>
          Get(c, key) != Null || (f(args, kwargs).Returned? && f(args, kwargs).value != Null))
  {
  }

  /** A function that returns None is never served from the cache: every
      call runs it again. */
  lemma NoneIsNeverCached(c: CacheManager, digest: Digest, prefix: string, expire: int,
                          funcName: string, f: Producer, args: seq<Value>, kwargs: Kwargs)
    requires Get(c, WrapperKey(digest, prefix, funcName, args, kwargs)) == Null
    requires f(args, kwargs) == Returned(Null)
    ensures var r := CachedCall(c, digest, prefix, expire, funcName, f, args, kwargs);
      r.invocations == 1 && Get(r.cache, WrapperKey(digest, prefix, funcName, args, kwargs)) == Null
  {
  }

  /** Invalidating a user whose id occurs in a call's key forces that call to
      run the wrapped function again. */
  method CallAfterInvalidation(c: CacheManager, userId: string, digest: Digest, prefix: string, expire: int,
                               funcName: string, f: Producer, args: seq<Value>, kwargs: Kwargs)
    returns (r: Call)
    requires Contains(WrapperKey(digest, prefix, funcName, args, kwargs), userId)
    ensures r.invocations == 1 && r.outcome == f(args, kwargs)
  {
    var invalidated, _ := InvalidateUserCache(c, userId);
    r := CachedCall(invalidated, digest, prefix, expire, funcName, f, args, kwargs);
  }
}

=== FILE: ordering.dfy ===
/** Python's ordering of `str` values (code point by code point) and a sort
    that orders records by a string key, keeping the first record of each key.
    `sorted(set)` of strings and `sorted(kwargs.items())` are both instances. */
module Ordering {

  /** Python's `a < b` on `str`. */
  predicate Less(a: string, b: string)
  {
    if |a| == 0 then |b| > 0
    else if |b| == 0 then false
    else if a[0] != b[0] then a[0] < b[0]
    else Less(a[1..], b[1..])
  }

  lemma {:induction false} LessIrreflexive(a: string)
    ensures !Less(a, a)
  {
    if |a| > 0 {
      LessIrreflexive(a[1..]);
    }
  }

  lemma {:induction false} LessTransitive(a: string, b: string, c: string)
    requires Less(a, b) && Less(b, c)
    ensures Less(a, c)
  {
    if |a| > 0 && |b| > 0 && |c| > 0 && a[0] == b[0] && b[0] == c[0] {
      LessTransitive(a[1..], b[1..], c[1..]);
    }
  }

  lemma {:induction false} LessTotal(a: string, b: string)
    ensures a == b || Less(a, b) || Less(b, a)
  {
    if |a| > 0 && |b| > 0 && a[0] == b[0] {
      LessTotal(a[1..], b[1..]);
      if a[1..] == b[1..] {
        assert a == [a[0]] + a[1..] && b == [b[0]] + b[1..];
      }
    }
  }

  lemma LessAsymmetric(a: string, b: string)
    requires Less(a, b)
    ensures !Less(b, a)
  {
    if Less(b, a) {
      LessTransitive(a, b, a);
      LessIrreflexive(a);
    }
  }

  /** Keys strictly increase along `s`: sorted and free of repeated keys. */
  predicate StrictlySorted<T(==)>(s: seq<T>, key: T -> string)
  {
    forall i, j :: 0 <= i < j < |s| ==> Less(key(s[i]), key(s[j]))
  }

  function KeySet<T(==)>(s: seq<T>, key: T -> string): set<string>
  {
    set y | y in s :: key(y)
  }

  /** Putting a record in front of a sorted sequence whose keys all exceed its
      own keeps it sorted. */
  lemma ConsSorted<T>(y: T, s: seq<T>, key: T -> string)
    requires StrictlySorted(s, key)
    requires forall z :: z in s ==> Less(key(y), key(z))
    ensures StrictlySorted([y] + s, key)
  {
    forall i, j | 0 <= i < j < |[y] + s| ensures Less(key(([y] + s)[i]), key(([y] + s)[j])) {
      if i > 0 {
        assert ([y] + s)[i] == s[i - 1] && ([y] + s)[j] == s[j - 1];
      } else {
        assert ([y] + s)[j] in s;
      }
    }
  }

  /** Inserts `x` at its place by key, unless a record with the same key is
      already present (then `s` is returned). */
  function Insert<T(==)>(x: T, s: seq<T>, key: T -> string): (r: seq<T>)
    requires StrictlySorted(s, key)
    ensures StrictlySorted(r, key)
    ensures forall y :: y in r ==> y in s || y == x
    ensures forall y :: y in s ==> y in r
    ensures KeySet(r, key) == KeySet(s, key) + {key(x)}
  {
    if |s| == 0 then [x]
    else if key(x) == key(s[0]) then s
    else if Less(key(x), key(s[0])) then
      forall z | z in s ensures Less(key(x), key(z)) {
        if z != s[0] {
          var j :| 0 < j < |s| && s[j] == z;
          LessTransitive(key(x), key(s[0]), key(s[j]));
        }
      }
      ConsSorted(x, s, key);
      [x] + s
    else
      LessTotal(key(x), key(s[0]));
      var tail := Insert(x, s[1..], key);
      forall z | z in tail ensures Less(key(s[0]), key(z)) {
        if z != x {
          var j :| 0 <= j < |s[1..]| && s[1..][j] == z;
          assert s[j + 1] == z;
        }
      }
      ConsSorted(s[0], tail, key);
      InsertKeys(s, tail, key);
      [s[0]] + tail
  }

  lemma InsertKeys<T>(s: seq<T>, tail: seq<T>, key: T -> string)
    requires |s| > 0
    ensures forall y :: y in s <==> y == s[0] || y in s[1..]
    ensures KeySet(s, key) == {key(s[0])} + KeySet(s[1..], key)
    ensures KeySet([s[0]] + tail, key) == {key(s[0])} + KeySet(tail, key)
  {
    assert s == [s[0]] + s[1..];
  }

  /** Sorts by key, keeping the first record of each key. */
  function SortByKey<T(==)>(s: seq<T>, key: T -> string): (r: seq<T>)
    ensures StrictlySorted(r, key)
    ensures forall y :: y in r ==> y in s
    ensures KeySet(r, key) == KeySet(s, key)
  {
    if |s| == 0 then []
    else
      var init := s[..|s| - 1];
      assert forall y :: y in s ==> y in init || y == s[|s| - 1];
      assert KeySet(s, key) == KeySet(init, key) + {key(s[|s| - 1])};
      Insert(s[|s| - 1], SortByKey(init, key), key)
  }

  /** No two records of `s` share a key. */
  predicate KeysDistinct<T(==)>(s: seq<T>, key: T -> string)
  {
    forall i, j :: 0 <= i < j < |s| ==> key(s[i]) != key(s[j])
  }

  /** When keys are distinct nothing is dropped: the sort is a rearrangement. */
  lemma SortKeepsAll<T>(s: seq<T>, key: T -> string)
    requires KeysDistinct(s, key)
    ensures forall y :: y in s <==> y in SortByKey(s, key)
  {
    var r := SortByKey(s, key);
    forall y | y in s ensures y in r {
      assert key(y) in KeySet(r, key);
      var z :| z in r && key(z) == key(y);
      assert z in s;
      var i :| 0 <= i < |s| && s[i] == y;
      var j :| 0 <= j < |s| && s[j] == z;
      assert i == j;
    }
  }

  lemma SameElementsSameEmptiness<T>(a: seq<T>, b: seq<T>)
    requires forall y :: y in a <==> y in b
    ensures |a| == 0 <==> |b| == 0
  {
    if |a| > 0 { assert a[0] in b; }
    if |b| > 0 { assert b[0] in a; }
  }

  /** Two strictly sorted sequences holding the same records are equal: sorting
      has only one possible outcome. */
  lemma {:induction false} SortedUnique<T>(a: seq<T>, b: seq<T>, key: T -> string)
    requires StrictlySorted(a, key) && StrictlySorted(b, key)
    requires forall y :: y in a <==> y in b
    ensures a == b
  {
    SameElementsSameEmptiness(a, b);
    if |a| > 0 {
      if a[0] != b[0] {
        assert a[0] in b && b[0] in a;
        var j :| 0 <= j < |b| && b[j] == a[0];
        var i :| 0 <= i < |a| && a[i] == b[0];
        assert Less(key(a[0]), key(b[0]));
        assert Less(key(b[0]), key(a[0]));
        LessAsymmetric(key(a[0]), key(b[0]));
      }
      forall y ensures y in a[1..] <==> y in b[1..] {
        if y in a[1..] {
          var i :| 1 <= i < |a| && a[i] == y;
          LessIrreflexive(key(a[0]));
          assert y != a[0];
          assert y in b;
        }
        if y in b[1..] {
          var i :| 1 <= i < |b| && b[i] == y;
          LessIrreflexive(key(b[0]));
          assert y != b[0];
          assert y in a;
        }
      }
      SortedUnique(a[1..], b[1..], key);
      assert a == [a[0]] + a[1..] && b == [b[0]] + b[1..];
    }
  }
}

=== FILE: playlists.dfy ===
/** `get_user_top_tracks_from_playlists`: collect the artists of the tracks in
    a user's first public playlists, requesting each new artist id until one
    request for it succeeds, then keep the most popular ones. The two catalogue requests are function
    parameters, and the scan is a chain of transitions on a record of what it
    has collected and requested so far. */
module Playlists {
  import opened Wrappers
  import opened Seqs
  import opened Artists

  /** How many playlists are scanned, how many tracks one request asks for at
      most, and how many artists are returned at most. */
  const PlaylistsScanned: nat := 5
  const TracksPerRequest: int := 20
  const TopCount: nat := 20

  /** The artist record the catalogue returns; `popularity` and `genres` may
      be missing. */
  datatype ArtistJson = ArtistJson(id: string, name: string, popularity: Option<int>, genres: Option<seq<string>>)

  /** One playlist item: the ids of its track's artists, empty when the item
      has no track or the track lists no artists. */
  datatype TrackItem = TrackItem(artistIds: seq<string>)

  datatype Playlist = Playlist(id: string)

  /** The artist request: the record on a 200 answer, else None. */
  type ArtistFetch = string -> Option<ArtistJson>

  /** The playlist-tracks request with its `limit` parameter: the items on a
      200 answer, else None. */
  type TracksFetch = (string, int) -> Option<seq<TrackItem>>

  /** The four-entry record stored for a fetched artist: missing popularity
      reads as 0 and missing genres as the empty list. */
  function Stored(d: ArtistJson): (a: Artist)
    ensures a.id == d.id && a.name == d.name
    ensures a.popularity.Some? && a.genres.Some?
  {
    Artist(d.id, d.name, Some(d.popularity.GetOr(0)), Some(d.genres.GetOr([])))
  }

  /** One tracks request: the playlist it was for, the track counter when it
      was made, and the `limit` parameter it carried. */
  datatype TracksRequest = TracksRequest(playlist: string, countBefore: int, asked: int)

  /** What the scan has done so far: the `artists_data` dictionary as its
      (key, record) entries in insertion order, the track counter, every
      tracks request made, and the number of artist requests made. */
  datatype Scan = Scan(found: seq<(string, Artist)>, trackCount: int, trackRequests: seq<TracksRequest>, artistRequests: nat)

  function Start(): Scan
  {
    Scan([], 0, [], 0)
  }

  function Keys(found: seq<(string, Artist)>): (r: seq<string>)
    ensures |r| == |found|
    ensures forall k :: 0 <= k < |found| ==> r[k] == found[k].0
  {
    seq(|found|, k requires 0 <= k < |found| => found[k].0)
  }

  /** The dictionary's `values()`, in insertion order. */
  function Values(found: seq<(string, Artist)>): (r: seq<Artist>)
    ensures |r| == |found|
    ensures forall k :: 0 <= k < |found| ==> r[k] == found[k].1
  {
    seq(|found|, k requires 0 <= k < |found| => found[k].1)
  }

  /** Every entry holds the stored form of what the artist request answered
      for its key. */
  predicate FromCatalogue(found: seq<(string, Artist)>, fetch: ArtistFetch)
  {
    forall k :: 0 <= k < |found| ==> fetch(found[k].0).Some? && found[k].1 == Stored(fetch(found[k].0).value)
  }

  /** The catalogue answers a request for an id with the record of that id. */
  ghost predicate Echoes(fetch: ArtistFetch)
  {
    forall id :: fetch(id).Some? ==> fetch(id).value.id == id
  }

  /** What every scan state keeps: a dictionary never repeats a key and each
      of its entries came from the catalogue. */
  predicate Valid(s: Scan, fetch: ArtistFetch)
  {
    Distinct(Keys(s.found)) && FromCatalogue(s.found, fetch)
  }

  /** One artist of a track: requested unless its id is already a key, and
      stored when the request succeeds. A failed request stores nothing, so
      the same id is requested again when it turns up again. */
  function VisitArtist(s: Scan, id: string, fetch: ArtistFetch): (r: Scan)
    requires Valid(s, fetch)
    ensures Valid(r, fetch)
    ensures s.found <= r.found
    ensures r.trackCount == s.trackCount && r.trackRequests == s.trackRequests
    ensures forall k {:trigger k in Keys(r.found)} :: k in Keys(r.found) <==> k in Keys(s.found) || (k == id && fetch(id).Some?)
    ensures r.artistRequests == s.artistRequests + (if id in Keys(s.found) then 0 else 1)
  {
    if id in Keys(s.found) then s
    else
      var asked := s.(artistRequests := s.artistRequests + 1);
      match fetch(id)
      case None => asked
      case Some(d) =>
        var r := asked.(found := s.found + [(id, Stored(d))]);
        assert Keys(r.found) == Keys(s.found) + [id];
        r
  }

  /** `for artist in track["artists"]`. */
  function VisitArtists(s: Scan, ids: seq<string>, fetch: ArtistFetch): (r: Scan)
    requires Valid(s, fetch)
    ensures Valid(r, fetch)
    ensures s.found <= r.found
    ensures r.trackCount == s.trackCount && r.trackRequests == s.trackRequests
    ensures forall k {:trigger k in Keys(r.found)} :: k in Keys(r.found) <==> k in Keys(s.found) || (k in ids && fetch(k).Some?)
    ensures s.artistRequests <= r.artistRequests <= s.artistRequests + |ids|
    decreases |ids|
  {
    if |ids| == 0 then s
    else
      var r := VisitArtists(VisitArtist(s, ids[0], fetch), ids[1..], fetch);
      assert forall k :: k in ids <==> k == ids[0] || k in ids[1..];
      r
  }

  /** The track counter never passes the limit (nor drops below zero). */
  predicate Counted(s: Scan, limit: int)
  {
    0 <= s.trackCount && (s.trackCount <= limit || s.trackCount == 0)
  }

  /** `for item in tracks_data.get("items", [])`: stop once the counter has
      reached the limit, else visit the item's artists and count the item. */
  function VisitItems(s: Scan, items: seq<TrackItem>, limit: int, fetch: ArtistFetch): (r: Scan)
    requires Valid(s, fetch) && Counted(s, limit)
    ensures Valid(r, fetch) && Counted(r, limit)
    ensures s.found <= r.found
    ensures r.trackRequests == s.trackRequests
    ensures r.trackCount == s.trackCount + |Reached(items, limit - s.trackCount)|
    ensures forall k {:trigger k in Keys(r.found)} :: k in Keys(r.found) <==>
      k in Keys(s.found) || (k in ItemIds(Reached(items, limit - s.trackCount)) && fetch(k).Some?)
    decreases |items|
  {
    if |items| == 0 || s.trackCount >= limit then s
    else
      var visited := VisitArtists(s, items[0].artistIds, fetch);
      var counted := visited.(trackCount := visited.trackCount + 1);
      var r := VisitItems(counted, items[1..], limit, fetch);
      ItemStep(s, counted, r, items, limit - s.trackCount, fetch);
      r
  }

  /** The keys after one item and then the rest: the ids of the items
      reached, when their artist request succeeds. */
  lemma ItemStep(s: Scan, visited: Scan, r: Scan, items: seq<TrackItem>, room: int, fetch: ArtistFetch)
    requires |items| > 0 && room > 0
    requires forall k {:trigger k in Keys(visited.found)} :: k in Keys(visited.found) <==> k in Keys(s.found) || (k in items[0].artistIds && fetch(k).Some?)
    requires forall k {:trigger k in Keys(r.found)} :: k in Keys(r.found) <==> k in Keys(visited.found) || (k in ItemIds(Reached(items[1..], room - 1)) && fetch(k).Some?)
    ensures forall k {:trigger k in Keys(r.found)} :: k in Keys(r.found) <==> k in Keys(s.found) || (k in ItemIds(Reached(items, room)) && fetch(k).Some?)
    ensures |Reached(items, room)| == 1 + |Reached(items[1..], room - 1)|
  {
    ReachedCons(items, room);
  }

  /** The artist ids of some items, item by item. */
  function ItemIds(items: seq<TrackItem>): seq<string>
  {
    if |items| == 0 then [] else items[0].artistIds + ItemIds(items[1..])
  }

  /** An id is among the items' artist ids iff some item lists it. */
  lemma {:induction false} ItemIdsMembers(items: seq<TrackItem>, k: string)
    ensures k in ItemIds(items) <==> exists j :: 0 <= j < |items| && k in items[j].artistIds
  {
    if |items| > 0 {
      ItemIdsMembers(items[1..], k);
      assert forall j :: 0 < j < |items| ==> items[1..][j - 1] == items[j];
      if exists j :: 0 <= j < |items| && k in items[j].artistIds {
        var j :| 0 <= j < |items| && k in items[j].artistIds;
        if j > 0 {
          assert items[1..][j - 1] == items[j];
        }
      }
    }
  }

  /** The items the loop reaches with `room` tracks left before the limit. */
  function Reached(items: seq<TrackItem>, room: int): (r: seq<TrackItem>)
    ensures |r| == Min(|items|, Max(room, 0))
    ensures r <= items
  {
    items[..Min(|items|, Max(room, 0))]
  }

  /** With room left, the loop reaches the first item and then the items the
      rest of the list reaches with one track less. */
  lemma ReachedCons(items: seq<TrackItem>, room: int)
    requires |items| > 0 && room > 0
    ensures ItemIds(Reached(items, room)) == items[0].artistIds + ItemIds(Reached(items[1..], room - 1))
  {
    var n := Min(|items|, room);
    var r := Reached(items, room);
    assert r[0] == items[0];
    assert r[1..] == Reached(items[1..], room - 1);
  }

  function Min(a: int, b: int): int
  {
    if a <= b then a else b
  }

  function Max(a: int, b: int): int
  {
    if a >= b then a else b
  }

  /** Every tracks request was made while the counter was below the limit
      and asked for `min(20, limit - track_count)` tracks at that counter. */
  predicate RequestsSized(rs: seq<TracksRequest>, limit: int)
  {
    forall k :: 0 <= k < |rs| ==>
      && 0 <= rs[k].countBefore < limit
      && rs[k].asked == Min(TracksPerRequest, limit - rs[k].countBefore)
  }

  /** The counters of successive requests never decrease. */
  predicate CountersOrdered(rs: seq<TracksRequest>)
  {
    forall i, j :: 0 <= i < j < |rs| ==> rs[i].countBefore <= rs[j].countBefore
  }

  /** The requests so far, none made at a counter past the current one. */
  predicate RequestsMade(rs: seq<TracksRequest>, trackCount: int, limit: int)
  {
    && RequestsSized(rs, limit)
    && CountersOrdered(rs)
    && (forall k :: 0 <= k < |rs| ==> rs[k].countBefore <= trackCount)
  }

  /** Such a request asks for between 1 and 20 tracks, and never for more
      than the limit. */
  lemma RequestBounds(rs: seq<TracksRequest>, limit: int)
    requires RequestsSized(rs, limit)
    ensures forall k :: 0 <= k < |rs| ==> 1 <= rs[k].asked <= Min(TracksPerRequest, limit)
  {
  }

  /** A later counter keeps the record valid. */
  lemma RequestsMadeLater(rs: seq<TracksRequest>, c1: int, c2: int, limit: int)
    requires RequestsMade(rs, c1, limit) && c1 <= c2
    ensures RequestsMade(rs, c2, limit)
  {
  }

  /** Recording one more request at the current counter keeps the record
      valid. */
  lemma RequestsMadeAppend(rs: seq<TracksRequest>, playlist: string, trackCount: int, limit: int)
    requires RequestsMade(rs, trackCount, limit)
    requires 0 <= trackCount < limit
    ensures RequestsMade(rs + [TracksRequest(playlist, trackCount, Min(TracksPerRequest, limit - trackCount))], trackCount, limit)
  {
  }

  /** The tracks request `q` returned items, and `id` is an artist of one of
      the items the loop reached before the limit. */
  predicate Answered(q: TracksRequest, tracks: TracksFetch, limit: int, id: string)
  {
    && tracks(q.playlist, q.asked).Some?
    && id in ItemIds(Reached(tracks(q.playlist, q.asked).value, limit - q.countBefore))
  }

  /** Some recorded tracks request contributed `id`. */
  predicate Contributed(rs: seq<TracksRequest>, tracks: TracksFetch, limit: int, id: string)
  {
    exists j :: 0 <= j < |rs| && Answered(rs[j], tracks, limit, id)
  }

  /** The track counter after request `q`: its counter plus the items of its
      answer reached before the limit, or unchanged when it failed. */
  function After(q: TracksRequest, tracks: TracksFetch, limit: int): int
  {
    q.countBefore +
      (if tracks(q.playlist, q.asked).Some?
       then |Reached(tracks(q.playlist, q.asked).value, limit - q.countBefore)|
       else 0)
  }

  /** One track budget across all playlists: the first request is made at
      counter 0 and each later one at the counter the previous one left. */
  predicate Chained(rs: seq<TracksRequest>, tracks: TracksFetch, limit: int)
  {
    && (|rs| > 0 ==> rs[0].countBefore == 0)
    && forall k {:trigger After(rs[k], tracks, limit)} :: 0 <= k < |rs| - 1 ==>
         rs[k + 1].countBefore == After(rs[k], tracks, limit)
  }

  /** The counter the requests leave behind: 0 before any, else the counter
      after the last. */
  function Final(rs: seq<TracksRequest>, tracks: TracksFetch, limit: int): int
  {
    if |rs| == 0 then 0 else After(rs[|rs| - 1], tracks, limit)
  }

  /** A request made at the counter the others left extends the chain, and
      the counter is then the one it leaves. */
  lemma ChainedAppend(rs: seq<TracksRequest>, q: TracksRequest, tracks: TracksFetch, limit: int)
    requires Chained(rs, tracks, limit) && q.countBefore == Final(rs, tracks, limit)
    ensures Chained(rs + [q], tracks, limit)
    ensures Final(rs + [q], tracks, limit) == After(q, tracks, limit)
  {
    var all := rs + [q];
    forall k | 0 <= k < |all| - 1 ensures all[k + 1].countBefore == After(all[k], tracks, limit) {
      if k + 1 < |rs| {
        assert all[k + 1] == rs[k + 1] && all[k] == rs[k];
        assert rs[k + 1].countBefore == After(rs[k], tracks, limit);
      } else {
        assert all[k + 1] == q && all[k] == rs[|rs| - 1];
      }
    }
  }

  /** The dictionary's keys are exactly the contributed ids whose artist
      request succeeds. */
  ghost predicate FoundExactly(s: Scan, tracks: TracksFetch, limit: int, fetch: ArtistFetch)
  {
    forall k {:trigger k in Keys(s.found)} {:trigger Contributed(s.trackRequests, tracks, limit, k)} :: k in Keys(s.found) <==> Contributed(s.trackRequests, tracks, limit, k) && fetch(k).Some?
  }

  /** What every state of the playlist loop keeps: the dictionary is valid
      and holds exactly the contributed ids, the counter is within the
      limit, and the requests so far were sized by their counters. */
  ghost predicate Consistent(s: Scan, tracks: TracksFetch, limit: int, fetch: ArtistFetch)
  {
    && Valid(s, fetch) && Counted(s, limit)
    && RequestsMade(s.trackRequests, s.trackCount, limit)
    && FoundExactly(s, tracks, limit, fetch)
  }

  /** The counter is the one the chain of requests leaves: a single track
      budget, started at 0, spent across all requests so far. */
  predicate Budgeted(s: Scan, tracks: TracksFetch, limit: int)
  {
    Chained(s.trackRequests, tracks, limit) && s.trackCount == Final(s.trackRequests, tracks, limit)
  }

  /** One more request contributes what it answered. */
  lemma ContributedAppend(rs: seq<TracksRequest>, q: TracksRequest, tracks: TracksFetch, limit: int, id: string)
    ensures Contributed(rs + [q], tracks, limit, id) <==> Contributed(rs, tracks, limit, id) || Answered(q, tracks, limit, id)
  {
    var all := rs + [q];
    if Contributed(all, tracks, limit, id) {
      var j :| 0 <= j < |all| && Answered(all[j], tracks, limit, id);
      if j < |rs| {
        assert all[j] == rs[j];
      }
    }
    if Contributed(rs, tracks, limit, id) {
      var j :| 0 <= j < |rs| && Answered(rs[j], tracks, limit, id);
      assert all[j] == rs[j];
    }
    if Answered(q, tracks, limit, id) {
      assert all[|rs|] == q;
    }
  }

  /** A step that records request `q` and adds exactly the ids `q` answered
      (when their artist request succeeds) keeps the keys exact. */
  lemma FoundExactlyStep(s: Scan, r: Scan, q: TracksRequest, tracks: TracksFetch, limit: int, fetch: ArtistFetch)
    requires FoundExactly(s, tracks, limit, fetch)
    requires r.trackRequests == s.trackRequests + [q]
    requires forall k {:trigger k in Keys(r.found)} :: k in Keys(r.found) <==> k in Keys(s.found) || (Answered(q, tracks, limit, k) && fetch(k).Some?)
    ensures FoundExactly(r, tracks, limit, fetch)
  {
    forall k ensures k in Keys(r.found) <==> Contributed(r.trackRequests, tracks, limit, k) && fetch(k).Some? {
      ContributedAppend(s.trackRequests, q, tracks, limit, k);
    }
  }

  /** One playlist below the limit: request `min(20, limit - track_count)`
      of its tracks and visit them when the request succeeds. */
  function VisitPlaylist(s: Scan, p: Playlist, limit: int, tracks: TracksFetch, fetch: ArtistFetch): (r: Scan)
    requires Valid(s, fetch) && Counted(s, limit) && s.trackCount < limit
    ensures Valid(r, fetch) && Counted(r, limit)
    ensures s.found <= r.found
    ensures r.trackRequests == s.trackRequests + [TracksRequest(p.id, s.trackCount, Min(TracksPerRequest, limit - s.trackCount))]
    ensures r.trackCount == After(TracksRequest(p.id, s.trackCount, Min(TracksPerRequest, limit - s.trackCount)), tracks, limit)
    ensures s.trackCount <= r.trackCount
    ensures tracks(p.id, Min(TracksPerRequest, limit - s.trackCount)).None? ==> r.found == s.found && r.trackCount == s.trackCount
    ensures forall k {:trigger k in Keys(r.found)} :: k in Keys(r.found) <==>
      k in Keys(s.found) || (Answered(TracksRequest(p.id, s.trackCount, Min(TracksPerRequest, limit - s.trackCount)), tracks, limit, k) && fetch(k).Some?)
  {
    var want := Min(TracksPerRequest, limit - s.trackCount);
    var asked := s.(trackRequests := s.trackRequests + [TracksRequest(p.id, s.trackCount, want)]);
    VisitAnswer(asked, tracks(p.id, want), limit, fetch)
  }

  /** Visiting a playlist keeps the loop's invariant. */
  lemma VisitPlaylistConsistent(s: Scan, p: Playlist, limit: int, tracks: TracksFetch, fetch: ArtistFetch)
    requires Consistent(s, tracks, limit, fetch) && s.trackCount < limit
    ensures Consistent(VisitPlaylist(s, p, limit, tracks, fetch), tracks, limit, fetch)
  {
    var q := TracksRequest(p.id, s.trackCount, Min(TracksPerRequest, limit - s.trackCount));
    var r := VisitPlaylist(s, p, limit, tracks, fetch);
    RequestsMadeAppend(s.trackRequests, p.id, s.trackCount, limit);
    RequestsMadeLater(r.trackRequests, s.trackCount, r.trackCount, limit);
    FoundExactlyStep(s, r, q, tracks, limit, fetch);
  }

  /** `if tracks_response.status_code == 200`: visit the returned items, or
      change nothing. */
  function VisitAnswer(s: Scan, answer: Option<seq<TrackItem>>, limit: int, fetch: ArtistFetch): (r: Scan)
    requires Valid(s, fetch) && Counted(s, limit)
    ensures Valid(r, fetch) && Counted(r, limit)
    ensures s.found <= r.found
    ensures r.trackRequests == s.trackRequests
    ensures answer.None? ==> r == s
    ensures answer.Some? ==> r.trackCount == s.trackCount + |Reached(answer.value, limit - s.trackCount)|
    ensures forall k {:trigger k in Keys(r.found)} :: k in Keys(r.found) <==>
      k in Keys(s.found) || (answer.Some? && k in ItemIds(Reached(answer.value, limit - s.trackCount)) && fetch(k).Some?)
  {
    match answer
    case None => s
    case Some(items) => VisitItems(s, items, limit, fetch)
  }

  /** `for playlist in items[:5]`: stop once the counter has reached the
      limit, else visit the next playlist. */
  function VisitPlaylists(s: Scan, ps: seq<Playlist>, limit: int, tracks: TracksFetch, fetch: ArtistFetch): (r: Scan)
    requires Valid(s, fetch) && Counted(s, limit)
    ensures Valid(r, fetch) && Counted(r, limit)
    ensures s.found <= r.found
    ensures s.trackRequests <= r.trackRequests
    ensures s.trackCount <= r.trackCount
    ensures s.trackCount >= limit ==> r == s
    decreases |ps|
  {
    if |ps| == 0 || s.trackCount >= limit then s
    else VisitPlaylists(VisitPlaylist(s, ps[0], limit, tracks, fetch), ps[1..], limit, tracks, fetch)
  }

  /** The playlist loop keeps its invariant. */
  lemma {:induction false} VisitPlaylistsConsistent(s: Scan, ps: seq<Playlist>, limit: int, tracks: TracksFetch, fetch: ArtistFetch)
    requires Consistent(s, tracks, limit, fetch)
    ensures Consistent(VisitPlaylists(s, ps, limit, tracks, fetch), tracks, limit, fetch)
    decreases |ps|
  {
    if |ps| > 0 && s.trackCount < limit {
      VisitPlaylistConsistent(s, ps[0], limit, tracks, fetch);
      VisitPlaylistsConsistent(VisitPlaylist(s, ps[0], limit, tracks, fetch), ps[1..], limit, tracks, fetch);
    }
  }

  /** The playlist loop spends one track budget: a state whose counter is
      the one its requests leave keeps that property. */
  lemma {:induction false} VisitPlaylistsBudget(s: Scan, ps: seq<Playlist>, limit: int, tracks: TracksFetch, fetch: ArtistFetch)
    requires Valid(s, fetch) && Counted(s, limit) && Budgeted(s, tracks, limit)
    ensures Budgeted(VisitPlaylists(s, ps, limit, tracks, fetch), tracks, limit)
    decreases |ps|
  {
    if |ps| > 0 && s.trackCount < limit {
      var q := TracksRequest(ps[0].id, s.trackCount, Min(TracksPerRequest, limit - s.trackCount));
      ChainedAppend(s.trackRequests, q, tracks, limit);
      VisitPlaylistsBudget(VisitPlaylist(s, ps[0], limit, tracks, fetch), ps[1..], limit, tracks, fetch);
    }
  }

  /** The tracks requests the loop makes from counter `c`, and the counter it
      leaves: they depend on the tracks answers alone, not on the artists. */
  function Trace(c: int, ps: seq<Playlist>, limit: int, tracks: TracksFetch): seq<TracksRequest>
    decreases |ps|
  {
    if |ps| == 0 || c >= limit then []
    else
      var q := TracksRequest(ps[0].id, c, Min(TracksPerRequest, limit - c));
      [q] + Trace(After(q, tracks, limit), ps[1..], limit, tracks)
  }

  function TraceEnd(c: int, ps: seq<Playlist>, limit: int, tracks: TracksFetch): int
    decreases |ps|
  {
    if |ps| == 0 || c >= limit then c
    else TraceEnd(After(TracksRequest(ps[0].id, c, Min(TracksPerRequest, limit - c)), tracks, limit), ps[1..], limit, tracks)
  }

  /** The playlist loop appends exactly the trace of its counter and ends at
      the counter the trace leaves. */
  lemma {:induction false} VisitPlaylistsTrace(s: Scan, ps: seq<Playlist>, limit: int, tracks: TracksFetch, fetch: ArtistFetch)
    requires Valid(s, fetch) && Counted(s, limit)
    ensures var r := VisitPlaylists(s, ps, limit, tracks, fetch);
      r.trackRequests == s.trackRequests + Trace(s.trackCount, ps, limit, tracks)
      && r.trackCount == TraceEnd(s.trackCount, ps, limit, tracks)
    decreases |ps|
  {
    if |ps| > 0 && s.trackCount < limit {
      var q := TracksRequest(ps[0].id, s.trackCount, Min(TracksPerRequest, limit - s.trackCount));
      var next := VisitPlaylist(s, ps[0], limit, tracks, fetch);
      VisitPlaylistsTrace(next, ps[1..], limit, tracks, fetch);
      var r := VisitPlaylists(next, ps[1..], limit, tracks, fetch);
      assert VisitPlaylists(s, ps, limit, tracks, fetch) == r;
      AppendAfter(s.trackRequests, q, Trace(next.trackCount, ps[1..], limit, tracks), next.trackRequests, r.trackRequests);
    }
  }

  /** Appending one request and then more is appending the request followed
      by the others. */
  lemma AppendAfter(rs: seq<TracksRequest>, q: TracksRequest, more: seq<TracksRequest>, mid: seq<TracksRequest>, all: seq<TracksRequest>)
    requires mid == rs + [q] && all == mid + more
    ensures all == rs + ([q] + more)
  {
  }

  /** The trace makes one request per playlist, in order, at counters of at
      least `c`, and is shorter than the playlist list only when the counter
      it leaves has reached the limit. */
  lemma {:induction false} TraceFacts(c: int, ps: seq<Playlist>, limit: int, tracks: TracksFetch)
    ensures var rs := Trace(c, ps, limit, tracks);
      && RequestsFor(rs, ps, c)
      && (|rs| < |ps| ==> TraceEnd(c, ps, limit, tracks) >= limit)
    decreases |ps|
  {
    if |ps| > 0 && c < limit {
      var q := TracksRequest(ps[0].id, c, Min(TracksPerRequest, limit - c));
      TraceFacts(After(q, tracks, limit), ps[1..], limit, tracks);
      RequestsForCons(q, Trace(After(q, tracks, limit), ps[1..], limit, tracks), ps, c, After(q, tracks, limit));
    }
  }

  /** The loop makes one request per visited playlist, in order, and visits
      fewer playlists than it is given only once the counter has reached the
      limit. */
  lemma VisitPlaylistsRequests(s: Scan, ps: seq<Playlist>, limit: int, tracks: TracksFetch, fetch: ArtistFetch)
    requires Valid(s, fetch) && Counted(s, limit)
    ensures var r := VisitPlaylists(s, ps, limit, tracks, fetch);
      && |r.trackRequests| <= |s.trackRequests| + |ps|
      && (|r.trackRequests| < |s.trackRequests| + |ps| ==> r.trackCount >= limit)
      && RequestsFor(r.trackRequests[|s.trackRequests|..], ps, s.trackCount)
  {
    VisitPlaylistsTrace(s, ps, limit, tracks, fetch);
    TraceFacts(s.trackCount, ps, limit, tracks);
    var r := VisitPlaylists(s, ps, limit, tracks, fetch);
    assert r.trackRequests[|s.trackRequests|..] == Trace(s.trackCount, ps, limit, tracks);
  }

  /** Below the limit, the first new request is for the first playlist, at
      the current counter, for `min(20, limit - track_count)` tracks. */
  lemma VisitPlaylistsFirst(s: Scan, ps: seq<Playlist>, limit: int, tracks: TracksFetch, fetch: ArtistFetch)
    requires Valid(s, fetch) && Counted(s, limit)
    requires |ps| > 0 && s.trackCount < limit
    ensures var r := VisitPlaylists(s, ps, limit, tracks, fetch);
      |r.trackRequests| > |s.trackRequests| &&
      r.trackRequests[|s.trackRequests|] == TracksRequest(ps[0].id, s.trackCount, Min(TracksPerRequest, limit - s.trackCount))
  {
    var next := VisitPlaylist(s, ps[0], limit, tracks, fetch);
    var r := VisitPlaylists(s, ps, limit, tracks, fetch);
    assert r == VisitPlaylists(next, ps[1..], limit, tracks, fetch);
    assert r.trackRequests[|s.trackRequests|] == next.trackRequests[|s.trackRequests|];
  }

  /** The scan from a fresh state, with a positive limit, starts with a
      request for the first playlist at counter 0. */
  lemma FirstOfScan(ps: seq<Playlist>, limit: int, tracks: TracksFetch, fetch: ArtistFetch)
    requires |ps| > 0
    ensures var r := VisitPlaylists(Start(), ps, limit, tracks, fetch);
      limit > 0 ==> |r.trackRequests| > 0 && r.trackRequests[0] == TracksRequest(ps[0].id, 0, Min(TracksPerRequest, limit))
  {
    if limit > 0 {
      VisitPlaylistsFirst(Start(), ps, limit, tracks, fetch);
    }
  }

  /** Request k of `rs` was for playlist k of `ps`, at a counter of at least
      `c`. */
  predicate RequestsFor(rs: seq<TracksRequest>, ps: seq<Playlist>, c: int)
  {
    |rs| <= |ps| && forall k :: 0 <= k < |rs| ==> rs[k].playlist == ps[k].id && c <= rs[k].countBefore
  }

  lemma RequestsForPrefix(rs: seq<TracksRequest>, scanned: seq<Playlist>, ps: seq<Playlist>, c: int)
    requires RequestsFor(rs, scanned, c) && scanned <= ps
    ensures RequestsFor(rs, ps, c)
  {
    forall k | 0 <= k < |rs| ensures rs[k].playlist == ps[k].id {
      assert scanned[k] == ps[k];
    }
  }

  lemma RequestsForCons(q: TracksRequest, rs: seq<TracksRequest>, ps: seq<Playlist>, c: int, c2: int)
    requires |ps| > 0 && q.playlist == ps[0].id && c <= q.countBefore
    requires c <= c2 && RequestsFor(rs, ps[1..], c2)
    ensures RequestsFor([q] + rs, ps, c)
  {
    var all := [q] + rs;
    forall k | 0 < k < |all| ensures all[k].playlist == ps[k].id && c <= all[k].countBefore {
      assert all[k] == rs[k - 1] && ps[1..][k - 1] == ps[k];
    }
  }

  /** The sort key: `x["popularity"]`. */
  function Pop(a: Artist): int
  {
    a.popularity.GetOr(0)
  }

  /** Most popular first. */
  predicate SortedDesc(s: seq<Artist>)
  {
    forall i, j :: 0 <= i < j < |s| ==> Pop(s[j]) <= Pop(s[i])
  }

  /** Where `x` goes in a descending list so that it lands after every
      strictly more popular artist and before every other one. */
  function InsertPos(x: Artist, t: seq<Artist>): (k: nat)
    ensures k <= |t|
    ensures forall i :: 0 <= i < k ==> Pop(x) < Pop(t[i])
    ensures k < |t| ==> Pop(t[k]) <= Pop(x)
  {
    if |t| == 0 || Pop(t[0]) <= Pop(x) then 0 else 1 + InsertPos(x, t[1..])
  }

  /** Inserting into a descending list keeps it descending and adds exactly
      `x`. */
  function InsertDesc(x: Artist, t: seq<Artist>): (r: seq<Artist>)
    requires SortedDesc(t)
    ensures SortedDesc(r)
    ensures |r| == |t| + 1
    ensures multiset(r) == multiset(t) + multiset{x}
  {
    var k := InsertPos(x, t);
    SpliceSorted(t[..k], x, t[k..]);
    assert t == t[..k] + t[k..];
    t[..k] + [x] + t[k..]
  }

  /** A descending list split in two, with `x` placed between a front of
      more popular artists and a back of no more popular ones, stays
      descending. */
  lemma SpliceSorted(front: seq<Artist>, x: Artist, back: seq<Artist>)
    requires SortedDesc(front + back)
    requires forall i :: 0 <= i < |front| ==> Pop(x) < Pop(front[i])
    requires |back| > 0 ==> Pop(back[0]) <= Pop(x)
    ensures SortedDesc(front + [x] + back)
  {
    var t := front + back;
    var r := front + [x] + back;
    var n := |front|;
    forall i, j | 0 <= i < j < |r| ensures Pop(r[j]) <= Pop(r[i]) {
      if j < n {
        assert r[i] == t[i] && r[j] == t[j];
      } else if j == n {
        assert r[i] == front[i];
      } else if i == n {
        assert r[j] == t[j - 1];
        if j - 1 > n {
          assert Pop(t[j - 1]) <= Pop(t[n]);
        }
      } else if i < n {
        assert r[i] == t[i] && r[j] == t[j - 1];
      } else {
        assert r[i] == t[i - 1] && r[j] == t[j - 1];
      }
    }
  }

  /** `sort(key=popularity, reverse=True)`, built by inserting from the back
      of the list so that each artist lands ahead of the equally popular
      artists that followed it. */
  function SortDesc(s: seq<Artist>): (r: seq<Artist>)
    ensures SortedDesc(r)
    ensures |r| == |s|
    ensures multiset(r) == multiset(s)
  {
    if |s| == 0 then []
    else
      assert s == [s[0]] + s[1..];
      InsertDesc(s[0], SortDesc(s[1..]))
  }

  function PopIs(p: int): Artist -> bool
  {
    (a: Artist) => Pop(a) == p
  }

  /** Inserting `x` ahead of a descending list, one popularity at a time:
      the artists of popularity `p` are `x` (if it has that popularity)
      followed by those of `t`, in their order. */
  lemma InsertStable(x: Artist, t: seq<Artist>, p: int)
    requires SortedDesc(t)
    ensures Filter(InsertDesc(x, t), PopIs(p)) == Filter([x], PopIs(p)) + Filter(t, PopIs(p))
  {
    var k := InsertPos(x, t);
    var front, back := t[..k], t[k..];
    assert t == front + back;
    SpliceFilter(front, x, back, Filter(t, PopIs(p)), p);
  }

  /** The splice at the insertion point, with the two halves named. */
  lemma SpliceFilter(front: seq<Artist>, x: Artist, back: seq<Artist>, ft: seq<Artist>, p: int)
    requires forall y :: y in front ==> Pop(x) < Pop(y)
    requires ft == Filter(front + back, PopIs(p))
    ensures Filter(front + [x] + back, PopIs(p)) == Filter([x], PopIs(p)) + ft
  {
    var f := PopIs(p);
    if Pop(x) == p {
      SpliceFirst(front, x, back, f);
    } else {
      SpliceSkipped(front, x, back, f);
    }
    FilterSingle(x, f);
  }

  /** The sort is stable: the artists of any one popularity keep their
      original relative order. */
  lemma {:induction false} SortStable(s: seq<Artist>, p: int)
    ensures Filter(SortDesc(s), PopIs(p)) == Filter(s, PopIs(p))
  {
    if |s| > 0 {
      var x, rest := s[0], s[1..];
      var t := SortDesc(rest);
      var f := PopIs(p);
      SortStable(rest, p);
      InsertStable(x, t, p);
      assert SortDesc(s) == InsertDesc(x, t);
      FilterCons(s, f);
    }
  }

  /** The first `n` artists of a list sorted by popularity: a most popular
      artist is kept whenever it beats the least popular kept one. */
  function Top(s: seq<Artist>, n: nat): (r: seq<Artist>)
    ensures |r| == Min(n, |s|)
    ensures SortedDesc(r)
    ensures multiset(r) <= multiset(s)
    ensures forall x :: x in s && |r| > 0 && Pop(r[|r| - 1]) < Pop(x) ==> x in r
  {
    var sorted := SortDesc(s);
    var m := Min(n, |s|);
    PrefixFacts(s, sorted, m);
    sorted[..m]
  }

  /** Taking the first `n` keeps, for each popularity, the first artists of
      that popularity in the input order. */
  lemma TopStable(s: seq<Artist>, n: nat, p: int)
    ensures Filter(Top(s, n), PopIs(p)) <= Filter(s, PopIs(p))
  {
    var sorted := SortDesc(s);
    var m := Min(n, |s|);
    assert Top(s, n) == sorted[..m];
    SortStable(s, p);
    FilterTake(sorted, m, PopIs(p));
  }

  /** The first `m` artists of a descending arrangement of `s`. */
  lemma PrefixFacts(s: seq<Artist>, sorted: seq<Artist>, m: nat)
    requires SortedDesc(sorted) && multiset(sorted) == multiset(s)
    requires m <= |sorted|
    ensures SortedDesc(sorted[..m])
    ensures multiset(sorted[..m]) <= multiset(s)
    ensures forall x :: x in s && m > 0 && Pop(sorted[m - 1]) < Pop(x) ==> x in sorted[..m]
  {
    assert sorted == sorted[..m] + sorted[m..];
    forall x | x in s && m > 0 && Pop(sorted[m - 1]) < Pop(x) ensures x in sorted[..m] {
      assert x in multiset(sorted);
      PrefixKeepsMorePopular(sorted, m, x);
    }
  }

  /** In a descending list, an artist more popular than the last of the first
      `m` is among them. */
  lemma PrefixKeepsMorePopular(sorted: seq<Artist>, m: nat, x: Artist)
    requires SortedDesc(sorted)
    requires 0 < m <= |sorted|
    requires x in sorted && Pop(sorted[m - 1]) < Pop(x)
    ensures x in sorted[..m]
  {
    var j :| 0 <= j < |sorted| && sorted[j] == x;
    assert sorted[..m][j] == x;
  }

  /** What the scan leaves behind: the returned artists, the list they were
      cut from (`list(artists_data.values())`), the requests it made, and the
      final track counter. */
  datatype Outcome = Outcome(artists: seq<Artist>, collected: seq<Artist>, trackRequests: seq<TracksRequest>, artistRequests: nat, trackCount: int)

  /** `get_user_top_tracks_from_playlists(user_id, access_token, limit)` given
      the public-playlists answer (None when it is missing, empty or has no
      items): scan the first five playlists, then return the twenty most
      popular collected artists, most popular first. */
  function PlaylistArtists(playlists: Option<seq<Playlist>>, limit: int, tracks: TracksFetch, fetch: ArtistFetch): (r: Outcome)
    ensures playlists.None? || playlists == Some([]) ==> r == Outcome([], [], [], 0, 0)
    ensures |r.artists| == Min(TopCount, |r.collected|)
    ensures SortedDesc(r.artists)
    ensures multiset(r.artists) <= multiset(r.collected)
    ensures forall x :: x in r.collected && |r.artists| > 0 && Pop(r.artists[|r.artists| - 1]) < Pop(x) ==> x in r.artists
    ensures |r.trackRequests| <= PlaylistsScanned
    ensures RequestsSized(r.trackRequests, limit) && CountersOrdered(r.trackRequests)
    ensures playlists.Some? && |playlists.value| > 0 && limit > 0 ==>
      |r.trackRequests| > 0 && r.trackRequests[0] == TracksRequest(playlists.value[0].id, 0, Min(TracksPerRequest, limit))
    ensures playlists.Some? ==> RequestsFor(r.trackRequests, playlists.value, 0)
    ensures playlists.Some? && |r.trackRequests| < Min(PlaylistsScanned, |playlists.value|) ==> r.trackCount >= limit
    ensures CollectsExactly(r.collected, r.trackRequests, tracks, limit, fetch)
    ensures Chained(r.trackRequests, tracks, limit) && r.trackCount == Final(r.trackRequests, tracks, limit)
  {
    if playlists.None? || |playlists.value| == 0 then Nothing()
    else ScanPlaylists(playlists.value, limit, tracks, fetch)
  }

  /** No playlists: no artists and no requests. */
  function Nothing(): (r: Outcome)
    ensures r.artists == [] && r.collected == [] && r.trackRequests == [] && r.artistRequests == 0 && r.trackCount == 0
  {
    Outcome([], [], [], 0, 0)
  }

  /** The scan of a non-empty playlist list: its first five playlists, then
      the cut. */
  function ScanPlaylists(ps: seq<Playlist>, limit: int, tracks: TracksFetch, fetch: ArtistFetch): (r: Outcome)
    requires |ps| > 0
    ensures |r.artists| == Min(TopCount, |r.collected|)
    ensures SortedDesc(r.artists)
    ensures multiset(r.artists) <= multiset(r.collected)
    ensures forall x :: x in r.collected && |r.artists| > 0 && Pop(r.artists[|r.artists| - 1]) < Pop(x) ==> x in r.artists
    ensures |r.trackRequests| <= PlaylistsScanned
    ensures RequestsSized(r.trackRequests, limit) && CountersOrdered(r.trackRequests)
    ensures limit > 0 ==> |r.trackRequests| > 0 && r.trackRequests[0] == TracksRequest(ps[0].id, 0, Min(TracksPerRequest, limit))
    ensures RequestsFor(r.trackRequests, ps, 0)
    ensures |r.trackRequests| < Min(PlaylistsScanned, |ps|) ==> r.trackCount >= limit
    ensures CollectsExactly(r.collected, r.trackRequests, tracks, limit, fetch)
    ensures Chained(r.trackRequests, tracks, limit) && r.trackCount == Final(r.trackRequests, tracks, limit)
  {
    var s := ScanFirstPlaylists(ps, limit, tracks, fetch);
    CollectedExactly(s, tracks, limit, fetch);
    Finish(s, fetch)
  }

  /** `items[:5]`. */
  function FirstPlaylists(ps: seq<Playlist>): (r: seq<Playlist>)
    ensures |r| == Min(PlaylistsScanned, |ps|) && r <= ps
  {
    if |ps| <= PlaylistsScanned then ps else ps[..PlaylistsScanned]
  }

  /** `items[:5]`, visited from a fresh state. */
  function ScanFirstPlaylists(ps: seq<Playlist>, limit: int, tracks: TracksFetch, fetch: ArtistFetch): (s: Scan)
    requires |ps| > 0
    ensures Valid(s, fetch) && FoundExactly(s, tracks, limit, fetch)
    ensures |s.trackRequests| <= PlaylistsScanned
    ensures RequestsSized(s.trackRequests, limit) && CountersOrdered(s.trackRequests)
    ensures limit > 0 ==> |s.trackRequests| > 0 && s.trackRequests[0] == TracksRequest(ps[0].id, 0, Min(TracksPerRequest, limit))
    ensures RequestsFor(s.trackRequests, ps, 0)
    ensures |s.trackRequests| < Min(PlaylistsScanned, |ps|) ==> s.trackCount >= limit
    ensures Chained(s.trackRequests, tracks, limit) && s.trackCount == Final(s.trackRequests, tracks, limit)
    ensures s.trackRequests == Trace(0, FirstPlaylists(ps), limit, tracks)
  {
    var scanned := FirstPlaylists(ps);
    var s := VisitPlaylists(Start(), scanned, limit, tracks, fetch);
    VisitPlaylistsTrace(Start(), scanned, limit, tracks, fetch);
    VisitPlaylistsConsistent(Start(), scanned, limit, tracks, fetch);
    VisitPlaylistsBudget(Start(), scanned, limit, tracks, fetch);
    VisitPlaylistsRequests(Start(), scanned, limit, tracks, fetch);
    FirstOfScan(scanned, limit, tracks, fetch);
    assert s.trackRequests[0..] == s.trackRequests;
    RequestsForPrefix(s.trackRequests, scanned, ps, 0);
    s
  }

  /** Every collected artist is the stored record of a contributed id whose
      artist request succeeds, and every such record is collected. */
  ghost predicate CollectsExactly(collected: seq<Artist>, rs: seq<TracksRequest>, tracks: TracksFetch, limit: int, fetch: ArtistFetch)
  {
    && (forall x :: x in collected ==>
          exists id :: Contributed(rs, tracks, limit, id) && fetch(id).Some? && x == Stored(fetch(id).value))
    && (forall id {:trigger Contributed(rs, tracks, limit, id)} :: Contributed(rs, tracks, limit, id) && fetch(id).Some? ==> Stored(fetch(id).value) in collected)
  }

  /** The dictionary's values are exactly the stored records of the
      contributed ids whose artist request succeeds. */
  lemma CollectedExactly(s: Scan, tracks: TracksFetch, limit: int, fetch: ArtistFetch)
    requires Valid(s, fetch) && FoundExactly(s, tracks, limit, fetch)
    ensures CollectsExactly(Values(s.found), s.trackRequests, tracks, limit, fetch)
  {
    var vs, ks := Values(s.found), Keys(s.found);
    forall x | x in vs
      ensures exists id :: Contributed(s.trackRequests, tracks, limit, id) && fetch(id).Some? && x == Stored(fetch(id).value)
    {
      var k :| 0 <= k < |vs| && vs[k] == x;
      assert ks[k] in ks;
    }
    forall id | Contributed(s.trackRequests, tracks, limit, id) && fetch(id).Some?
      ensures Stored(fetch(id).value) in vs
    {
      var k :| 0 <= k < |ks| && ks[k] == id;
      assert vs[k] == Stored(fetch(id).value);
    }
  }

  /** Every returned artist is the stored record of a contributed id whose
      artist request succeeds. */
  lemma PlaylistArtistsFromCatalogue(playlists: Option<seq<Playlist>>, limit: int, tracks: TracksFetch, fetch: ArtistFetch)
    ensures var r := PlaylistArtists(playlists, limit, tracks, fetch);
      forall x :: x in r.artists ==>
        exists id :: Contributed(r.trackRequests, tracks, limit, id) && fetch(id).Some? && x == Stored(fetch(id).value)
  {
    var r := PlaylistArtists(playlists, limit, tracks, fetch);
    KeptFromCatalogue(r.artists, r.collected, r.trackRequests, tracks, limit, fetch);
  }

  /** Artists kept from such a collection are such records too. */
  lemma KeptFromCatalogue(kept: seq<Artist>, collected: seq<Artist>, rs: seq<TracksRequest>, tracks: TracksFetch, limit: int, fetch: ArtistFetch)
    requires multiset(kept) <= multiset(collected)
    requires CollectsExactly(collected, rs, tracks, limit, fetch)
    ensures forall x :: x in kept ==>
      exists id :: Contributed(rs, tracks, limit, id) && fetch(id).Some? && x == Stored(fetch(id).value)
  {
    forall x | x in kept
      ensures exists id :: Contributed(rs, tracks, limit, id) && fetch(id).Some? && x == Stored(fetch(id).value)
    {
      assert x in multiset(collected);
      assert x in collected;
    }
  }

  /** `list(artists_data.values())`, sorted and cut at twenty. */
  function Finish(s: Scan, fetch: ArtistFetch): (r: Outcome)
    requires Valid(s, fetch)
    ensures r.collected == Values(s.found)
    ensures |r.artists| == Min(TopCount, |r.collected|)
    ensures SortedDesc(r.artists)
    ensures multiset(r.artists) <= multiset(r.collected)
    ensures forall x :: x in r.collected && |r.artists| > 0 && Pop(r.artists[|r.artists| - 1]) < Pop(x) ==> x in r.artists
    ensures forall x :: x in r.artists ==> exists id :: fetch(id).Some? && x == Stored(fetch(id).value)
    ensures r.trackRequests == s.trackRequests && r.artistRequests == s.artistRequests && r.trackCount == s.trackCount
  {
    var collected := Values(s.found);
    var top := Top(collected, TopCount);
    TopFromCatalogue(s.found, top, fetch);
    Outcome(top, collected, s.trackRequests, s.artistRequests, s.trackCount)
  }

  /** The cut at twenty keeps the stable order: the returned artists of any
      one popularity are the first ones of that popularity in the collected
      list. */
  lemma PlaylistArtistsStable(playlists: Option<seq<Playlist>>, limit: int, tracks: TracksFetch, fetch: ArtistFetch, p: int)
    ensures var r := PlaylistArtists(playlists, limit, tracks, fetch);
      Filter(r.artists, PopIs(p)) <= Filter(r.collected, PopIs(p))
  {
    var r := PlaylistArtists(playlists, limit, tracks, fetch);
    if playlists.Some? && |playlists.value| > 0 {
      TopStable(r.collected, TopCount, p);
    }
  }

  /** Every tracks request asked for between 1 and 20 tracks, and never for
      more than the limit. */
  lemma PlaylistRequestSizes(playlists: Option<seq<Playlist>>, limit: int, tracks: TracksFetch, fetch: ArtistFetch)
    ensures var rs := PlaylistArtists(playlists, limit, tracks, fetch).trackRequests;
      forall k :: 0 <= k < |rs| ==> 1 <= rs[k].asked <= Min(TracksPerRequest, limit)
  {
    var rs := PlaylistArtists(playlists, limit, tracks, fetch).trackRequests;
    RequestBounds(rs, limit);
  }

  /** The scan's tracks requests are the trace of the first five playlists
      from counter 0: they depend on the playlists, the limit and the tracks
      answers alone. */
  lemma PlaylistArtistsTrace(playlists: Option<seq<Playlist>>, limit: int, tracks: TracksFetch, fetch: ArtistFetch)
    ensures var rs := PlaylistArtists(playlists, limit, tracks, fetch).trackRequests;
      rs == if playlists.Some? then Trace(0, FirstPlaylists(playlists.value), limit, tracks) else []
  {
  }

  /** Every artist taken from the dictionary's values is the stored form of
      some successful artist request. */
  lemma TopFromCatalogue(found: seq<(string, Artist)>, top: seq<Artist>, fetch: ArtistFetch)
    requires FromCatalogue(found, fetch)
    requires multiset(top) <= multiset(Values(found))
    ensures forall x :: x in top ==> exists id :: fetch(id).Some? && x == Stored(fetch(id).value)
  {
    forall x | x in top ensures exists id :: fetch(id).Some? && x == Stored(fetch(id).value) {
      assert x in multiset(Values(found));
      var k :| 0 <= k < |found| && Values(found)[k] == x;
      assert fetch(found[k].0).Some? && x == Stored(fetch(found[k].0).value);
    }
  }

  /** With a catalogue that answers each id with that id's record, the
      returned artists have distinct ids, and each is the stored form of its
      own id's record. */
  lemma PlaylistArtistsEchoing(playlists: Option<seq<Playlist>>, limit: int, tracks: TracksFetch, fetch: ArtistFetch)
    requires Echoes(fetch)
    ensures var r := PlaylistArtists(playlists, limit, tracks, fetch).artists;
      && Distinct(Ids(r))
      && forall x :: x in r ==> fetch(x.id).Some? && x == Stored(fetch(x.id).value)
  {
    var r := PlaylistArtists(playlists, limit, tracks, fetch).artists;
    if playlists.Some? && |playlists.value| > 0 {
      var s := ScanFirstPlaylists(playlists.value, limit, tracks, fetch);
      assert r == Top(Values(s.found), TopCount);
      EchoedValuesDistinct(s.found, fetch);
      TopFromCatalogue(s.found, r, fetch);
      DistinctSubMultiset(r, Values(s.found));
      OwnRecords(r, fetch);
    }
  }

  /** Under an echoing catalogue each value's id is its key, so the values
      of a dictionary are pairwise distinct. */
  lemma EchoedValuesDistinct(found: seq<(string, Artist)>, fetch: ArtistFetch)
    requires Echoes(fetch)
    requires Distinct(Keys(found)) && FromCatalogue(found, fetch)
    ensures Distinct(Values(found))
  {
    forall i, j | 0 <= i < j < |found| ensures Values(found)[i] != Values(found)[j] {
      assert Values(found)[i].id == Keys(found)[i];
      assert Values(found)[j].id == Keys(found)[j];
    }
  }

  /** Under an echoing catalogue an artist that is the stored form of some
      record is the stored form of its own id's record, so two distinct such
      artists have distinct ids. */
  lemma OwnRecords(r: seq<Artist>, fetch: ArtistFetch)
    requires Echoes(fetch) && Distinct(r)
    requires forall x :: x in r ==> exists id :: fetch(id).Some? && x == Stored(fetch(id).value)
    ensures forall x :: x in r ==> fetch(x.id).Some? && x == Stored(fetch(x.id).value)
    ensures Distinct(Ids(r))
  {
    forall x | x in r ensures fetch(x.id).Some? && x == Stored(fetch(x.id).value) {
      var id :| fetch(id).Some? && x == Stored(fetch(id).value);
      assert x.id == id;
    }
    forall i, j | 0 <= i < j < |r| ensures Ids(r)[i] != Ids(r)[j] {
      assert r[i] in r && r[j] in r;
    }
  }

  /** A limit of zero or less ends the scan before any tracks request: no
      artist is requested or returned. */
  lemma NoBudgetNoRequests(playlists: Option<seq<Playlist>>, limit: int, tracks: TracksFetch, fetch: ArtistFetch)
    requires limit <= 0
    ensures PlaylistArtists(playlists, limit, tracks, fetch).artists == []
    ensures PlaylistArtists(playlists, limit, tracks, fetch).trackRequests == []
    ensures PlaylistArtists(playlists, limit, tracks, fetch).artistRequests == 0
  {
  }

  /** An artist whose request failed is requested again the next time its id
      turns up, and is still not stored. */
  lemma FailedArtistRequestedAgain(s: Scan, id: string, fetch: ArtistFetch)
    requires Valid(s, fetch)
    requires id !in Keys(s.found) && fetch(id).None?
    ensures var r := VisitArtists(s, [id, id], fetch);
      r.artistRequests == s.artistRequests + 2 && r.found == s.found
  {
    var once := VisitArtist(s, id, fetch);
    assert [id, id][1..] == [id];
    assert VisitArtists(s, [id, id], fetch) == VisitArtists(once, [id], fetch);
  }
}

=== FILE: rounding.dfy ===
/** Python's built-in `round(x)` on a number, with no digits argument: the
    nearest integer, ties to the even neighbour. Computed on exact reals. */
module Rounding {

  function Abs(x: real): real
  {
    if x < 0.0 then -x else x
  }

  /** Python's `round(x)`. */
  function RoundHalfEven(x: real): (n: int)
    ensures Abs(n as real - x) <= 0.5
    ensures Abs(n as real - x) == 0.5 ==> n % 2 == 0
  {
    var f := x.Floor;
    var frac := x - f as real;
    if frac < 0.5 then f
    else if frac > 0.5 then f + 1
    else if f % 2 == 0 then f
    else f + 1
  }

  /** The two properties above pin the result down: no other integer is
      within one half of `x` with ties broken to even. */
  lemma RoundHalfEvenUnique(x: real, m: int)
    requires Abs(m as real - x) <= 0.5
    requires Abs(m as real - x) == 0.5 ==> m % 2 == 0
    ensures m == RoundHalfEven(x)
  {
  }

  /** A whole number rounds to itself. */
  lemma RoundWhole(k: int)
    ensures RoundHalfEven(k as real) == k
  {
  }

  /** A value between two integers rounds to an integer between them. */
  lemma RoundBetween(x: real, lo: int, hi: int)
    requires lo as real <= x <= hi as real
    ensures lo <= RoundHalfEven(x) <= hi
  {
  }

  /** Rounding never reverses the order of two values. */
  lemma RoundMonotone(x: real, y: real)
    requires x <= y
    ensures RoundHalfEven(x) <= RoundHalfEven(y)
  {
  }

  /** `round(x * 100)`: a score as a whole percentage; a score in [0, 1]
      gives a percentage in [0, 100]. */
  function Percent(x: real): (p: int)
    ensures 0.0 <= x <= 1.0 ==> 0 <= p <= 100
    ensures x == 1.0 ==> p == 100
    ensures x == 0.0 ==> p == 0
  {
    if 0.0 <= x <= 1.0 then RoundBetween(x * 100.0, 0, 100); RoundHalfEven(x * 100.0)
    else RoundHalfEven(x * 100.0)
  }
}

=== FILE: seqs.dfy ===
/** Sequence helpers shared by the engine and the route helpers: Python's
    "first occurrence wins" de-duplication and list-comprehension filtering. */
module Seqs {

  /** No element occurs twice. */
  predicate Distinct<T(==)>(s: seq<T>)
  {
    forall i, j :: 0 <= i < j < |s| ==> s[i] != s[j]
  }

  /** The elements of `s` in order of first occurrence, each once (the key
      order of a Python dict built by iterating `s`). */
  function Dedupe<T(==,!new)>(s: seq<T>): (r: seq<T>)
    ensures forall y :: y in r <==> y in s
    ensures Distinct(r)
    ensures |r| <= |s|
  {
    if |s| == 0 then []
    else
      var init := s[..|s| - 1];
      var d := Dedupe(init);
      assert forall y :: y in s <==> y in init || y == s[|s| - 1];
      if s[|s| - 1] in d then d else d + [s[|s| - 1]]
  }

  /** `r` lists its elements in the order of their first occurrence in `s`:
      for any two entries, the earlier one occurs in `s` at a position up to
      which the later one has not yet occurred. */
  ghost predicate FirstOccurrenceOrder<T>(r: seq<T>, s: seq<T>)
  {
    forall i, j :: 0 <= i < j < |r| ==>
      exists a :: 0 <= a < |s| && s[a] == r[i] && r[j] !in s[..a + 1]
  }

  /** De-duplication keeps the order of first occurrence. */
  lemma {:induction false} DedupeOrder<T(!new)>(s: seq<T>)
    ensures FirstOccurrenceOrder(Dedupe(s), s)
  {
    if |s| > 0 {
      var init, x := s[..|s| - 1], s[|s| - 1];
      var d, r := Dedupe(init), Dedupe(s);
      DedupeOrder(init);
      forall i, j | 0 <= i < j < |r|
        ensures exists a :: 0 <= a < |s| && s[a] == r[i] && r[j] !in s[..a + 1]
      {
        if j < |d| {
          var a :| 0 <= a < |init| && init[a] == d[i] && d[j] !in init[..a + 1];
          assert s[..a + 1] == init[..a + 1];
          assert s[a] == r[i] && r[j] == d[j];
        } else {
          assert r == d + [x] && r[j] == x && x !in init;
          assert d[i] in d && d[i] in init;
          var a :| 0 <= a < |init| && init[a] == d[i];
          assert s[..a + 1] == init[..a + 1];
          assert s[a] == r[i];
        }
      }
    }
  }

  /** A sequence that is already duplicate-free is its own de-duplication. */
  lemma {:induction false} DedupeOfDistinct<T(!new)>(s: seq<T>)
    requires Distinct(s)
    ensures Dedupe(s) == s
  {
    if |s| > 0 {
      var init := s[..|s| - 1];
      DedupeOfDistinct(init);
      assert s[|s| - 1] !in init;
      assert s == init + [s[|s| - 1]];
    }
  }

  /** A duplicate-free sequence holds each value at most once. */
  lemma {:induction false} DistinctMultiplicity<T>(s: seq<T>, y: T)
    requires Distinct(s)
    ensures multiset(s)[y] <= 1
  {
    if |s| > 0 {
      var init := s[..|s| - 1];
      assert s == init + [s[|s| - 1]];
      DistinctMultiplicity(init, y);
      if s[|s| - 1] == y {
        assert y !in init;
      }
    }
  }

  /** Taking some of the elements of a duplicate-free sequence, in any order,
      gives a duplicate-free sequence. */
  lemma {:induction false} DistinctSubMultiset<T>(a: seq<T>, b: seq<T>)
    requires Distinct(b)
    requires multiset(a) <= multiset(b)
    ensures Distinct(a)
  {
    if |a| > 0 {
      var init, y := a[..|a| - 1], a[|a| - 1];
      assert a == init + [y];
      DistinctSubMultiset(init, b);
      if y in init {
        assert multiset(a)[y] >= 2;
        DistinctMultiplicity(b, y);
      }
    }
  }

  /** Python's `[x for x in s if p(x)]`. */
  function Filter<T(!new)>(s: seq<T>, p: T -> bool): (r: seq<T>)
    ensures |r| <= |s|
    ensures forall y :: y in r <==> y in s && p(y)
  {
    if |s| == 0 then []
    else
      var init := s[..|s| - 1];
      assert forall y :: y in s <==> y in init || y == s[|s| - 1];
      if p(s[|s| - 1]) then Filter(init, p) + [s[|s| - 1]] else Filter(init, p)
  }

  /** Filtering keeps everything when every element passes. */
  lemma {:induction false} FilterAll<T(!new)>(s: seq<T>, p: T -> bool)
    requires forall y :: y in s ==> p(y)
    ensures Filter(s, p) == s
  {
    if |s| > 0 {
      var init := s[..|s| - 1];
      FilterAll(init, p);
      assert s == init + [s[|s| - 1]];
    }
  }

  /** Filtering keeps a duplicate-free sequence duplicate-free. */
  lemma {:induction false} FilterDistinct<T(!new)>(s: seq<T>, p: T -> bool)
    requires Distinct(s)
    ensures Distinct(Filter(s, p))
  {
    if |s| > 0 {
      var init := s[..|s| - 1];
      FilterDistinct(init, p);
      assert s[|s| - 1] !in init;
    }
  }

  /** Filtering distributes over concatenation. */
  lemma {:induction false} FilterConcat<T(!new)>(a: seq<T>, b: seq<T>, p: T -> bool)
    ensures Filter(a + b, p) == Filter(a, p) + Filter(b, p)
  {
    if |b| == 0 {
      assert a + b == a;
    } else {
      var init, last := b[..|b| - 1], b[|b| - 1];
      FilterConcat(a, init, p);
      ConcatInit(a, b);
      var fa, fi := Filter(a, p), Filter(init, p);
      if p(last) {
        assert Filter(a + b, p) == (fa + fi) + [last];
        assert Filter(b, p) == fi + [last];
        assert (fa + fi) + [last] == fa + (fi + [last]);
      }
    }
  }

  /** The filter of a prefix is a prefix of the filter. */
  lemma {:induction false} FilterTake<T(!new)>(t: seq<T>, m: nat, p: T -> bool)
    requires m <= |t|
    ensures Filter(t[..m], p) <= Filter(t, p)
  {
    if m == |t| {
      assert t[..m] == t;
    } else {
      var init := t[..|t| - 1];
      assert t[..m] == init[..m];
      FilterTake(init, m, p);
    }
  }

  /** Dropping the last element of a concatenation with a non-empty right
      part drops it from that part. */
  lemma ConcatInit<T>(a: seq<T>, b: seq<T>)
    requires |b| > 0
    ensures (a + b)[..|a + b| - 1] == a + b[..|b| - 1]
    ensures (a + b)[|a + b| - 1] == b[|b| - 1]
  {
  }

  /** Filtering a non-empty list: the verdict on its head, then the filtered
      rest. */
  lemma FilterCons<T(!new)>(s: seq<T>, p: T -> bool)
    requires |s| > 0
    ensures Filter(s, p) == Filter([s[0]], p) + Filter(s[1..], p)
  {
    ConsSplit(s);
    FilterConcat([s[0]], s[1..], p);
  }

  /** A non-empty sequence is its head followed by its tail. */
  lemma ConsSplit<T>(s: seq<T>)
    requires |s| > 0
    ensures s == [s[0]] + s[1..]
  {
  }

  /** Filtering away every element leaves nothing. */
  lemma FilterNone<T(!new)>(s: seq<T>, p: T -> bool)
    requires forall y :: y in s ==> !p(y)
    ensures Filter(s, p) == []
  {
  }

  /** Splicing in an element that passes, in front of whose place nothing
      passes, puts it first among the survivors. */
  lemma SpliceFirst<T(!new)>(front: seq<T>, x: T, back: seq<T>, p: T -> bool)
    requires forall y :: y in front ==> !p(y)
    requires p(x)
    ensures Filter(front + [x] + back, p) == [x] + Filter(front + back, p)
  {
    FilterNone(front, p);
    FilterSingle(x, p);
    FilterConcat(front, [x], p);
    assert Filter(front + [x], p) == [x];
    var rest := Filter(back, p);
    FilterConcat(front + [x], back, p);
    assert Filter(front + [x] + back, p) == [x] + rest;
    FilterConcat(front, back, p);
    assert Filter(front, p) + rest == rest;
  }

  /** Filtering a one-element list. */
  lemma FilterSingle<T(!new)>(x: T, p: T -> bool)
    ensures Filter([x], p) == if p(x) then [x] else []
  {
    assert [x][..0] == [];
  }

  /** Splicing in an element that fails changes nothing. */
  lemma SpliceSkipped<T(!new)>(front: seq<T>, x: T, back: seq<T>, p: T -> bool)
    requires !p(x)
    ensures Filter(front + [x] + back, p) == Filter(front + back, p)
  {
    FilterSingle(x, p);
    FilterConcat(front, [x], p);
    assert Filter(front + [x], p) == Filter(front, p);
    FilterConcat(front + [x], back, p);
    FilterConcat(front, back, p);
  }

  /** Sum of a sequence of integers (Python's `sum`). */
  function Sum(xs: seq<int>): int
  {
    if |xs| == 0 then 0 else Sum(xs[..|xs| - 1]) + xs[|xs| - 1]
  }

  lemma {:induction false} SumBounds(xs: seq<int>, lo: int, hi: int)
    requires forall k :: 0 <= k < |xs| ==> lo <= xs[k] <= hi
    ensures lo * |xs| <= Sum(xs) <= hi * |xs|
  {
    if |xs| > 0 {
      var n := |xs| - 1;
      SumBounds(xs[..n], lo, hi);
      assert lo <= xs[n] <= hi;
      assert lo * |xs| == lo * n + lo;
      assert hi * |xs| == hi * n + hi;
    }
  }
}

=== FILE: spotify.dfy ===
/** Two pure helpers of `SpotifyService`: reading a user id out of a profile
    URL, and deciding whether a stored access token is still usable. */
module Spotify {
  import opened Wrappers
  import opened Strings

  const ProfileMarker: string := "open.spotify.com/user/"
  const UserSegment: string := "/user/"

  /** The text before the first "/user/", after it, and the rest of the
      split on "?" of the part after it. */
  function UserIdSegment(url: string): (seg: string)
    requires Contains(url, UserSegment)
    ensures '?' !in seg
    ensures !Contains(seg, UserSegment)
  {
    var parts := Split(url, UserSegment);
    var query := Split(parts[1], "?");
    QueryCutFacts(parts[1]);
    query[0]
  }

  /** The part of a piece before its first "?" has no "?" and, like the
      piece, no "/user/". */
  lemma QueryCutFacts(piece: string)
    requires !Contains(piece, UserSegment)
    ensures '?' !in Split(piece, "?")[0]
    ensures !Contains(Split(piece, "?")[0], UserSegment)
  {
    var query := Split(piece, "?");
    NoCharIfNotContained(query[0], '?');
    var tail := JoinPeel(query, "?");
    if Contains(query[0], UserSegment) {
      ContainsAppend(query[0], tail, UserSegment);
    }
  }

  /** A string that does not contain the one-character string `[c]` does
      not contain `c`. */
  lemma NoCharIfNotContained(s: string, c: char)
    requires !Contains(s, [c])
    ensures c !in s
  {
    if c in s {
      var i :| 0 <= i < |s| && s[i] == c;
      assert s[i..i + 1] == [c];
      assert OccursAt(s, [c], i);
    }
  }

  /** The profile marker contains "/user/". */
  lemma MarkerHasUserSegment()
    ensures Contains(ProfileMarker, UserSegment)
  {
    assert ProfileMarker == "open.spotify.com" + UserSegment + "";
    ContainsSelf(UserSegment);
    ContainsWithin("open.spotify.com", UserSegment, "", UserSegment);
  }

  /** `extract_user_id_from_url(spotify_url)`. None and the empty string give
      None; anything not starting with "http" is taken as a bare id and
      stripped; a profile URL gives the stripped text between the first
      "/user/" and the next "?" or "/user/"; any other URL gives None. */
  function ExtractUserIdFromUrl(url: Option<string>): (r: Option<string>)
    ensures url.None? || url == Some("") ==> r.None?
    ensures url.Some? && url.value != "" && !StartsWith(url.value, "http") ==> r == Some(Strip(url.value))
    ensures url.Some? && StartsWith(url.value, "http") && !Contains(url.value, ProfileMarker) ==> r.None?
    ensures url.Some? && StartsWith(url.value, "http") && Contains(url.value, ProfileMarker) ==>
      r.Some? && '?' !in r.value && !Contains(r.value, UserSegment)
  {
    match url
    case None => None
    case Some(u) =>
      if u == "" then None
      else if !StartsWith(u, "http") then Some(Strip(u))
      else if Contains(u, ProfileMarker) then
        MarkerHasUserSegment();
        ContainsInContains(u, ProfileMarker, UserSegment);
        var parts := Split(u, UserSegment);
        if |parts| < 2 then None
        else
          var seg := UserIdSegment(u);
          StripKeepsAbsence(seg, UserSegment);
          Some(Strip(seg))
      else None
  }

  /** Stripping never creates an occurrence. */
  lemma StripKeepsAbsence(s: string, sep: string)
    requires !Contains(s, sep)
    ensures !Contains(Strip(s), sep)
  {
    var r := Strip(s);
    var a := LeadingSpace(s);
    assert s == s[..a] + r + s[a + |r|..];
    if Contains(r, sep) {
      ContainsWithin(s[..a], r, s[a + |r|..], sep);
    }
  }

  /** The `except IndexError` branch cannot be taken: a URL containing the
      profile marker always splits into at least two pieces around "/user/". */
  lemma IndexErrorUnreachable(u: string)
    requires Contains(u, ProfileMarker)
    ensures |Split(u, UserSegment)| >= 2
  {
    MarkerHasUserSegment();
    ContainsInContains(u, ProfileMarker, UserSegment);
  }

  /** `Join` peeled once: the first part, then nothing or the separator
      followed by the join of the others. */
  lemma JoinPeel(parts: seq<string>, sep: string) returns (tail: string)
    requires |parts| >= 1
    ensures Join(parts, sep) == parts[0] + tail
    ensures |parts| == 1 ==> tail == ""
    ensures |parts| >= 2 ==> tail == sep + Join(parts[1..], sep) && StartsWith(tail, sep)
  {
    if |parts| == 1 {
      tail := "";
      assert Join(parts, sep) == parts[0] + tail;
    } else {
      tail := sep + Join(parts[1..], sep);
      assert tail[..|sep|] == sep;
    }
  }

  /** A string cut at its first "/user/" and then at the next "?": the text
      before, the segment, and the rest, which is empty or starts at that "?"
      or at a further "/user/". */
  lemma CutAtUserSegment(u: string) returns (before: string, rest: string)
    requires Contains(u, UserSegment)
    ensures u == before + UserSegment + UserIdSegment(u) + rest
    ensures FindIndex(u, UserSegment) == Some(|before|)
    ensures !Contains(before, UserSegment)
    ensures rest == "" || StartsWith(rest, "?") || StartsWith(rest, UserSegment)
  {
    var parts := Split(u, UserSegment);
    before := parts[0];
    var tail := PeelTwo(parts, UserSegment);
    var seg := UserIdSegment(u);
    assert seg == Split(parts[1], "?")[0];
    rest := QueryCut(parts[1], tail);
    Regroup(u, before, UserSegment, parts[1], tail, seg, rest);
  }

  /** Re-cutting the end of a concatenation. */
  lemma Regroup(u: string, before: string, sep: string, piece: string, tail: string, seg: string, rest: string)
    requires u == before + sep + piece + tail
    requires piece + tail == seg + rest
    ensures u == before + sep + seg + rest
  {
    assert before + sep + piece + tail == (before + sep) + (piece + tail);
    assert before + sep + seg + rest == (before + sep) + (seg + rest);
  }

  /** Joining two or more pieces: the first, the separator, the second, and
      then nothing or the separator again. */
  lemma PeelTwo(parts: seq<string>, sep: string) returns (tail: string)
    requires |parts| >= 2
    ensures Join(parts, sep) == parts[0] + sep + parts[1] + tail
    ensures tail == "" || StartsWith(tail, sep)
  {
    var t1 := JoinPeel(parts, sep);
    tail := JoinPeel(parts[1..], sep);
    assert parts[1..][0] == parts[1];
    assert parts[1..][1..] == parts[2..];
    assert parts[0] + (sep + (parts[1] + tail)) == parts[0] + sep + parts[1] + tail;
  }

  /** A piece followed by `t2` is its part before the first "?", then a rest
      that is empty, starts with "?", or is `t2` itself. */
  lemma QueryCut(piece: string, t2: string) returns (rest: string)
    requires t2 == "" || StartsWith(t2, UserSegment)
    ensures piece + t2 == Split(piece, "?")[0] + rest
    ensures rest == "" || StartsWith(rest, "?") || StartsWith(rest, UserSegment)
  {
    var query := Split(piece, "?");
    var t3 := JoinPeel(query, "?");
    rest := t3 + t2;
    AppendCut(piece, query[0], t3, t2);
  }

  /** Appending a rest that is empty or starts with "/user/" to a piece cut
      before its first "?". */
  lemma AppendCut(piece: string, head: string, t3: string, t2: string)
    requires piece == head + t3
    requires t3 == "" || StartsWith(t3, "?")
    requires t2 == "" || StartsWith(t2, UserSegment)
    ensures piece + t2 == head + (t3 + t2)
    ensures t3 + t2 == "" || StartsWith(t3 + t2, "?") || StartsWith(t3 + t2, UserSegment)
  {
    if t3 != "" {
      assert (t3 + t2)[..1] == t3[..1];
    }
  }

  /** The segment ends no later than the next "/user/": in the text after
      the first "/user/", no further one starts inside the segment. */
  lemma SegmentLeftmost(u: string, before: string, after: string)
    requires Contains(u, UserSegment)
    requires FindIndex(u, UserSegment) == Some(|before|)
    requires |before| + |UserSegment| <= |u| && after == u[|before| + |UserSegment|..]
    ensures forall i :: 0 <= i < |UserIdSegment(u)| ==> !OccursAt(after, UserSegment, i)
  {
    var parts := Split(u, UserSegment);
    var pieces := Split(after, UserSegment);
    assert pieces[0] == parts[1];
    var query := Split(parts[1], "?");
    var t := JoinPeel(query, "?");
    assert |UserIdSegment(u)| <= |parts[1]|;
    forall i | 0 <= i < |UserIdSegment(u)| ensures !OccursAt(after, UserSegment, i) {
      if |pieces| == 1 {
        assert !Contains(after, UserSegment);
        assert i <= |after|;
      }
    }
  }

  /** What a profile URL is cut into: the text before the first "/user/",
      the segment up to the next "?" or "/user/", and the rest, which is
      empty or starts at that "?" or "/user/". The extracted id is the
      stripped segment. */
  lemma ProfileUrlSegment(u: string) returns (before: string, seg: string, rest: string)
    requires StartsWith(u, "http") && Contains(u, ProfileMarker)
    ensures u == before + UserSegment + seg + rest
    ensures FindIndex(u, UserSegment) == Some(|before|)
    ensures !Contains(before, UserSegment)
    ensures !Contains(seg, UserSegment) && '?' !in seg
    ensures rest == "" || StartsWith(rest, "?") || StartsWith(rest, UserSegment)
    ensures ExtractUserIdFromUrl(Some(u)) == Some(Strip(seg))
    ensures seg == UserIdSegment(u)
    ensures forall i :: 0 <= i < |seg| ==> !OccursAt(seg + rest, UserSegment, i)
  {
    IndexErrorUnreachable(u);
    seg := UserIdSegment(u);
    before, rest := CutAtUserSegment(u);
    Regroup4(u, before, UserSegment, seg, rest);
    SegmentLeftmost(u, before, seg + rest);
  }

  /** Cutting a four-part concatenation after its second part. */
  lemma Regroup4(u: string, a: string, b: string, c: string, d: string)
    requires u == a + b + c + d
    ensures |a| + |b| <= |u| && u[|a| + |b|..] == c + d
  {
    assert u == (a + b) + (c + d);
  }

  /** Seconds before the recorded expiry at which a token stops counting as
      valid (`timedelta(minutes=5)`). */
  const ExpiryBuffer: int := 300

  /** The stored token record: its `expires_at` entry, in whole seconds, if
      present, and how many other entries it has. */
  datatype TokenData = TokenData(expiresAt: Option<int>, otherEntries: nat)

  /** Python truthiness of the token dictionary: non-empty. */
  predicate NonEmpty(t: TokenData)
  {
    t.expiresAt.Some? || t.otherEntries > 0
  }

  /** `is_token_valid(token_data)` at clock reading `now` (seconds). */
  function IsTokenValid(token: Option<TokenData>, now: int): (valid: bool)
    ensures valid <==> token.Some? && token.value.expiresAt.Some? && now < token.value.expiresAt.value - ExpiryBuffer
  {
    match token
    case None => false
    case Some(t) =>
      if !NonEmpty(t) || t.expiresAt.None? then false
      else now < t.expiresAt.value - ExpiryBuffer
  }

  /** Once a token is judged invalid it stays invalid as the clock advances. */
  lemma TokenValidityMonotone(token: Option<TokenData>, now: int, later: int)
    requires now <= later
    requires !IsTokenValid(token, now)
    ensures !IsTokenValid(token, later)
  {
  }

  /** In the last five minutes before expiry a token is already invalid. */
  lemma TokenInvalidWithinBuffer(t: TokenData, now: int)
    requires t.expiresAt.Some?
    requires t.expiresAt.value - ExpiryBuffer <= now
    ensures !IsTokenValid(Some(t), now)
  {
  }
}

=== FILE: stats.dfy ===
/** The statistics helpers of the API routes: the unique genres of an artist
    list, the variety label derived from their number, and the stats record
    assembled from a fetched top-artists response. */
module Stats {
  import opened Wrappers
  import opened Seqs
  import opened Artists

  /** `get_unique_genres(artists)`: every genre of every artist that has a
      genre list, each once. The source returns `list(set)`, whose order
      Python does not define; the loops below pick elements in an arbitrary
      order for the same reason. */
  method UniqueGenres(xs: seq<Artist>) returns (r: seq<string>)
    ensures Distinct(r)
    ensures forall g :: g in r <==> g in GenreSet(xs)
    ensures |r| == |GenreSet(xs)|
  {
    var genres: set<string> := {};
    var i := 0;
    while i < |xs|
      invariant 0 <= i <= |xs|
      invariant forall g :: g in genres <==> HasGenre(xs[..i], g)
    {
      var added := set g | g in GenresOf(xs[i]);
      genres := genres + added;
      forall g ensures HasGenre(xs[..i + 1], g) <==> HasGenre(xs[..i], g) || g in GenresOf(xs[i]) {
        if HasGenre(xs[..i + 1], g) {
          var k :| 0 <= k < i + 1 && g in GenresOf(xs[..i + 1][k]);
          if k < i {
            assert xs[..i][k] == xs[..i + 1][k];
          }
        }
        if HasGenre(xs[..i], g) {
          var k :| 0 <= k < i && g in GenresOf(xs[..i][k]);
          assert xs[..i + 1][k] == xs[..i][k];
        }
        if g in GenresOf(xs[i]) {
          assert xs[..i + 1][i] == xs[i];
        }
      }
      i := i + 1;
    }
    assert xs[..|xs|] == xs;
    assert genres == GenreSet(xs);
    var pending := genres;
    r := [];
    while pending != {}
      invariant pending <= genres
      invariant Distinct(r)
      invariant forall g :: g in r <==> g in genres && g !in pending
      invariant |r| + |pending| == |genres|
      decreases |pending|
    {
      var g :| g in pending;
      r := r + [g];
      pending := pending - {g};
    }
  }

  /** The variety labels of `calculate_music_variety`. */
  datatype Variety = Unknown | VeryLow | Low | Medium | High | VeryHigh

  function Label(v: Variety): string
  {
    match v
    case Unknown => "Unknown"
    case VeryLow => "Very Low"
    case Low => "Low"
    case Medium => "Medium"
    case High => "High"
    case VeryHigh => "Very High"
  }

  /** Position of a known label from lowest (0) to highest (4). */
  function Level(v: Variety): nat
  {
    match v
    case Unknown => 0
    case VeryLow => 0
    case Low => 1
    case Medium => 2
    case High => 3
    case VeryHigh => 4
  }

  /** `calculate_music_variety(artists)`: Unknown for an empty list, else a
      label chosen by the number of distinct genres with thresholds 10, 7, 4
      and 2. */
  function MusicVariety(xs: seq<Artist>): (v: Variety)
    ensures v == Unknown <==> |xs| == 0
    ensures |xs| > 0 && |GenreSet(xs)| == 0 ==> v == VeryLow
  {
    if |xs| == 0 then Unknown
    else
      var count := |GenreSet(xs)|;
      if count >= 10 then VeryHigh
      else if count >= 7 then High
      else if count >= 4 then Medium
      else if count >= 2 then Low
      else VeryLow
  }

  /** Each label of a non-empty list covers exactly one band of genre counts. */
  lemma VarietyBands(xs: seq<Artist>)
    requires |xs| > 0
    ensures MusicVariety(xs) == VeryHigh <==> |GenreSet(xs)| >= 10
    ensures MusicVariety(xs) == High <==> 7 <= |GenreSet(xs)| < 10
    ensures MusicVariety(xs) == Medium <==> 4 <= |GenreSet(xs)| < 7
    ensures MusicVariety(xs) == Low <==> 2 <= |GenreSet(xs)| < 4
    ensures MusicVariety(xs) == VeryLow <==> |GenreSet(xs)| < 2
  {
  }

  /** More distinct genres never give a lower label. */
  lemma VarietyMonotone(xs: seq<Artist>, ys: seq<Artist>)
    requires |xs| > 0 && |ys| > 0
    requires |GenreSet(xs)| <= |GenreSet(ys)|
    ensures Level(MusicVariety(xs)) <= Level(MusicVariety(ys))
  {
  }

  /** The statistics record of `_get_cached_user_stats`. */
  datatype UserStats = UserStats(topArtistsCount: nat, topGenresCount: nat, musicVariety: string)

  /** `_get_cached_user_stats` given the fetched response's `items` entry
      (None when the response has none, which the source reads as an empty
      list). */
  function UserStatsOf(items: Option<seq<Artist>>): (s: UserStats)
    ensures s.topArtistsCount == |items.GetOr([])|
    ensures s.topGenresCount == |GenreSet(items.GetOr([]))|
    ensures s.musicVariety == "Unknown" <==> |items.GetOr([])| == 0
    ensures s.topGenresCount == 0 <==> |GenreTags(items.GetOr([]))| == 0
    ensures s.musicVariety == Label(MusicVariety(items.GetOr([])))
  {
    var top := items.GetOr([]);
    NoGenresNoTags(top);
    UserStats(|top|, |GenreSet(top)|, Label(MusicVariety(top)))
  }
}

=== FILE: strings.dfy ===
/** Python `str` operations the core relies on: `in` (substring test),
    `startswith`, `split(sep)`, `strip()` and `f"{n}"` for integers. */
module Strings {
  import opened Wrappers

  /** `sep` occurs in `s` starting at index `i`. */
  predicate OccursAt(s: string, sep: string, i: nat)
  {
    i + |sep| <= |s| && s[i..i + |sep|] == sep
  }

  /** Python's `sep in s`. */
  predicate Contains(s: string, sep: string)
  {
    exists i :: 0 <= i <= |s| && OccursAt(s, sep, i)
  }

  /** Python's `s.startswith(p)`. */
  predicate StartsWith(s: string, p: string)
  {
    p <= s
  }

  lemma OccursInSuffix(s: string, sep: string, j: nat)
    requires |s| > 0
    ensures OccursAt(s[1..], sep, j) <==> OccursAt(s, sep, j + 1)
  {
    if j + 1 + |sep| <= |s| {
      assert s[1..][j..j + |sep|] == s[j + 1..j + 1 + |sep|];
    }
  }

  /** A contained string also occurs in any string containing the host. */
  lemma ContainsWithin(a: string, s: string, b: string, sep: string)
    requires Contains(s, sep)
    ensures Contains(a + s + b, sep)
  {
    var i :| 0 <= i <= |s| && OccursAt(s, sep, i);
    assert (a + s + b)[|a| + i..|a| + i + |sep|] == s[i..i + |sep|];
    assert OccursAt(a + s + b, sep, |a| + i);
  }

  /** Appending text keeps an occurrence. */
  lemma ContainsAppend(s: string, b: string, sep: string)
    requires Contains(s, sep)
    ensures Contains(s + b, sep)
  {
    var i :| 0 <= i <= |s| && OccursAt(s, sep, i);
    assert (s + b)[i..i + |sep|] == s[i..i + |sep|];
    assert OccursAt(s + b, sep, i);
  }

  /** Prepending text keeps an occurrence. */
  lemma ContainsPrepend(a: string, s: string, sep: string)
    requires Contains(s, sep)
    ensures Contains(a + s, sep)
  {
    var i :| 0 <= i <= |s| && OccursAt(s, sep, i);
    assert (a + s)[|a| + i..|a| + i + |sep|] == s[i..i + |sep|];
    assert OccursAt(a + s, sep, |a| + i);
  }

  /** The middle parts of a concatenation occur in it together. */
  lemma ContainsMiddle(a: string, x: string, y: string, z: string, b: string)
    ensures Contains(a + x + y + z + b, x + y + z)
  {
    var m := x + y + z;
    assert a + x + y + z + b == a + m + b;
    assert (a + m + b)[|a|..|a| + |m|] == m;
    assert OccursAt(a + m + b, m, |a|);
  }

  /** Python's `s.endswith(x)`. */
  predicate EndsWith(s: string, x: string)
  {
    |x| <= |s| && s[|s| - |x|..] == x
  }

  /** `y` is what `x + y` ends with. */
  lemma EndsWithLast(x: string, y: string)
    ensures EndsWith(x + y, y)
  {
    assert (x + y)[|x + y| - |y|..] == y;
  }

  /** A string ending with `a + b` ends with `b`. */
  lemma EndsWithTail(s: string, a: string, b: string)
    requires EndsWith(s, a + b)
    ensures EndsWith(s, b)
  {
    assert s[|s| - |b|..] == (a + b)[|a|..];
  }

  /** A suffix occurs in the string. */
  lemma EndsWithContains(s: string, x: string)
    requires EndsWith(s, x)
    ensures Contains(s, x)
  {
    assert OccursAt(s, x, |s| - |x|);
  }

  lemma ContainsSelf(s: string)
    ensures Contains(s, s)
  {
    assert OccursAt(s, s, 0);
  }

  /** Containment is transitive. */
  lemma ContainsInContains(s: string, mid: string, sep: string)
    requires Contains(s, mid) && Contains(mid, sep)
    ensures Contains(s, sep)
  {
    var i :| 0 <= i <= |s| && OccursAt(s, mid, i);
    var j :| 0 <= j <= |mid| && OccursAt(mid, sep, j);
    forall k | 0 <= k < |sep| ensures s[i + j + k] == sep[k] {
      assert mid[j..j + |sep|][k] == sep[k];
      assert s[i..i + |mid|][j + k] == mid[j + k];
    }
    assert s[i + j..i + j + |sep|] == sep;
    assert OccursAt(s, sep, i + j);
  }

  /** Index of the first occurrence of `sep` in `s` (Python's `s.find(sep)`,
      with None for -1). */
  function FindIndex(s: string, sep: string): (r: Option<nat>)
    ensures r.Some? ==> OccursAt(s, sep, r.value)
    ensures r.Some? ==> forall j :: 0 <= j < r.value ==> !OccursAt(s, sep, j)
    ensures r.None? <==> !Contains(s, sep)
    decreases |s|
  {
    if OccursAt(s, sep, 0) then Some(0)
    else if |s| == 0 then None
    else
      var rest := FindIndex(s[1..], sep);
      forall j: nat ensures OccursAt(s[1..], sep, j) <==> OccursAt(s, sep, j + 1) {
        OccursInSuffix(s, sep, j);
      }
      if rest.Some? then
        assert forall j :: 1 <= j <= rest.value ==> !OccursAt(s, sep, j) by {
          forall j | 1 <= j <= rest.value ensures !OccursAt(s, sep, j) {
            assert !OccursAt(s[1..], sep, j - 1);
          }
        }
        Some(rest.value + 1)
      else
        assert !Contains(s, sep) by {
          forall i | 0 <= i <= |s| ensures !OccursAt(s, sep, i) {
            if i > 0 { assert !OccursAt(s[1..], sep, i - 1); }
          }
        }
        None
  }

  /** Inverse of `Split`: Python's `sep.join(parts)`. */
  function Join(parts: seq<string>, sep: string): string
  {
    if |parts| == 0 then ""
    else if |parts| == 1 then parts[0]
    else parts[0] + sep + Join(parts[1..], sep)
  }

  /** A prefix of `s` that ends before the first occurrence of `sep` does not
      contain `sep`. */
  lemma NoOccurrenceBefore(s: string, sep: string, i: nat)
    requires i <= |s|
    requires forall j :: 0 <= j < i ==> !OccursAt(s, sep, j)
    requires |sep| > 0
    ensures !Contains(s[..i], sep)
  {
    forall j | 0 <= j <= i && OccursAt(s[..i], sep, j) ensures false {
      assert s[..i][j..j + |sep|] == s[j..j + |sep|];
      assert OccursAt(s, sep, j);
    }
  }

  /** Python's `s.split(sep)` for a non-empty separator: the pieces between
      successive non-overlapping occurrences of `sep`, scanned left to right. */
  function Split(s: string, sep: string): (parts: seq<string>)
    requires |sep| > 0
    ensures |parts| >= 1
    ensures Join(parts, sep) == s
    ensures forall k :: 0 <= k < |parts| ==> !Contains(parts[k], sep)
    ensures |parts| >= 2 <==> Contains(s, sep)
    ensures |parts| >= 2 ==> FindIndex(s, sep) == Some(|parts[0]|)
    ensures |parts| >= 2 ==> parts[1..] == Split(s[|parts[0]| + |sep|..], sep)
    decreases |s|
  {
    match FindIndex(s, sep)
    case None => [s]
    case Some(i) =>
      NoOccurrenceBefore(s, sep, i);
      var rest := Split(s[i + |sep|..], sep);
      var parts := [s[..i]] + rest;
      assert parts[1..] == rest;
      assert s == s[..i] + sep + s[i + |sep|..];
      parts
  }

  /** Python's `str.isspace()` for one character. */
  predicate IsSpace(c: char)
  {
    c in {'\t', '\n', '\U{000B}', '\U{000C}', '\r', '\U{001C}', '\U{001D}', '\U{001E}',
          '\U{001F}', ' ', '\U{0085}', '\U{00A0}', '\U{1680}', '\U{2000}', '\U{2001}',
          '\U{2002}', '\U{2003}', '\U{2004}', '\U{2005}', '\U{2006}', '\U{2007}',
          '\U{2008}', '\U{2009}', '\U{200A}', '\U{2028}', '\U{2029}', '\U{202F}',
          '\U{205F}', '\U{3000}'}
  }

  predicate AllSpace(s: string)
  {
    forall k :: 0 <= k < |s| ==> IsSpace(s[k])
  }

  /** `r` is what is left of `s` once the space prefix `s[..a]` and a space
      suffix are cut away. */
  predicate StrippedAt(s: string, a: nat, r: string)
  {
    && a + |r| <= |s|
    && s[a..a + |r|] == r
    && AllSpace(s[..a])
    && AllSpace(s[a + |r|..])
  }

  /** The number of whitespace characters `s` starts with. */
  function LeadingSpace(s: string): (n: nat)
    ensures n <= |s|
    ensures AllSpace(s[..n])
    ensures n < |s| ==> !IsSpace(s[n])
  {
    if |s| > 0 && IsSpace(s[0]) then
      var n := 1 + LeadingSpace(s[1..]);
      assert forall k :: 1 <= k < n ==> s[..n][k] == s[1..][..n - 1][k - 1];
      n
    else 0
  }

  function TrimEnd(s: string): (r: string)
    ensures |r| <= |s| && r == s[..|r|]
    ensures AllSpace(s[|r|..])
    ensures r == [] || !IsSpace(r[|r| - 1])
  {
    if |s| > 0 && IsSpace(s[|s| - 1]) then
      var r := TrimEnd(s[..|s| - 1]);
      assert s[|r|..] == s[..|s| - 1][|r|..] + [s[|s| - 1]];
      r
    else s
  }

  /** Python's `s.strip()`: removes leading and trailing whitespace and
      nothing else. */
  function Strip(s: string): (r: string)
    ensures |r| <= |s|
    ensures r == [] || (!IsSpace(r[0]) && !IsSpace(r[|r| - 1]))
    ensures StrippedAt(s, LeadingSpace(s), r)
    ensures forall c :: c in r ==> c in s
  {
    var a := LeadingSpace(s);
    var t := s[a..];
    var r := TrimEnd(t);
    assert s[a..a + |r|] == t[..|r|];
    assert s[a + |r|..] == t[|r|..];
    r
  }

  /** The decimal digit character for `d`. */
  function Digit(d: nat): char
    requires d < 10
  {
    (48 + d) as char
  }

  predicate IsDigit(c: char)
  {
    48 <= c as int <= 57
  }

  /** The number a string of decimal digits denotes (inverse of `NatToString`). */
  function DecimalValue(s: string): nat
    requires forall k :: 0 <= k < |s| ==> IsDigit(s[k])
  {
    if |s| == 0 then 0
    else
      assert IsDigit(s[|s| - 1]);
      DecimalValue(s[..|s| - 1]) * 10 + (s[|s| - 1] as int - 48)
  }

  /** Python's `f"{n}"` for a non-negative integer. */
  function NatToString(n: nat): (r: string)
    ensures |r| >= 1
    ensures forall k :: 0 <= k < |r| ==> IsDigit(r[k])
    ensures DecimalValue(r) == n
    ensures r[0] == '0' ==> r == "0"
  {
    if n < 10 then [Digit(n)]
    else
      var prefix := NatToString(n / 10);
      var r := prefix + [Digit(n % 10)];
      assert r[..|r| - 1] == prefix;
      r
  }

  /** Python's `f"{i}"` for any integer. */
  function IntToString(i: int): string
  {
    if i >= 0 then NatToString(i) else "-" + NatToString(-i)
  }

  /** Decimal rendering is injective: different counts print differently. */
  lemma NatToStringInjective(m: nat, n: nat)
    requires NatToString(m) == NatToString(n)
    ensures m == n
  {
  }
}

=== FILE: wrappers.dfy ===
/** Optional values, standing in for Python's `None` where the source returns or
    accepts "nothing". */
module Wrappers {

  datatype Option<+T> = None | Some(value: T) {

    /** Returns the value in Some, or `default` for None (Python's `d.get(k, default)`). */
    function GetOr(default: T): T
    {
      match this
      case Some(v) => v
      case None => default
    }
  }
}
